=== FILE: README.md ===
# Jarvis finance core in Dafny

A model of the decision and aggregation logic of the Jarvis personal-finance
front end (rogerbertan/jarvis-frontend). Each part of the model takes as
parameters what the application reads from its environment: the database, the
signed-in user, the clock and the time zone.

The modelled parts:

- **Expense server actions.**
  - The credit-card installment planner: the split of a total into `n` shares, the due date of each share and the parent/child records.
  - The validation and routing of `createExpense`.
  - The guard and partial update of `updateExpense`.
  - The delete cascade of `deleteExpense`.
  - The listing filters and the current-month total.
- **Income and category server actions.**
  - Amount validation and the partial update.
  - Id and user scoping.
  - The idempotent seeding of the default categories.
- **The two route guards.**
  - `updateSession`, with its route classes, its redirect decisions, its fixed headers and the `pathname` setter that normalises the return target.
  - The application `middleware`.
- **Analytics.**
  - The filter state machine.
  - The date range of each period.
  - The summary: totals, category breakdown and monthly trends.
  - The dashboard metrics.
- **The expense and income pages.** The month keys offered, the month filter, the statistics, and the local insert and delete.
- **Forms and schemas.** The submit guards of the two entry forms and the zod schemas of the sign-in, sign-up and profile forms.
- **Two helpers.** The avatar initials and the greeting for an hour of the day.

Representation choices:

- Money is integer cents.
- Days are Gregorian `(year, month, day)` triples.
- An instant is a day plus milliseconds, in one fixed zone (UTC).
- JavaScript `Date` overflow is modelled rather than clamped: `setMonth` and `setDate` carry a day that does not exist into the next month, and `new Date(y, m, 0)` is the last day of the month before.
- A database table is a sequence of rows. The id the database assigns is a parameter.

Modules, one file each:

- Shared models:
  - `Wrappers`: options, outcomes, truthiness.
  - `Seqs`: filter and sum.
  - `Sorting`: a stable sort by a comparator.
  - `Grouping`: a `Map` filled in insertion order.
  - `Text`: trim, UTF-16 length, digits, code-unit order.
  - `JsNumber`: `parseFloat`, `parseInt`, cents.
  - `Calendar`: dates with JavaScript overflow.
- Server actions: `Records`, `Updates`, `Installments`, `ExpenseActions`, `IncomeActions`, `Queries`, `Categories`.
- Route guards: `SessionGuard`, `AppMiddleware`.
- Pages and analytics: `Transactions`, `MonthLedger`, `AnalyticsFilters`, `AnalyticsSummary`, `Dashboard`.
- Forms and helpers: `Forms`, `Schemas`, `Display`.

## Model

| member | source | states |
|---|---|---|
| Installments.InvoiceDay | src/actions/expenses.ts:25-35 | An absent or zero stored day gives 5. Any other stored day, fractional ones included, is cut toward zero to a whole day, as `setDate` takes it. |
| Installments.TruncateDay | src/actions/expenses.ts:17 | The day `setDate` uses is the whole part of the number: within one below a non-negative number and within one above a negative one. |
| Installments.WholeInvoiceDay | src/actions/expenses.ts:34 | A stored whole day other than 0 is used unchanged. |
| Installments.FractionBelowOneIsDayZero | src/actions/expenses.ts:17-34 | A stored day of 0.5 is truthy, so the default is skipped, and it becomes day 0. |
| Installments.PaymentDate | src/actions/expenses.ts:10-20 | The due date of installment `k` is always a real calendar day. The month step and the day step each carry an overflowing day forward instead of clamping it. |
| Installments.PaymentDateMonth | src/actions/expenses.ts:10-20 | For an invoice day 1..28, installment `k` falls on that day. Its month is `k` months after the purchase month. It is one month later still when the purchase day does not exist in the target month. |
| Installments.PaymentDateRegular | src/actions/expenses.ts:10-20 | For a purchase day and an invoice day both at most 28, installment `k` is due on the invoice day exactly `k` months after the purchase month, carrying the year. |
| Installments.PaymentDatesIncrease | src/actions/expenses.ts:10-20 | With no overflow, a later installment is due strictly later. |
| Installments.PaymentDatesNonDecreasing | src/actions/expenses.ts:10-20 | For any purchase day, a later installment is never due earlier than an earlier one. |
| Installments.PaymentDateAfterPurchaseMonth | src/actions/expenses.ts:10-20 | No installment `k >= 1` falls in the purchase month or before it. |
| Installments.ShortMonthCarry | src/actions/expenses.ts:15-17 | A purchase on 31 January 2024 with invoice day 5 has installments 1 and 2 both due on 5 March 2024. |
| Installments.BaseAmount | src/actions/expenses.ts:202 | The base share is the largest number of cents that `n` copies do not exceed. |
| Installments.FirstAmount | src/actions/expenses.ts:203-205 | The first share is the base share plus the remainder. With `n - 1` base shares it adds up to the total, and it exceeds the base share by less than `n` cents. |
| Installments.Installment | src/actions/expenses.ts:207-244 | Record `i` of `n` has the number `i` and the total `n`, the buyer, the category, the purchase date, payment method `credit_card`, the title `title (i/n)` and the due date of installment `i`. The first record has the first share and no parent. Every later record has the base share and the parent's id. |
| Installments.PlanRow | src/actions/expenses.ts:207-244 | Entry `i` of the plan is installment `i + 1`, with every field as stated for `Installment`. |
| Installments.PlanRows | src/actions/expenses.ts:210-217 | Every record of the plan has the same owner, category, purchase date, payment method and installment count. |
| Installments.PlanSumIsTotal | src/actions/expenses.ts:202-205 | The shares of a plan add up to the purchase total exactly. |
| Installments.PlanFirstAbsorbsRemainder | src/actions/expenses.ts:202-205 | Every later share is the base share. The first share is at least as large and exceeds it by fewer than `n` cents. |
| Installments.PlanDatesIncrease | src/actions/expenses.ts:214 | With no overflow, the due dates strictly increase along the plan, and the first one is after the purchase. |
| ExpenseActions.CreateExpense | src/actions/expenses.ts:139-260 | Without a user the result is the unauthenticated error. An unparsable or non-positive amount gives `Valor inválido`. Otherwise the records add up to the amount. The result is one plain record, with the method defaulting to `debit`, unless the purchase is on credit card with more than one installment. In that case the records are exactly the installment plan of the purchase: `n` records with the invoice day taken from the profile (or 5) and the parent id the database gives the first. |
| ExpenseActions.CreateExpenseRecords | src/actions/expenses.ts:156-244 | Record `i` of an installment purchase has the title `title (i+1/n)` and the number `i + 1`. It is due on the `i + 1`-th payment date. The first has no parent, and every later one has the first's id as parent. |
| ExpenseActions.CreateExpenseDueDates | src/actions/expenses.ts:156-244 | With a purchase day and an invoice day both at most 28, the created installments fall due strictly one after another, the first after the purchase. |
| ExpenseActions.UpdateExpense | src/actions/expenses.ts:265-324 | Without a user nothing changes. When the lookup by id alone finds exactly one record and it belongs to an installment plan, the update is refused and nothing changes. Otherwise an invalid truthy amount aborts with `Valor inválido` and nothing changes. Otherwise the caller's record with that id becomes that record with the truthy fields overwritten, and every other row is untouched. The update succeeds exactly when the caller owns exactly one record with that id, and it returns that record, patched. |
| ExpenseActions.UpdateNeverEditsInstallments | src/actions/expenses.ts:279-290 | With unique ids, no update changes a record of an installment plan, and an accepted update never returns one. |
| ExpenseActions.DeleteGroup | src/actions/expenses.ts:356-372 | The two deletes of the cascade remove exactly the caller's parent and children of one plan. |
| ExpenseActions.DeleteExpense | src/actions/expenses.ts:329-412 | The delete succeeds exactly when the caller owns exactly one record with that id. It then removes that record's whole plan when the record belongs to one, and only the record otherwise. Other users' rows are never touched, and a failure changes nothing. |
| ExpenseActions.DeleteOwnedKeepsOthers | src/actions/expenses.ts:358-400 | A delete restricted to the caller's rows leaves every other user's rows as they were, in order. |
| ExpenseActions.DeleteRemovesWholePlan | src/actions/expenses.ts:353-394 | Deleting any record of the caller's plan, the parent or any child, succeeds and leaves no record of that plan. |
| ExpenseActions.PlanRecordsShareRoot | src/actions/expenses.ts:218-242 | Every record the planner inserts leads back to the parent's id, so a delete started from any of them cascades over the same plan. |
| Records.Single | src/actions/expenses.ts:122-127 | `.single()` yields a row exactly when one row matches, and that row is the only match. |
| Records.UniqueIdMatch | src/actions/expenses.ts:280-283 | With unique ids, a lookup of a stored row's id finds exactly that row. |
| Records.DeleteWhere | src/actions/incomes.ts:215-219 | A filtered delete keeps exactly the rows that do not match. |
| Updates.ApplyPatch | src/actions/expenses.ts:292-305 | Each truthy field of the request overwrites its column, and every other column keeps its value. |
| Updates.EmptyPatchIdentity | src/actions/expenses.ts:292-305 | A request with no truthy field leaves the record unchanged. |
| Updates.PatchIdempotent | src/actions/expenses.ts:292-305 | Applying the same request twice is the same as applying it once. |
| Updates.PatchRows | src/actions/expenses.ts:307-311 | The update changes exactly the rows it targets, each by the patch, and keeps the others. |
| Updates.UpdateOwned | src/actions/expenses.ts:292-318 | An invalid truthy amount aborts with `Valor inválido` and writes nothing. Otherwise only the caller's row with that id is patched. The read-back succeeds exactly when that row is unique, and it then returns the patched row. |
| Updates.UpdatedRowOrigin | src/actions/expenses.ts:307-313 | The row read back after an update is the patched version of a row that matched. |
| IncomeActions.CreateIncome | src/actions/incomes.ts:109-148 | Without a user the result is the unauthenticated error. An unparsable or non-positive amount gives `Valor inválido`. Otherwise the record holds the caller, the title, the category, the date and the form's amount in cents (`AmountCents`, never negative), with no payment method, installment count or parent. |
| IncomeActions.CreateIncomeStoresCents | src/actions/incomes.ts:122-125 | An amount written as the form writes it is stored as exactly those cents, and zero is refused. |
| IncomeActions.UpdateIncome | src/actions/incomes.ts:153-197 | Without a user nothing changes, and an invalid truthy amount aborts with nothing changed. Otherwise the caller's row with that id becomes that row with its truthy fields overwritten, and every other row is untouched. No payment method ever changes. It succeeds exactly when the caller owns exactly one row with that id, and it returns that row, patched. |
| IncomeActions.DeleteIncome | src/actions/incomes.ts:202-230 | Exactly the caller's rows with that id go. Every other row stays, other users' rows in their order. The action reports success even when nothing matched. |
| Queries.ListRows | src/actions/expenses.ts:41-94 | The listing holds exactly the caller's stored rows that meet the category and date conditions. |
| Queries.RowById | src/actions/expenses.ts:109-134 | Without a user the result is the unauthenticated error. A found row is a stored row of the caller with that id. |
| Queries.RowByIdFinds | src/actions/incomes.ts:79-104 | With unique ids, a lookup returns the row to its owner and an error to anyone else. |
| Queries.MonthBoundsSpan | src/actions/expenses.ts:70-85 | The month bounds are the first and last day of one calendar month. The two-digit-year rule applies, and months outside 1..12 carry into a neighbouring year. |
| Queries.InMonthBounds | src/actions/incomes.ts:40-55 | A valid date lies within a month's bounds exactly when it is in that month. |
| Queries.RangeBeatsMonth | src/actions/incomes.ts:38-39 | When both ends of a range are given, they decide the dates, and a month and year given as well are ignored. |
| Queries.HalfRangeIgnored | src/actions/incomes.ts:38-40 | A range with one end missing is ignored, and the month filter or no filter applies. |
| Queries.MonthListing | src/actions/incomes.ts:69-74 | For a four-digit year, the month listing keeps exactly the caller's rows dated in that month and year. |
| Queries.CurrentMonthTotal | src/actions/incomes.ts:235-251 | The current-month total is 0 without a user. Otherwise it is the sum of the caller's amounts dated in the month of the clock's day. |
| Queries.CurrentMonthRows | src/actions/expenses.ts:417-433 | For a four-digit year, the month listing of today selects the same rows as the month of today does. |
| Categories.ListCategories | src/actions/categories.ts:11-41 | Without a user the result is the unauthenticated error. Otherwise the listing holds exactly the caller's categories, of the requested type when one is given, each as often as stored. It is ordered by ascending name. |
| Categories.NameOrder | src/actions/categories.ts:28 | Ascending name order is a strict weak order, so the sort is well defined. |
| Categories.SortedListing | src/actions/categories.ts:24-32 | The name-sorted selection holds exactly the caller's categories of the requested type, in non-decreasing name order. |
| Categories.ListingSplitsByKind | src/actions/categories.ts:30-32 | The untyped listing is as long as the expense listing and the income listing together. |
| Categories.CreateCategory | src/actions/categories.ts:46-80 | Without a user nothing is written. Otherwise the caller's new category, with the given name and type, is appended and returned. |
| Categories.CreateThenList | src/actions/categories.ts:59-69 | After a creation, the creator's listing of the new category's type holds the new category as well as everything it held before. Every other listing holds the same categories as before. |
| Categories.SelectedAfterCreate | src/actions/categories.ts:59-69 | Before the sort, the caller's selection gains the new category at its end when owner and type match, and nothing otherwise. |
| Categories.ApplyCategoryPatch | src/actions/categories.ts:99-101 | Every key present in the update overwrites its column, even with an empty value: name, type, icon and colour. A missing key keeps the stored value. The id and owner never change. |
| Categories.UpdateCategory | src/actions/categories.ts:85-116 | Only the caller's category with that id is patched. The read-back succeeds exactly when that category is unique. |
| Categories.DeleteCategory | src/actions/categories.ts:121-149 | Exactly the caller's categories with that id go, and every other category stays. |
| Categories.SeedDefaults | src/actions/categories.ts:154-226 | A caller who owns a category changes nothing. Anyone else gets exactly the sixteen default categories, numbered from the first id, appended to an untouched store. Afterwards the caller owns a category. |
| Categories.SeedIdempotent | src/actions/categories.ts:168-176 | Seeding twice is the same as seeding once. |
| Categories.DefaultsContents | src/actions/categories.ts:178-215 | The defaults are sixteen categories owned by the caller: the eight expense presets in order, then the eight income presets in order. |
| Categories.PresetNamesDistinct | src/actions/categories.ts:178-198 | Within each type the default names are distinct. |
| Categories.ExpenseOutros | src/actions/categories.ts:178-187 | The expense defaults contain `Outros` exactly once. |
| Categories.IncomeOutros | src/actions/categories.ts:189-198 | The income defaults contain `Outros` exactly once. |
| SessionGuard.PrepareKeeps | src/lib/supabase/middleware.ts:131 | The setter reads a path with no tab, newline or `\` as it is. |
| SessionGuard.WalkKeeps | src/lib/supabase/middleware.ts:131 | Segments that are not dot segments pass through the setter's path walk unchanged. |
| SessionGuard.WalkClean | src/lib/supabase/middleware.ts:131 | The path walk only ever keeps segments that are not dot segments and hold no separator. |
| SessionGuard.PathnameOfClean | src/lib/supabase/middleware.ts:131 | Assigning a path that is already normalised to `url.pathname` leaves it unchanged. |
| SessionGuard.PathnameClean | src/lib/supabase/middleware.ts:131 | Whatever is assigned to `url.pathname`, the path read back starts with `/` and has no dot segment, `\`, tab or newline. |
| SessionGuard.PathnameIdempotent | src/lib/supabase/middleware.ts:131 | Assigning the pathname read back changes nothing. |
| SessionGuard.LandingOfLocation | src/lib/supabase/middleware.ts:133 | The `Location` of a redirect, with one final `/` removed, lands on the same page as the pathname set, and landing twice changes nothing. |
| SessionGuard.PublicLands | src/lib/supabase/middleware.ts:21 | No public page ends in `/`, so each lands on itself. |
| SessionGuard.ReturnPath | src/lib/supabase/middleware.ts:129-131 | The public-page test is made on `from` as given. A given `from` other than `/login` and `/register` is then normalised by the `pathname` setter. Otherwise the target is `/`. For an absent or already normalised `from`, the pathname set is not a public page, and a normalised `from` is kept as it is. The page the redirect lands on, once the final `/` is removed, is not public only when `from` is absent or settled (normalised, with no final `/`). |
| SessionGuard.Decide | src/lib/supabase/middleware.ts:106-160 | For a request the matcher lets through: a callback path passes. A protected path without a user redirects to `/login`, with `from` set to the path. A public path with a user redirects to the return target, without `from`. Every other request passes with the security headers. A signed-in redirect sets a pathname starting with `/`. That pathname is not public when `from` is absent or normalised. The page it lands on is not public when `from` is absent or settled. |
| SessionGuard.UnprotectedPages | src/lib/supabase/middleware.ts:9-15 | `/login`, `/register` and `/profile` are not protected. `/` and `/expenses/12` are protected, and `/expensesX` is not. |
| SessionGuard.PublicNotProtected | src/lib/supabase/middleware.ts:21 | No public page is protected or a callback. |
| SessionGuard.CallbackPrefixLoose | src/lib/supabase/middleware.ts:112-118 | The callback test is a bare prefix, so `/auth/confirmed` also passes every check. |
| SessionGuard.RedirectSettles | src/lib/supabase/middleware.ts:120-134 | When `from` is absent or settled, the redirect target needs no trailing-slash redirect of the framework's, and following it never leads to a second redirect. Settled covers every `from` the guard writes itself, since that is a request pathname the framework has already normalised. |
| SessionGuard.OneSegment | src/lib/supabase/middleware.ts:131 | A single plain segment assigned with or without a leading `/` is read back with one. |
| SessionGuard.BackslashSegment | src/lib/supabase/middleware.ts:131 | A plain segment behind a `\` is read back behind a `/`. |
| SessionGuard.LoginSegment | src/lib/supabase/middleware.ts:21 | `login` is a plain segment, and `/login` is a public page. |
| SessionGuard.ReturnPathOfSegment | src/lib/supabase/middleware.ts:129-131 | A plain segment, bare or behind a `\`, passes the raw comparison with `/login` and `/register`, and the target is that segment behind a `/`. |
| SessionGuard.WalkDotDot | src/lib/supabase/middleware.ts:131 | In the path walk, a `..` segment removes the segment before it. |
| SessionGuard.SplitDotDot | src/lib/supabase/middleware.ts:131 | `x/../b` splits into the segments `x`, `..` and `b`. |
| SessionGuard.DotDotCancels | src/lib/supabase/middleware.ts:131 | `/x/../b` is read back as `/b`. |
| SessionGuard.DotDotRegister | src/lib/supabase/middleware.ts:131 | `/x/../register` is read back as `/register`. |
| SessionGuard.ReturnToLoginRedirectsAgain | src/lib/supabase/middleware.ts:127-134 | A signed-in user on a public page whose `from` names a public page without its `/` (`/login?from=login`) or with a `\` is redirected to that public page, and from there to `/`: two redirects in a row. |
| SessionGuard.SlashAfterSegment | src/lib/supabase/middleware.ts:129-131 | A public page followed by `/` is already in the setter's form and lands on the page itself. |
| SessionGuard.TrailingSlashRedirectsAgain | src/lib/supabase/middleware.ts:127-134 | A signed-in user on a public page whose `from` is that page with a final `/` (`/login?from=/login/`) is redirected there. The `Location` and the landing page are the public page, and from there the user is redirected to `/`. |
| SessionGuard.ReturnPathChecked | src/lib/supabase/middleware.ts:127-134 | With the public-page test made on the page the redirect lands on, after normalisation, the return target is always a normalised path. Neither it nor its landing page is public. |
| SessionGuard.CheckedAgreesOnSettled | src/lib/supabase/middleware.ts:129-131 | For an absent or settled `from`, the corrected return target equals the one the guard computes. |
| SessionGuard.DecideChecked | src/lib/supabase/middleware.ts:106-160 | The guard with the corrected return target. It answers like `Decide` on every branch, and a signed-in redirect goes neither to a public page nor to one that lands on a public page. |
| SessionGuard.RedirectSettlesChecked | src/lib/supabase/middleware.ts:120-134 | With the corrected return target, following a redirect never leads to a second one, whatever `from` holds. This holds both on the target itself and on the page the framework's trailing-slash redirects land on. |
| AppMiddleware.Middleware | src/middleware.ts:11-34 | For a request the matcher lets through: without a user, public pages pass and every other path redirects to `/login`. With a user, public pages redirect to `/` and every other path passes. |
| AppMiddleware.RedirectTargetContinues | src/middleware.ts:17-31 | A redirect target is a different path, and the same visitor passes there. |
| AppMiddleware.LayersAgree | src/middleware.ts:17-31 | Wherever the session layer redirects a non-callback path with no `from`, this layer redirects to the same place. |
| AnalyticsFilters.PeriodChange | src/components/AnalyticsFilters.tsx:59-66 | A period change sets the period and clears both custom dates. The type and the categories are unchanged. |
| AnalyticsFilters.TypeChange | src/components/AnalyticsFilters.tsx:68-74 | A type change sets the type and empties the categories. |
| AnalyticsFilters.Toggle | src/components/AnalyticsFilters.tsx:76-86 | A toggled id is selected afterwards exactly when it was not selected before. An absent id is appended at the end, and other ids are unaffected. |
| AnalyticsFilters.CategoryToggle | src/components/AnalyticsFilters.tsx:76-86 | Toggling changes only the category selection. |
| AnalyticsFilters.ToggleKeepsNoDuplicates | src/components/AnalyticsFilters.tsx:76-86 | Toggling keeps the selection free of duplicates. |
| AnalyticsFilters.ToggleTwice | src/components/AnalyticsFilters.tsx:76-86 | Toggling an absent id twice restores the selection. Toggling a present id twice keeps the same ids but moves that id to the end. |
| AnalyticsFilters.CustomDateChange | src/components/AnalyticsFilters.tsx:88-101 | Without a date nothing changes. With a date the period becomes CUSTOM and only the chosen bound is set. |
| AnalyticsFilters.Reset | src/components/AnalyticsFilters.tsx:103-109 | A reset yields period ALL, type ALL, no categories and no custom dates. |
| AnalyticsFilters.ResetIdempotent | src/components/AnalyticsFilters.tsx:103-109 | A reset forgets the previous state, so resetting twice is the same as resetting once. |
| AnalyticsFilters.AvailableCategories | src/components/AnalyticsFilters.tsx:111-116 | EXPENSES offers the expense categories and INCOMES the income categories. ALL offers the expense categories followed by the income categories. |
| AnalyticsSummary.DateRangeAsWritten | src/components/analytics/AnalyticsContent.tsx:102-147 | ALL has no bounds. CUSTOM uses the midnights of the chosen days. The recent periods end now. THIS_MONTH ends at the midnight of the month's last day. |
| AnalyticsSummary.DateRange | src/components/analytics/AnalyticsContent.tsx:102-147 | The range starts as written. A range that ends on a calendar day ends at the close of that day, one day later than the written end's midnight. |
| AnalyticsSummary.FilterTxns | src/components/analytics/AnalyticsContent.tsx:150-194 | The filters keep exactly the transactions within the range and, when categories are selected, in a selected category. With no bound and no category everything is kept. |
| AnalyticsSummary.Percent | src/components/analytics/AnalyticsContent.tsx:216-217 | The percentage is 0 for a non-positive total. Otherwise, multiplied by the total, it gives 100 times the part. |
| AnalyticsSummary.Average | src/components/analytics/AnalyticsContent.tsx:324-331 | The average is 0 for an empty list. Otherwise, multiplied by the count, it gives the total. |
| AnalyticsSummary.Summarize | src/components/analytics/AnalyticsContent.tsx:197-339 | INCOMES analyses no expenses and EXPENSES no incomes. Totals and counts are those of the analysed lists, and net is incomes minus expenses. Savings rate and averages are as stated. |
| AnalyticsSummary.Build | src/components/analytics/AnalyticsContent.tsx:207-337 | The summary carries both totals, both counts, both breakdowns and the trends of the analysed lists. |
| AnalyticsSummary.Analyze | src/components/analytics/AnalyticsContent.tsx:102-339 | The page as written. Its totals are the sums of the two lists after the written date range, which ends at midnight of a period's last day, and the category filter. The summary is built from those filtered lists. |
| AnalyticsSummary.AnalyzeCorrected | src/components/analytics/AnalyticsContent.tsx:102-339 | The page with the corrected range. Its totals are the sums of the two lists after a date range that includes the whole last day, and after the category filter. |
| AnalyticsSummary.MidnightSameRange | src/components/analytics/AnalyticsContent.tsx:102-160 | An instant at midnight lies in the written range exactly when it lies in the corrected one. |
| AnalyticsSummary.AnalyzeAgreesOnMidnights | src/components/analytics/AnalyticsContent.tsx:102-339 | When every record is dated at midnight, the page as written and the corrected page compute the same summary. |
| AnalyticsSummary.AnalyzeMissesLastDay | src/components/analytics/AnalyticsContent.tsx:108-157 | On 15 September 2024, a single 100-cent expense at 14:15 on 30 September is missing from this month's total on the page as written, and is counted by the corrected page. |
| AnalyticsSummary.HigherTotalOrder | src/components/analytics/AnalyticsContent.tsx:242 | The comparator "larger total first" is a strict weak order, so the sort is well defined. |
| AnalyticsSummary.LaterMonthOrder | src/components/analytics/AnalyticsContent.tsx:318 | The comparator "later key first" is a strict weak order. |
| AnalyticsSummary.BreakdownRow | src/components/analytics/AnalyticsContent.tsx:220-242 | Each breakdown row totals and counts exactly the transactions of its category, of which there is at least one, and carries its share of the total. |
| AnalyticsSummary.BreakdownCovers | src/components/analytics/AnalyticsContent.tsx:220-235 | Every category of the analysed transactions has a breakdown row. |
| AnalyticsSummary.BreakdownShape | src/components/analytics/AnalyticsContent.tsx:220-266 | There is one row per category, sorted by non-increasing total. The totals add up to the analysed total and the counts to the number of transactions. |
| AnalyticsSummary.TrendRow | src/components/analytics/AnalyticsContent.tsx:269-317 | Each month's row holds that month's expense total and income total, and their difference as net. |
| AnalyticsSummary.TrendCovers | src/components/analytics/AnalyticsContent.tsx:269-311 | A month has a row exactly when some analysed expense or income falls in it. |
| AnalyticsSummary.TrendShape | src/components/analytics/AnalyticsContent.tsx:313-318 | There is one row per month, latest key first. |
| AnalyticsSummary.WholeDays | src/components/analytics/AnalyticsContent.tsx:155-160 | A range from one day's midnight to another day's last millisecond holds exactly the instants of the days between. |
| AnalyticsSummary.MidnightEnd | src/components/analytics/AnalyticsContent.tsx:155-160 | A range that ends at the last day's midnight misses everything on that day after midnight. |
| AnalyticsSummary.ThisMonthExact | src/components/analytics/AnalyticsContent.tsx:108-110 | The corrected THIS_MONTH range holds exactly the instants of the current calendar month. |
| AnalyticsSummary.ThisMonthAsWritten | src/components/analytics/AnalyticsContent.tsx:108-110 | The written THIS_MONTH range holds the current month except every instant of its last day after midnight. |
| AnalyticsSummary.ThisMonthMissesLastDay | src/components/analytics/AnalyticsContent.tsx:108-110 | On 15 September 2024, a transaction at 14:15 on 30 September is excluded by the written range and included by the corrected one. |
| AnalyticsSummary.LastMonthExact | src/components/analytics/AnalyticsContent.tsx:112-114 | The corrected LAST_MONTH range holds exactly the instants of the previous calendar month. |
| AnalyticsSummary.LastYearExact | src/components/analytics/AnalyticsContent.tsx:128-130 | The corrected LAST_YEAR range holds exactly the instants of the previous calendar year. |
| AnalyticsSummary.CustomExact | src/components/analytics/AnalyticsContent.tsx:132-138 | The corrected CUSTOM range holds every instant of the chosen days. Each bound is inclusive and optional. |
| AnalyticsSummary.RecentExact | src/components/analytics/AnalyticsContent.tsx:116-127 | LAST_3_MONTHS, LAST_6_MONTHS and THIS_YEAR run from the first day of the month 3, 6 or `month - 1` months back up to the present instant. |
| Dashboard.TopExpenseOf | src/hooks/useDashboardData.ts:63-68 | There is no top expense exactly when there is no expense this month. Otherwise it is the title and amount of the earliest expense of the largest amount. |
| Dashboard.TopCategoryOf | src/hooks/useDashboardData.ts:70-90 | The top category is a non-blank category name of the month's expenses, with that category's total. It is absent without expenses, and present when no expense has a blank category. |
| Dashboard.TopCategoryLargest | src/hooks/useDashboardData.ts:78-83 | No category of the month adds up to more than the top category. When the top category is absent although expenses exist, the blank-named category is the largest. |
| Dashboard.Dashboard | src/hooks/useDashboardData.ts:23-104 | The current balance is all incomes minus all expenses, and the total invested is 0. The monthly balance and both tops use only the records of today's month and year. |
| Dashboard.BalanceSplits | src/hooks/useDashboardData.ts:28-61 | The overall balance is this month's balance plus the balance of every other month. |
| Dashboard.QuietMonth | src/hooks/useDashboardData.ts:63-90 | With no expense this month there is neither a top expense nor a top category. |
| Transactions.MonthKey | src/components/expenses/ExpensesContent.tsx:59-60 | The month key of a valid day in a year written without a sign is the year's digits, `-`, and the two-digit month. |
| Transactions.MonthKeyInjective | src/components/expenses/ExpensesContent.tsx:85-88 | Two days share a key exactly when they are in the same month of the same year. |
| MonthLedger.Dedup | src/components/expenses/ExpensesContent.tsx:56-62 | The `Set` holds each key of the list once, and no other key. |
| MonthLedger.MonthValuesMembers | src/components/expenses/ExpensesContent.tsx:55-66 | The month selector lists each month that some entry falls in, and no other month. |
| MonthLedger.MonthValuesDescending | src/components/incomes/IncomesContent.tsx:60-62 | The month selector lists the months latest first, each once. |
| MonthLedger.AvailableMonths | src/components/expenses/ExpensesContent.tsx:64-77 | There is one option per listed month key, labelled from that key. |
| MonthLedger.AvailableMonthsShape | src/components/incomes/IncomesContent.tsx:51-74 | The options carry exactly the months of the entries, in strictly descending order, each labelled from its key. |
| MonthLedger.FilterByMonth | src/components/expenses/ExpensesContent.tsx:80-90 | "all" keeps the list unchanged. Any other selection keeps exactly the entries whose month key equals it. |
| MonthLedger.Find | src/components/expenses/ExpensesContent.tsx:100 | The search finds an option with the selected value whenever one exists. |
| MonthLedger.Stats | src/components/incomes/IncomesContent.tsx:88-105 | The total and count are those of the filtered entries. The label is the month's name, or "Todos os Meses" for "all" or for a month that no entry falls in. |
| MonthLedger.MonthTotalsAddUp | src/components/expenses/ExpensesContent.tsx:92-108 | Summed over the months offered, the month totals give the overall total and the month counts give the number of entries. |
| MonthLedger.MaxId | src/components/expenses/ExpensesPage.tsx:110 | `Math.max(0, ...ids)` is non-negative, at least every id, and 0 or one of the ids. |
| MonthLedger.AddEntry | src/components/expenses/ExpensesPage.tsx:108-120 | The new entry goes in front with an id larger than every existing id. The existing entries follow unchanged and in order, so unique ids stay unique. |
| MonthLedger.DeleteEntry | src/components/incomes/IncomesPage.tsx:118-120 | Exactly the entries with that id go, and the others keep their order. |
| MonthLedger.DeleteUndoesAdd | src/app/expenses/page.tsx:106-122 | Deleting the entry just added restores the list. |
| Forms.FirstCategory | src/components/transaction/TransactionForm.tsx:57 | The default category is the first category's name, or empty when there are none. |
| Forms.InitialTransactionForm | src/components/transaction/TransactionForm.tsx:53-59 | The form starts empty, dated today, with the first category and payment by cash. |
| Forms.ResetTransactionForm | src/components/transaction/TransactionForm.tsx:92-100 | After a submit the form is empty, dated today, with the first category, payment by debit and one installment. |
| Forms.SubmitTransaction | src/components/transaction/TransactionForm.tsx:65-101 | The form is sent exactly when every field is filled, the amount is valid, and it is not a credit-card expense lacking an installment count. That last case alerts instead. A sent form is handed over unchanged and reset. |
| Forms.ChangePaymentMethod | src/components/transaction/TransactionForm.tsx:190-198 | Choosing a method sets it. The installment count survives only for the credit card, and nothing else changes. |
| Forms.ChangePaymentMethodIdempotent | src/components/transaction/TransactionForm.tsx:190-198 | Choosing the same method again changes nothing more. |
| Forms.OtherMethodsIgnoreInstallments | src/components/transaction/TransactionForm.tsx:83-88 | After choosing any method but the credit card, a filled form with a valid amount is sent whatever its type. |
| Forms.InstallmentsInput | src/components/transaction/TransactionForm.tsx:239 | An unparsable count or 0 becomes 1. Any other parsed count, negatives included, is kept. |
| Forms.InstallmentsInputRoundTrip | src/components/transaction/TransactionForm.tsx:239 | A count typed as its digits reads back as itself, except that "0" reads back as 1. |
| Forms.NegativeInstallmentsKept | src/components/transaction/TransactionForm.tsx:239 | "-3" is kept as -3, and a credit-card submit then alerts. |
| Forms.InitialExpenseForm | src/components/AddExpenseForm.tsx:12-17 | The add-expense form starts empty, dated today, with category 1. |
| Forms.SubmitExpense | src/components/AddExpenseForm.tsx:19-39 | The form never alerts. It is sent exactly when the description is non-blank and the amount and date are filled and valid. A sent form is handed over unchanged and returns to its initial state. |
| Forms.EmptyAmountInvalid | src/components/AddExpenseForm.tsx:26-29 | The empty amount does not pass the amount check. |
| Forms.FormsAgree | src/components/AddExpenseForm.tsx:22-29 | For the fields the two forms share, both apply the same guard. |
| Schemas.MinLength | src/schemas/auth.ts:4-5 | `.min(n)` reports its single issue exactly when the UTF-16 length is below `n`. |
| Schemas.MaxLength | src/schemas/profile.ts:8 | `.max(n)` reports its single issue exactly when the length is above `n`. |
| Schemas.EmailIssues | src/schemas/auth.ts:4 | The e-mail passes exactly when it is non-empty and passes the e-mail check. |
| Schemas.ParseLogin | src/schemas/auth.ts:3-6 | Sign-in data parses exactly when the e-mail passes and the password has at least 6 code units. A short password is reported. |
| Schemas.RegisterFieldIssues | src/schemas/auth.ts:8-14 | The field checks pass exactly when the name, e-mail, password and confirmation meet their bounds. None of their issues is the mismatch message. |
| Schemas.ParseRegister | src/schemas/auth.ts:8-18 | Sign-up data parses exactly when the fields pass and the passwords match, with the name trimmed. The mismatch is reported on `confirmPassword` exactly when the passwords differ. |
| Schemas.BlankNameAccepted | src/schemas/auth.ts:10 | A name of spaces passes the length check and is parsed as the empty name. |
| Schemas.AvatarIssues | src/schemas/profile.ts:9-13 | The avatar passes when absent, empty or a URL, and reports the URL issue otherwise. |
| Schemas.DayIssues | src/schemas/profile.ts:14-18 | The invoice day passes when absent or within 1..28. |
| Schemas.ParseProfile | src/schemas/profile.ts:3-18 | A profile parses exactly when the full name has 3 to 100 code units and the avatar and invoice day pass. |
| Schemas.EmptyFullNameTwice | src/schemas/profile.ts:4-8 | An empty full name is reported twice, first as missing and then as too short. |
| Schemas.FractionalDayAccepted | src/schemas/profile.ts:14-18 | A fractional invoice day such as 1.5 is accepted. |
| Schemas.AcceptedDayIsUsable | src/schemas/profile.ts:14-18 | Every invoice day the profile schema accepts, fractional or not, becomes a whole day from 1 to 28 in the installment planner. |
| Schemas.AcceptedDayFitsEveryMonth | src/schemas/profile.ts:14-18 | An accepted whole invoice day exists in every month, so setting it as a day never overflows. |
| Display.Initials | src/components/profile/ProfileAvatar.tsx:16-26 | An empty or blank name gives "??". Otherwise the result is at most two characters: the upper-cased first characters of the first two pieces of the split on a space. |
| Display.InitialsOfTwoWords | src/components/profile/ProfileAvatar.tsx:20-25 | Two words separated by one space give the upper-cased first letters of both, whatever follows. |
| Display.LeadingSpacesGiveNothing | src/components/profile/ProfileAvatar.tsx:21-24 | "  Ana" gives the empty string, because its first two pieces are empty. |
| Display.SplitJoin | src/components/profile/ProfileAvatar.tsx:21 | Joining the pieces of a split with the same separator gives back the text. |
| Display.Greeting | src/lib/utils.ts:8-20 | Hours 6 to 12 give "Bom dia", 13 to 18 "Boa tarde", and all others "Boa noite". Each hour gets exactly one greeting. |
| Text.Trim | src/schemas/auth.ts:10 | The trimmed text is empty exactly when the text is blank. A non-empty result neither starts nor ends with white space. |
| JsNumber.FormatCentsRoundTrip | src/actions/incomes.ts:122-125 | `parseFloat` of an amount written as `units.cc` gives back the same cents. Such an amount passes the amount check exactly when it is positive. |
| JsNumber.ParseIntRoundTrip | src/components/transaction/TransactionForm.tsx:239 | `parseInt` of a number's decimal digits gives back the number. |
| Calendar.Normalize | src/components/analytics/AnalyticsContent.tsx:110 | Any day number gives a real calendar day, and a day that fits its month is kept. |
| Calendar.NormalizeCarryOnce | src/actions/expenses.ts:17 | A day past the end of its month by at most 28 lands in the next month. |
| Grouping.AccumulateGet | src/components/analytics/AnalyticsContent.tsx:220-235 | After the map is filled, each key holds the total and count of exactly the items with that key. |
| Sorting.SortBy | src/components/analytics/AnalyticsContent.tsx:266 | The sorted list has the same elements with the same multiplicities as its input. |
| Sorting.SortByMembers | src/components/analytics/AnalyticsContent.tsx:242 | The sort keeps exactly the elements of its input. |
| Sorting.SortBySorted | src/components/expenses/ExpensesContent.tsx:65 | The sort leaves its output ordered by the comparator. |

## Left out

- Database and authentication I/O. The Supabase client, `auth.getUser`, cookies, `revalidatePath` and errors the database itself reports are not modelled. Tables are in-memory sequences. The signed-in user is an `Option<string>` parameter, and a database-assigned id is a parameter. A database failure appears only as the result of `.single()`.
- Query ordering. `.order("date", { ascending: false })` on the expense and income listings is not modelled, and those listings come back in store order.
- Categories.ListCategories: `.order("name")` is modelled as ascending code-unit order of the names, not the database collation. Categories of equal name keep their store order, where the database leaves their order open.
- The non-atomic installment insert. The parent insert followed by the child insert, with no rollback, is I/O. Only the records the plan produces are modelled.
- Floating-point money. Amounts are integer cents. `parseFloat` is modelled on `[white space][sign]digits[.digits]` without exponents or `Infinity`. Stored cents truncate beyond the second decimal place, which is exact for the two-decimal amounts the forms write. The installment split is stated in exact cents, not in the source's float rounding.
- Percentages and averages are exact rationals rather than floats.
- Time zones. Every instant is read in one fixed zone (UTC). The clock reads (`new Date()`, `getHours()`) are parameters.
- The `pt-BR` month labels, `toLocaleDateString` and number formatting are not computed. Labels enter as the parameter `nameOf`.
- `localeCompare` in the trend sort is modelled as code-unit order, which agrees with it on `YYYY-MM` keys.
- `toUpperCase` is modelled for `a` to `z` only. Characters outside the basic multilingual plane count as two UTF-16 units in lengths, but they are not split into surrogates.
- The zod e-mail and URL formats and `getExpenseCategoryName` belong to libraries that are not part of this model. They enter as predicates or are dropped.
- The random CSP nonce and the whitespace collapsing of the CSP text. Both are inputs to `SessionGuard.Decide`.
- AppMiddleware.Middleware: `config.matcher` (src/middleware.ts:36-40) keeps the middleware off `_next/static`, `_next/image`, `favicon.ico`, `sitemap.xml`, `robots.txt` and image files. The model covers only requests the matcher lets through; the others get no redirect and no security headers.
- SessionGuard.Decide: the same holds for `updateSession`, which runs only on requests the matcher lets through.
- SessionGuard.Pathname: the setter is modelled for `http(s)` URLs without its percent-encoding of spaces, quotes, `<`, `>`, `?`, `#`, `` ` ``, `{`, `}` and non-ASCII characters. Encoding only inserts `%` escapes, so it never turns a path into `/login` or `/register` or out of them.
- SessionGuard.RedirectSettles: stated only for an absent or settled `from`. A `from` such as `login`, or one with a final `/` such as `/login/`, does lead to a second redirect (see Findings).
- SessionGuard.ReturnPath: promises a non-public pathname only for an absent or normalised `from`, and a non-public landing page only for an absent or settled `from`, for the same reason.
- SessionGuard.Landing: the framework's handling of a redirect target is modelled for its default `trailingSlash: false`. `NextResponse.redirect` drops one final `/` (`Location`), and the framework's own redirect removes the rest before any middleware runs (`Landing`). Other redirects and rewrites of the framework are not part of this model.
- AppMiddleware.Middleware: takes the signed-in user as an input and states the decision the code evidently intends. As written, src/middleware.ts:15 destructures `user` and `supabaseResponse` from the `NextResponse` that `updateSession` returns, so both are `undefined`. Every request to a non-public path then redirects to `/login`, signed in or not (lines 17-24). A public page returns `undefined`, which discards the cookies and security headers `updateSession` set.
- The page components' record type lacks the category name, title and installment fields the actions use. One transaction type (`Transactions.Txn`) holds every field any modelled function reads. `account_id` and `created_at` are dropped.
- MonthLedger.AddEntry: requires an amount the form has already validated, because the page trusts the form and does not check again.
- Dashboard.TopCategoryOf: when the largest category has an empty name, the source reports no top category. The contract states this rather than "absent exactly when there are no expenses". The categories are taken in order of first appearance. `Object.entries` lists integer-like names (such as "2024") first, in ascending order, so with such names the winner of a tie can differ from the one modelled.
- ExpenseActions.CreateExpense: requires a valid purchase date, because the form only sends `yyyy-MM-dd` days. The returned row and its database id are not modelled. The result is the list of records inserted.
- Queries.CurrentMonthTotal: stated for four-digit years only, where `new Date(y, ...)` needs no two-digit-year correction.

## Findings

| source | as written | input that shows it | evidently intended | confidence | as-written member | corrected member |
|---|---|---|---|---|---|---|
| src/components/analytics/AnalyticsContent.tsx:108-130, 136-138 | The periods that end on a calendar day (THIS_MONTH, LAST_MONTH, LAST_YEAR and a custom end) end at that day's midnight. `date > endDate` then drops anything later on that day. | On 15 September 2024 with period THIS_MONTH, a transaction at 14:15 on 30 September is filtered out. | The whole last day is included, as the month query of the server actions does with its `23:59:59` end (src/actions/expenses.ts:76-83). | not executed; affects only records that carry a time of day after midnight | AnalyticsSummary.ThisMonthMissesLastDay | AnalyticsSummary.ThisMonthExact |
| src/lib/supabase/middleware.ts:127-134 | The signed-in public-page branch compares the raw `from` with `/login` and `/register`, then assigns it to `url.pathname`. The setter adds a leading `/`, reads `\` as `/` and resolves dot segments. | A signed-in user opens `/login?from=login`: the redirect goes to `/login`, which redirects again to `/`. `from=\login` and `from=/x/../register` do the same. | The comparison is made on the normalised path, so a signed-in user never lands on a public page. | not executed; needs a `from` the guard never writes itself | SessionGuard.ReturnToLoginRedirectsAgain | SessionGuard.RedirectSettlesChecked |
| src/lib/supabase/middleware.ts:127-134 | The same branch compares `from` with `/login` and `/register` exactly. A `from` with a final `/` passes, and the setter keeps the `/`. The redirect drops it, and the framework serves the page without it. | A signed-in user opens `/login?from=/login/`: the redirect goes to `/login`, which redirects again to `/`. | The comparison is made on the page the redirect lands on, so a signed-in user never lands on a public page. | not executed; needs a `from` the guard never writes itself | SessionGuard.TrailingSlashRedirectsAgain | SessionGuard.RedirectSettlesChecked |

=== FILE: analytics_filters.dfy ===
/**
 * The analytics filter panel as a state machine: each handler maps the current
 * filter state to the one it hands to `onFiltersChange`.
 */
module AnalyticsFilters {
  import opened Wrappers
  import opened Calendar
  import opened Seqs
  import Categories

  datatype Period = ThisMonth | LastMonth | Last3Months | Last6Months | ThisYear | LastYear | Custom | All

  datatype TypeFilter = AllTypes | ExpensesOnly | IncomesOnly

  /** `IAnalyticsFilters`; the custom bounds are the days the date pickers wrote as `yyyy-MM-dd`. */
  datatype Filters = Filters(
    period: Period,
    transactionType: TypeFilter,
    categoryIds: seq<int>,
    customStart: Option<Date>,
    customEnd: Option<Date>)

  datatype Bound = Start | End

  /** No id is listed twice. */
  predicate NoDuplicates(ids: seq<int>) {
    forall i, j :: 0 <= i < j < |ids| ==> ids[i] != ids[j]
  }

  function Other(c: int): int -> bool {
    (x: int) => x != c
  }

  /** `handlePeriodChange`. */
  function PeriodChange(f: Filters, p: Period): (g: Filters)
    ensures g.period == p && g.customStart.None? && g.customEnd.None?
    ensures g.transactionType == f.transactionType && g.categoryIds == f.categoryIds
  {
    f.(period := p, customStart := None, customEnd := None)
  }

  /** `handleTransactionTypeChange`. */
  function TypeChange(f: Filters, t: TypeFilter): (g: Filters)
    ensures g.transactionType == t && g.categoryIds == []
    ensures g.period == f.period && g.customStart == f.customStart && g.customEnd == f.customEnd
  {
    f.(transactionType := t, categoryIds := [])
  }

  /** `handleCategoryToggle`: a selected id is removed wherever it occurs, another one is appended. */
  function Toggle(ids: seq<int>, c: int): (r: seq<int>)
    ensures c in r <==> c !in ids
    ensures forall x :: x != c ==> (x in r <==> x in ids)
    ensures c !in ids ==> r == ids + [c]
  {
    if c in ids then Filter(ids, Other(c)) else ids + [c]
  }

  function CategoryToggle(f: Filters, c: int): (g: Filters)
    ensures g.categoryIds == Toggle(f.categoryIds, c)
    ensures g.(categoryIds := f.categoryIds) == f
  {
    f.(categoryIds := Toggle(f.categoryIds, c))
  }

  /** Toggling keeps the selection free of duplicates. */
  lemma ToggleKeepsNoDuplicates(ids: seq<int>, c: int)
    requires NoDuplicates(ids)
    ensures NoDuplicates(Toggle(ids, c))
  {
    if c in ids {
      FilterKeepsNoDuplicates(ids, Other(c));
    }
  }

  lemma {:induction false} FilterKeepsNoDuplicates(ids: seq<int>, p: int -> bool)
    requires NoDuplicates(ids)
    ensures NoDuplicates(Filter(ids, p))
  {
    if |ids| > 0 {
      FilterKeepsNoDuplicates(ids[1..], p);
      var rest := Filter(ids[1..], p);
      assert ids[0] !in ids[1..];
      assert ids[0] !in rest;
    }
  }

  /**
   * Toggling an absent id twice restores the selection exactly; toggling a present
   * id twice keeps the same ids, the same number of them, but moves it to the end.
   */
  lemma ToggleTwice(ids: seq<int>, c: int)
    requires NoDuplicates(ids)
    ensures c !in ids ==> Toggle(Toggle(ids, c), c) == ids
    ensures c in ids ==> Toggle(Toggle(ids, c), c) == Filter(ids, Other(c)) + [c]
    ensures multiset(Toggle(Toggle(ids, c), c)) == multiset(ids)
  {
    if c !in ids {
      FilterAll(ids, Other(c));
      FilterAppend(ids, [c], Other(c));
      assert Filter([c], Other(c)) == [];
    } else {
      RemoveOnce(ids, c);
    }
  }

  /** Dropping the single occurrence of `c` takes exactly one `c` out of the multiset. */
  lemma {:induction false} RemoveOnce(ids: seq<int>, c: int)
    requires NoDuplicates(ids) && c in ids
    ensures multiset(Filter(ids, Other(c))) + multiset{c} == multiset(ids)
  {
    assert ids == [ids[0]] + ids[1..];
    if ids[0] == c {
      assert c !in ids[1..];
      FilterAll(ids[1..], Other(c));
    } else {
      RemoveOnce(ids[1..], c);
    }
  }

  /** `handleCustomDateChange`: nothing without a date, else period CUSTOM and the chosen bound set. */
  function CustomDateChange(f: Filters, which: Bound, date: Option<Date>): (g: Filters)
    ensures date.None? ==> g == f
    ensures date.Some? ==> g.period == Custom && g.transactionType == f.transactionType && g.categoryIds == f.categoryIds
    ensures date.Some? && which == Start ==> g.customStart == date && g.customEnd == f.customEnd
    ensures date.Some? && which == End ==> g.customEnd == date && g.customStart == f.customStart
  {
    if date.None? then f
    else if which == Start then f.(period := Custom, customStart := date)
    else f.(period := Custom, customEnd := date)
  }

  /** `handleResetFilters`: whatever the state, the initial filters. */
  function Reset(f: Filters): (g: Filters)
    ensures g.period == All && g.transactionType == AllTypes && g.categoryIds == []
    ensures g.customStart.None? && g.customEnd.None?
  {
    Filters(All, AllTypes, [], None, None)
  }

  /** Resetting forgets the previous state, so resetting twice is resetting once. */
  lemma ResetIdempotent(f: Filters, h: Filters)
    ensures Reset(Reset(f)) == Reset(f) == Reset(h)
  {
  }

  /** `availableCategories`: the categories offered for the selected transaction type. */
  function AvailableCategories(t: TypeFilter, expense: seq<Categories.Category>, income: seq<Categories.Category>)
    : (r: seq<Categories.Category>)
    ensures t == ExpensesOnly ==> r == expense
    ensures t == IncomesOnly ==> r == income
    ensures t == AllTypes ==> |r| == |expense| + |income| && r[..|expense|] == expense && r[|expense|..] == income
  {
    match t
    case ExpensesOnly => expense
    case IncomesOnly => income
    case AllTypes => expense + income
  }
}

=== FILE: analytics_summary.dfy ===
/**
 * The analytics page: the date range a period selects, the transaction filters,
 * and the summary built from what passes them — totals, per-category breakdowns
 * and monthly trends. The clock read `now` is a parameter.
 */
module AnalyticsSummary {
  import opened Wrappers
  import opened Calendar
  import opened Seqs
  import opened Text
  import opened Grouping
  import opened Sorting
  import opened Transactions
  import opened AnalyticsFilters
  import Queries

  /** `{ startDate, endDate }`: an absent bound is `null`. */
  datatype Range = Range(start: Option<DateTime>, end: Option<DateTime>)

  /** The last millisecond of a day. */
  function EndOfDay(d: Date): DateTime {
    DateTime(d, 86_399_999)
  }

  function MidnightOf(d: Option<Date>): Option<DateTime> {
    if d.Some? then Some(Midnight(d.value)) else None
  }

  function EndOfDayOf(d: Option<Date>): Option<DateTime> {
    if d.Some? then Some(EndOfDay(d.value)) else None
  }

  /**
   * `dateRange` as the component computes it. The months and years that end on a
   * calendar day end at that day's midnight, and so does a custom end date.
   */
  function DateRangeAsWritten(f: Filters, now: DateTime): (r: Range)
    ensures f.period == All ==> r == Range(None, None)
    ensures f.period == Custom ==> r == Range(MidnightOf(f.customStart), MidnightOf(f.customEnd))
    ensures f.period in {Last3Months, Last6Months, ThisYear} ==> r.end == Some(now)
    ensures f.period == ThisMonth ==> r.end == Some(Midnight(Queries.MonthBounds(now.date.year, now.date.month).last))
  {
    var y, mi := now.date.year, now.date.month - 1;
    match f.period
    case ThisMonth => Range(Some(Midnight(LocalDate(y, mi, 1))), Some(Midnight(LocalDate(y, mi + 1, 0))))
    case LastMonth => Range(Some(Midnight(LocalDate(y, mi - 1, 1))), Some(Midnight(LocalDate(y, mi, 0))))
    case Last3Months => Range(Some(Midnight(LocalDate(y, mi - 3, 1))), Some(now))
    case Last6Months => Range(Some(Midnight(LocalDate(y, mi - 6, 1))), Some(now))
    case ThisYear => Range(Some(Midnight(LocalDate(y, 0, 1))), Some(now))
    case LastYear => Range(Some(Midnight(LocalDate(y - 1, 0, 1))), Some(Midnight(LocalDate(y - 1, 11, 31))))
    case Custom => Range(MidnightOf(f.customStart), MidnightOf(f.customEnd))
    case All => Range(None, None)
  }

  /**
   * `dateRange` with every range that ends on a calendar day ending at the close
   * of that day, so that the whole last day is included.
   */
  function DateRange(f: Filters, now: DateTime): (r: Range)
    ensures r.start == DateRangeAsWritten(f, now).start
    ensures f.period !in {ThisMonth, LastMonth, LastYear, Custom} ==> r == DateRangeAsWritten(f, now)
    ensures f.period in {ThisMonth, LastMonth, LastYear} ==>
              r.end.Some? && DateRangeAsWritten(f, now).end == Some(Midnight(r.end.value.date))
    ensures f.period == Custom ==> r.end == EndOfDayOf(f.customEnd)
  {
    var y, mi := now.date.year, now.date.month - 1;
    match f.period
    case ThisMonth => Range(Some(Midnight(LocalDate(y, mi, 1))), Some(EndOfDay(LocalDate(y, mi + 1, 0))))
    case LastMonth => Range(Some(Midnight(LocalDate(y, mi - 1, 1))), Some(EndOfDay(LocalDate(y, mi, 0))))
    case Last3Months => Range(Some(Midnight(LocalDate(y, mi - 3, 1))), Some(now))
    case Last6Months => Range(Some(Midnight(LocalDate(y, mi - 6, 1))), Some(now))
    case ThisYear => Range(Some(Midnight(LocalDate(y, 0, 1))), Some(now))
    case LastYear => Range(Some(Midnight(LocalDate(y - 1, 0, 1))), Some(EndOfDay(LocalDate(y - 1, 11, 31))))
    case Custom => Range(MidnightOf(f.customStart), EndOfDayOf(f.customEnd))
    case All => Range(None, None)
  }

  /** `!(startDate && date < startDate) && !(endDate && date > endDate)`. */
  predicate InRange(t: DateTime, r: Range) {
    && (r.start.None? || !TimeBefore(t, r.start.value))
    && (r.end.None? || !TimeBefore(r.end.value, t))
  }

  function WithinRange(r: Range): Txn -> bool {
    (t: Txn) => InRange(t.at, r)
  }

  function Listed(ids: seq<int>): Txn -> bool {
    (t: Txn) => t.categoryId in ids
  }

  /** Everything a transaction must satisfy to pass the filters. */
  function Kept(r: Range, ids: seq<int>): Txn -> bool {
    (t: Txn) => InRange(t.at, r) && (|ids| > 0 ==> t.categoryId in ids)
  }

  /**
   * `filteredExpenses` / `filteredIncomes`: the date filter only when a bound is
   * set, then the category filter only when categories are selected.
   */
  function FilterTxns(s: seq<Txn>, r: Range, ids: seq<int>): (out: seq<Txn>)
    ensures out == Filter(s, Kept(r, ids))
    ensures r == Range(None, None) && ids == [] ==> out == s
  {
    var dated := if r.start.Some? || r.end.Some? then Filter(s, WithinRange(r)) else s;
    assert dated == Filter(s, WithinRange(r)) by {
      if r.start.None? && r.end.None? {
        FilterAll(s, WithinRange(r));
      }
    }
    if |ids| > 0 then
      FilterTwice(s, WithinRange(r), Listed(ids), Kept(r, ids));
      Filter(dated, Listed(ids))
    else
      FilterCongruent(s, WithinRange(r), Kept(r, ids));
      dated
  }

  /** One row of the category breakdown; `percentage` is its share of the total. */
  datatype CategoryBreakdown = CategoryBreakdown(categoryId: int, total: int, count: nat, percentage: real)

  function BreakdownId(c: CategoryBreakdown): int { c.categoryId }
  function BreakdownTotal(c: CategoryBreakdown): int { c.total }
  function BreakdownCount(c: CategoryBreakdown): int { c.count }

  /** One month of the trend; `month` is its `YYYY-MM` key. */
  datatype MonthlyTrend = MonthlyTrend(month: string, totalExpenses: int, totalIncomes: int, netBalance: int)

  function TrendMonth(m: MonthlyTrend): string { m.month }

  /** `total > 0 ? (part / total) * 100 : 0`. */
  function Percent(part: int, total: int): (p: real)
    ensures total <= 0 ==> p == 0.0
    ensures total > 0 ==> p * (total as real) == 100.0 * (part as real)
  {
    if total > 0 then (part as real / total as real) * 100.0 else 0.0
  }

  /** `n > 0 ? total / n : 0`. */
  function Average(total: int, n: nat): (a: real)
    ensures n == 0 ==> a == 0.0
    ensures n > 0 ==> a * (n as real) == total as real
  {
    if n > 0 then total as real / n as real else 0.0
  }

  /** The sort comparator `(a, b) => b.total - a.total`: a larger total comes first. */
  function HigherTotal(a: CategoryBreakdown, b: CategoryBreakdown): bool {
    a.total > b.total
  }

  /** The sort comparator `(a, b) => b.month.localeCompare(a.month)`: a later key comes first. */
  function LaterMonth(a: MonthlyTrend, b: MonthlyTrend): bool {
    LexLess(b.month, a.month)
  }

  function AsBreakdown(t: Tally<int>, total: int): CategoryBreakdown {
    CategoryBreakdown(t.key, t.first, t.count, Percent(t.first, total))
  }

  function AsTrend(t: Tally<string>): MonthlyTrend {
    MonthlyTrend(t.key, t.first, t.second, t.second - t.first)
  }

  /** The map of categories filled in list order, each row's share of `total` added, then sorted. */
  function Breakdown(s: seq<Txn>, total: int): seq<CategoryBreakdown> {
    var ts := Accumulate([], s, CategoryIdOf, Amount, NoWeight);
    SortBy(seq(|ts|, i requires 0 <= i < |ts| => AsBreakdown(ts[i], total)), HigherTotal)
  }

  /** The map of months filled from the expenses, then from the incomes, the net added, then sorted. */
  function Trends(expenses: seq<Txn>, incomes: seq<Txn>): seq<MonthlyTrend> {
    var fromExpenses := Accumulate([], expenses, MonthKeyOf, Amount, NoWeight);
    var ts := Accumulate(fromExpenses, incomes, MonthKeyOf, NoWeight, Amount);
    SortBy(seq(|ts|, i requires 0 <= i < |ts| => AsTrend(ts[i])), LaterMonth)
  }

  datatype Summary = Summary(
    totalIncomes: int,
    totalExpenses: int,
    netBalance: int,
    averageIncome: real,
    averageExpense: real,
    incomeCount: nat,
    expenseCount: nat,
    savingsRate: real,
    expenseCategories: seq<CategoryBreakdown>,
    incomeCategories: seq<CategoryBreakdown>,
    monthlyTrends: seq<MonthlyTrend>)

  /** `analyticsSummary` over the already filtered lists. */
  function Summarize(expenses: seq<Txn>, incomes: seq<Txn>, t: TypeFilter): (r: Summary)
    ensures t == IncomesOnly ==> r.totalExpenses == 0 && r.expenseCount == 0 && r.expenseCategories == []
    ensures t == ExpensesOnly ==> r.totalIncomes == 0 && r.incomeCount == 0 && r.incomeCategories == []
    ensures t != IncomesOnly ==> r.totalExpenses == Sum(expenses, Amount) && r.expenseCount == |expenses|
    ensures t != ExpensesOnly ==> r.totalIncomes == Sum(incomes, Amount) && r.incomeCount == |incomes|
    ensures r.netBalance == r.totalIncomes - r.totalExpenses
    ensures r.savingsRate == Percent(r.netBalance, r.totalIncomes)
    ensures r.averageIncome == Average(r.totalIncomes, r.incomeCount)
    ensures r.averageExpense == Average(r.totalExpenses, r.expenseCount)
  {
    var es := if t == IncomesOnly then [] else expenses;
    var ins := if t == ExpensesOnly then [] else incomes;
    BreakdownOfNothing();
    Build(es, ins)
  }

  /** The summary of the lists that are analysed. */
  function Build(es: seq<Txn>, ins: seq<Txn>): (r: Summary)
    ensures r.totalExpenses == Sum(es, Amount) && r.expenseCount == |es| && r.expenseCategories == Breakdown(es, r.totalExpenses)
    ensures r.totalIncomes == Sum(ins, Amount) && r.incomeCount == |ins| && r.incomeCategories == Breakdown(ins, r.totalIncomes)
    ensures r.netBalance == r.totalIncomes - r.totalExpenses
    ensures r.savingsRate == Percent(r.netBalance, r.totalIncomes)
    ensures r.averageIncome == Average(r.totalIncomes, r.incomeCount)
    ensures r.averageExpense == Average(r.totalExpenses, r.expenseCount)
    ensures r.monthlyTrends == Trends(es, ins)
  {
    var te, ti := Sum(es, Amount), Sum(ins, Amount);
    var net := ti - te;
    Summary(ti, te, net, Average(ti, |ins|), Average(te, |es|), |ins|, |es|, Percent(net, ti),
            Breakdown(es, te), Breakdown(ins, ti), Trends(es, ins))
  }

  /** Nothing analysed, nothing broken down. */
  lemma BreakdownOfNothing()
    ensures Breakdown([], 0) == []
  {
  }

  /**
   * The whole page as written: the filters applied to both lists with the clock
   * read `now`, the range ending as `DateRangeAsWritten` ends it, then the summary.
   */
  function Analyze(expenses: seq<Txn>, incomes: seq<Txn>, f: Filters, now: DateTime): (r: Summary)
    ensures var k := Kept(DateRangeAsWritten(f, now), f.categoryIds);
            && (f.transactionType != IncomesOnly ==> r.totalExpenses == Sum(Filter(expenses, k), Amount))
            && (f.transactionType != ExpensesOnly ==> r.totalIncomes == Sum(Filter(incomes, k), Amount))
            && r == Summarize(Filter(expenses, k), Filter(incomes, k), f.transactionType)
  {
    var range := DateRangeAsWritten(f, now);
    Summarize(FilterTxns(expenses, range, f.categoryIds), FilterTxns(incomes, range, f.categoryIds), f.transactionType)
  }

  /** The page with the corrected range, which keeps every instant of a range's last day. */
  function AnalyzeCorrected(expenses: seq<Txn>, incomes: seq<Txn>, f: Filters, now: DateTime): (r: Summary)
    ensures var k := Kept(DateRange(f, now), f.categoryIds);
            && (f.transactionType != IncomesOnly ==> r.totalExpenses == Sum(Filter(expenses, k), Amount))
            && (f.transactionType != ExpensesOnly ==> r.totalIncomes == Sum(Filter(incomes, k), Amount))
            && r == Summarize(Filter(expenses, k), Filter(incomes, k), f.transactionType)
  {
    var range := DateRange(f, now);
    Summarize(FilterTxns(expenses, range, f.categoryIds), FilterTxns(incomes, range, f.categoryIds), f.transactionType)
  }

  predicate AtMidnight(t: Txn) {
    t.at.ms == 0
  }

  /** For an instant at midnight, the written and the corrected range agree. */
  lemma MidnightSameRange(f: Filters, now: DateTime, t: DateTime)
    requires t.ms == 0
    ensures InRange(t, DateRangeAsWritten(f, now)) <==> InRange(t, DateRange(f, now))
  {
  }

  /**
   * When every record is dated at midnight, as records stored as plain dates are,
   * the page as written and the corrected page compute the same summary.
   */
  lemma AnalyzeAgreesOnMidnights(expenses: seq<Txn>, incomes: seq<Txn>, f: Filters, now: DateTime)
    requires forall i :: 0 <= i < |expenses| ==> AtMidnight(expenses[i])
    requires forall i :: 0 <= i < |incomes| ==> AtMidnight(incomes[i])
    ensures Analyze(expenses, incomes, f, now) == AnalyzeCorrected(expenses, incomes, f, now)
  {
    var kw, kc := Kept(DateRangeAsWritten(f, now), f.categoryIds), Kept(DateRange(f, now), f.categoryIds);
    forall i | 0 <= i < |expenses| ensures kw(expenses[i]) == kc(expenses[i]) {
      MidnightSameRange(f, now, expenses[i].at);
    }
    forall i | 0 <= i < |incomes| ensures kw(incomes[i]) == kc(incomes[i]) {
      MidnightSameRange(f, now, incomes[i].at);
    }
    FilterCongruent(expenses, kw, kc);
    FilterCongruent(incomes, kw, kc);
  }

  /** The clock, the expense and the filters of the page-level counterexample. */
  const MidSeptember := DateTime(Date(2024, 9, 15), 43_200_000)
  const LastDayExpense := Txn(1, 1, "Lazer", "Cinema", 100, DateTime(Date(2024, 9, 30), 51_300_000))
  const ThisMonthOnly := Filters(ThisMonth, AllTypes, [], None, None)

  /** The written range drops the expense and the corrected range keeps it. */
  lemma LastDayFilters()
    ensures Filter([LastDayExpense], Kept(DateRangeAsWritten(ThisMonthOnly, MidSeptember), [])) == []
    ensures Filter([LastDayExpense], Kept(DateRange(ThisMonthOnly, MidSeptember), [])) == [LastDayExpense]
  {
    ThisMonthMissesLastDay();
    KeptSingle(LastDayExpense, DateRangeAsWritten(ThisMonthOnly, MidSeptember));
    KeptSingle(LastDayExpense, DateRange(ThisMonthOnly, MidSeptember));
  }

  /** With no category selected, a one-element list is kept exactly when its instant is in range. */
  lemma KeptSingle(t: Txn, r: Range)
    ensures Filter([t], Kept(r, [])) == if InRange(t.at, r) then [t] else []
  {
    assert [t][1..] == [];
  }

  /**
   * The finding on the whole page: on 15 September 2024 a single expense of 100
   * cents at 14:15 on 30 September is missing from this month's total as written,
   * and counted by the corrected page.
   */
  lemma AnalyzeMissesLastDay()
    ensures Analyze([LastDayExpense], [], ThisMonthOnly, MidSeptember).totalExpenses == 0
    ensures AnalyzeCorrected([LastDayExpense], [], ThisMonthOnly, MidSeptember).totalExpenses == 100
  {
    LastDayFilters();
    var r := Analyze([LastDayExpense], [], ThisMonthOnly, MidSeptember);
    var c := AnalyzeCorrected([LastDayExpense], [], ThisMonthOnly, MidSeptember);
    assert r.totalExpenses == Sum([], Amount);
    assert c.totalExpenses == Sum([LastDayExpense], Amount);
  }

  /** A larger total first is a strict weak order. */
  lemma HigherTotalOrder()
    ensures StrictWeakOrder(HigherTotal)
  {
  }

  /** A later key first is a strict weak order, code-unit order being a strict total order. */
  lemma LaterMonthOrder()
    ensures StrictWeakOrder(LaterMonth)
  {
    forall a, b | LaterMonth(a, b) ensures !LaterMonth(b, a) {
      LexLessAsymmetric(b.month, a.month);
    }
    forall a, b, c | LaterMonth(a, c) ensures LaterMonth(a, b) || LaterMonth(b, c) {
      LexLessTotal(a.month, b.month);
      if LexLess(a.month, b.month) {
        LexLessTransitive(c.month, a.month, b.month);
      }
    }
  }

  /** The breakdown rows before sorting, one per map entry. */
  function BreakdownRows(s: seq<Txn>, total: int): seq<CategoryBreakdown> {
    var ts := Accumulate([], s, CategoryIdOf, Amount, NoWeight);
    seq(|ts|, i requires 0 <= i < |ts| => AsBreakdown(ts[i], total))
  }

  /**
   * Each breakdown row totals and counts exactly the transactions of its category,
   * of which there is at least one, and carries its share of `total`.
   */
  lemma BreakdownRow(s: seq<Txn>, total: int, i: int)
    requires 0 <= i < |Breakdown(s, total)|
    ensures var c := Breakdown(s, total)[i];
            var f := Filter(s, KeyIs(CategoryIdOf, c.categoryId));
            && c.total == Sum(f, Amount) && c.count == |f| && c.count >= 1
            && c.percentage == Percent(c.total, total)
  {
    var cs := BreakdownRows(s, total);
    var r := Breakdown(s, total);
    assert r == SortBy(cs, HigherTotal);
    assert r[i] in multiset(r);
    assert r[i] in multiset(cs);
    var j :| 0 <= j < |cs| && cs[j] == r[i];
    BreakdownRowsRow(s, total, j);
  }

  /** The same for the rows before sorting. */
  lemma BreakdownRowsRow(s: seq<Txn>, total: int, j: int)
    requires 0 <= j < |BreakdownRows(s, total)|
    ensures var c := BreakdownRows(s, total)[j];
            var f := Filter(s, KeyIs(CategoryIdOf, c.categoryId));
            && c.total == Sum(f, Amount) && c.count == |f| && c.count >= 1
            && c.percentage == Percent(c.total, total)
  {
    var ts := Accumulate([], s, CategoryIdOf, Amount, NoWeight);
    assert BreakdownRows(s, total)[j] == AsBreakdown(ts[j], total);
    var k := ts[j].key;
    AccumulateRow(s, CategoryIdOf, Amount, NoWeight, j);
    var m :| 0 <= m < |s| && CategoryIdOf(s[m]) == k;
    assert s[m] in Filter(s, KeyIs(CategoryIdOf, k));
  }

  /** Every category of the analysed transactions has its breakdown row. */
  lemma BreakdownCovers(s: seq<Txn>, total: int, m: int)
    requires 0 <= m < |s|
    ensures exists i :: 0 <= i < |Breakdown(s, total)| && Breakdown(s, total)[i].categoryId == s[m].categoryId
  {
    var ts := Accumulate([], s, CategoryIdOf, Amount, NoWeight);
    var cs := BreakdownRows(s, total);
    var r := Breakdown(s, total);
    var k := s[m].categoryId;
    AccumulateKeys([], s, CategoryIdOf, Amount, NoWeight, k);
    assert KeyOccurs(s, CategoryIdOf, k);
    var j :| 0 <= j < |ts| && ts[j].key == k;
    assert cs[j] in multiset(cs);
    assert cs[j] in multiset(r);
    var i :| 0 <= i < |r| && r[i] == cs[j];
  }

  /**
   * The breakdown has one row per category, sorted by non-increasing total; the
   * rows' totals add up to the analysed total and their counts to the number of
   * transactions.
   */
  lemma BreakdownShape(s: seq<Txn>, total: int)
    ensures var r := Breakdown(s, total);
            && DistinctBy(r, BreakdownId)
            && (forall i, j :: 0 <= i < j < |r| ==> r[i].total >= r[j].total)
            && Sum(r, BreakdownTotal) == Sum(s, Amount)
            && Sum(r, BreakdownCount) == |s|
  {
    var ts := Accumulate([], s, CategoryIdOf, Amount, NoWeight);
    var cs := BreakdownRows(s, total);
    assert DistinctBy(cs, BreakdownId) by {
      assert forall i :: 0 <= i < |cs| ==> BreakdownId(cs[i]) == KeyOf(ts[i]);
    }
    SortByDistinct(cs, HigherTotal, BreakdownId);
    HigherTotalOrder();
    SortBySorted(cs, HigherTotal);
    SortBySum(cs, HigherTotal, BreakdownTotal);
    SortBySum(cs, HigherTotal, BreakdownCount);
    SumAligned(cs, ts, BreakdownTotal, FirstOf);
    SumAligned(cs, ts, BreakdownCount, CountOf);
  }

  /** The trend rows before sorting, one per map entry. */
  function TrendRows(expenses: seq<Txn>, incomes: seq<Txn>): seq<MonthlyTrend> {
    var ts := Accumulate(Accumulate([], expenses, MonthKeyOf, Amount, NoWeight), incomes, MonthKeyOf, NoWeight, Amount);
    seq(|ts|, i requires 0 <= i < |ts| => AsTrend(ts[i]))
  }

  /** The unsorted row of one month: its expense total, income total, and their difference. */
  lemma TrendRowsRow(expenses: seq<Txn>, incomes: seq<Txn>, j: int)
    requires 0 <= j < |TrendRows(expenses, incomes)|
    ensures var m := TrendRows(expenses, incomes)[j];
            && m.totalExpenses == Sum(Filter(expenses, KeyIs(MonthKeyOf, m.month)), Amount)
            && m.totalIncomes == Sum(Filter(incomes, KeyIs(MonthKeyOf, m.month)), Amount)
            && m.netBalance == m.totalIncomes - m.totalExpenses
  {
    var base := Accumulate([], expenses, MonthKeyOf, Amount, NoWeight);
    var ts := Accumulate(base, incomes, MonthKeyOf, NoWeight, Amount);
    var k := ts[j].key;
    assert TrendRows(expenses, incomes)[j] == AsTrend(ts[j]);
    GetDistinct(ts, j);
    var fi := Filter(incomes, KeyIs(MonthKeyOf, k));
    var fe := Filter(expenses, KeyIs(MonthKeyOf, k));
    AccumulateGet(base, incomes, MonthKeyOf, NoWeight, Amount, k);
    AccumulateGet([], expenses, MonthKeyOf, Amount, NoWeight, k);
    SumConstant(fi, NoWeight, 0);
    SumConstant(fe, NoWeight, 0);
    assert ts[j].first == Get(base, k).first + 0;
    assert ts[j].second == 0 + Sum(fi, Amount);
  }

  /** Each month's row holds that month's expense total, income total, and their difference. */
  lemma TrendRow(expenses: seq<Txn>, incomes: seq<Txn>, i: int)
    requires 0 <= i < |Trends(expenses, incomes)|
    ensures var m := Trends(expenses, incomes)[i];
            && m.totalExpenses == Sum(Filter(expenses, KeyIs(MonthKeyOf, m.month)), Amount)
            && m.totalIncomes == Sum(Filter(incomes, KeyIs(MonthKeyOf, m.month)), Amount)
            && m.netBalance == m.totalIncomes - m.totalExpenses
  {
    var ms := TrendRows(expenses, incomes);
    var r := Trends(expenses, incomes);
    assert r == SortBy(ms, LaterMonth);
    assert r[i] in multiset(r);
    assert r[i] in multiset(ms);
    var j :| 0 <= j < |ms| && ms[j] == r[i];
    TrendRowsRow(expenses, incomes, j);
  }

  /** Before sorting, a month has a row exactly when some expense or income falls in it. */
  lemma TrendRowsCover(expenses: seq<Txn>, incomes: seq<Txn>, k: string)
    ensures KeyOccurs(TrendRows(expenses, incomes), TrendMonth, k)
            <==> KeyOccurs(expenses, MonthKeyOf, k) || KeyOccurs(incomes, MonthKeyOf, k)
  {
    var base := Accumulate([], expenses, MonthKeyOf, Amount, NoWeight);
    var ts := Accumulate(base, incomes, MonthKeyOf, NoWeight, Amount);
    var ms := TrendRows(expenses, incomes);
    AccumulateKeys(base, incomes, MonthKeyOf, NoWeight, Amount, k);
    AccumulateKeys([], expenses, MonthKeyOf, Amount, NoWeight, k);
    assert |ms| == |ts|;
    if HasKey(ts, k) {
      var i :| 0 <= i < |ts| && ts[i].key == k;
      assert ms[i] == AsTrend(ts[i]);
      assert TrendMonth(ms[i]) == k;
    }
    if KeyOccurs(ms, TrendMonth, k) {
      var i :| 0 <= i < |ms| && TrendMonth(ms[i]) == k;
      assert ms[i] == AsTrend(ts[i]);
      assert ts[i].key == k;
    }
  }

  /** A month has a row exactly when some analysed expense or income falls in it. */
  lemma TrendCovers(expenses: seq<Txn>, incomes: seq<Txn>, k: string)
    ensures KeyOccurs(Trends(expenses, incomes), TrendMonth, k)
            <==> KeyOccurs(expenses, MonthKeyOf, k) || KeyOccurs(incomes, MonthKeyOf, k)
  {
    var ms := TrendRows(expenses, incomes);
    assert Trends(expenses, incomes) == SortBy(ms, LaterMonth);
    SortByKeys(ms, LaterMonth, TrendMonth, k);
    TrendRowsCover(expenses, incomes, k);
  }

  /** The trend has one row per month, latest key first. */
  lemma TrendShape(expenses: seq<Txn>, incomes: seq<Txn>)
    ensures var r := Trends(expenses, incomes);
            && DistinctBy(r, TrendMonth)
            && forall i, j :: 0 <= i < j < |r| ==> LexLess(r[j].month, r[i].month)
  {
    var base := Accumulate([], expenses, MonthKeyOf, Amount, NoWeight);
    var ts := Accumulate(base, incomes, MonthKeyOf, NoWeight, Amount);
    var ms := TrendRows(expenses, incomes);
    var r := Trends(expenses, incomes);
    assert DistinctBy(ms, TrendMonth) by {
      assert forall i :: 0 <= i < |ms| ==> TrendMonth(ms[i]) == KeyOf(ts[i]);
    }
    SortByDistinct(ms, LaterMonth, TrendMonth);
    LaterMonthOrder();
    SortBySorted(ms, LaterMonth);
    forall i, j | 0 <= i < j < |r| ensures LexLess(r[j].month, r[i].month) {
      assert !LaterMonth(r[j], r[i]);
      assert TrendMonth(r[i]) != TrendMonth(r[j]);
      LexLessTotal(r[i].month, r[j].month);
    }
  }
  /** A range from one day's midnight to another day's last millisecond holds exactly the instants of the days between. */
  lemma WholeDays(t: DateTime, first: Date, last: Date)
    requires IsValidTime(t)
    ensures InRange(t, Range(Some(Midnight(first)), Some(EndOfDay(last))))
            <==> Queries.InBounds(t.date, Queries.Between(first, last))
  {
  }

  /** A range ending at the last day's midnight misses everything on that day after midnight. */
  lemma MidnightEnd(t: DateTime, first: Date, last: Date)
    requires IsValidTime(t)
    ensures InRange(t, Range(Some(Midnight(first)), Some(Midnight(last))))
            <==> Queries.InBounds(t.date, Queries.Between(first, last)) && (t.date == last ==> t.ms == 0)
  {
  }

  /** Corrected THIS_MONTH: exactly the instants of the current calendar month. */
  lemma ThisMonthExact(f: Filters, now: DateTime, t: DateTime)
    requires f.period == ThisMonth && IsValid(now.date) && IsValidTime(t)
    ensures InRange(t, DateRange(f, now))
            <==> t.date.year == Queries.FullYear(now.date.year) && t.date.month == now.date.month
  {
    var y, m := now.date.year, now.date.month;
    Queries.MonthBoundsSpan(y, m);
    OrdinalInverse(Queries.FullYear(y), m);
    WholeDays(t, Queries.MonthBounds(y, m).first, Queries.MonthBounds(y, m).last);
    Queries.InMonthBounds(t.date, y, m);
  }

  /**
   * THIS_MONTH as written: the current month, except every instant of its last
   * day after midnight.
   */
  lemma ThisMonthAsWritten(f: Filters, now: DateTime, t: DateTime)
    requires f.period == ThisMonth && IsValid(now.date) && IsValidTime(t)
    ensures var y, m := Queries.FullYear(now.date.year), now.date.month;
            InRange(t, DateRangeAsWritten(f, now))
            <==> t.date.year == y && t.date.month == m && (t.date.day == DaysInMonth(y, m) ==> t.ms == 0)
  {
    var y, m := now.date.year, now.date.month;
    Queries.MonthBoundsSpan(y, m);
    OrdinalInverse(Queries.FullYear(y), m);
    MidnightEnd(t, Queries.MonthBounds(y, m).first, Queries.MonthBounds(y, m).last);
    Queries.InMonthBounds(t.date, y, m);
  }

  /** On 15 September 2024, a transaction at 14:15 on 30 September is dropped from "this month" as written and kept by the corrected range. */
  lemma ThisMonthMissesLastDay()
    ensures var now := DateTime(Date(2024, 9, 15), 43_200_000);
            var t := DateTime(Date(2024, 9, 30), 51_300_000);
            var f := Filters(ThisMonth, AllTypes, [], None, None);
            && IsValidTime(now) && IsValidTime(t)
            && !InRange(t, DateRangeAsWritten(f, now))
            && InRange(t, DateRange(f, now))
  {
    var now := DateTime(Date(2024, 9, 15), 43_200_000);
    var t := DateTime(Date(2024, 9, 30), 51_300_000);
    var f := Filters(ThisMonth, AllTypes, [], None, None);
    assert IsValid(now.date) && IsValidTime(now) && IsValidTime(t);
    assert Queries.FullYear(2024) == 2024;
    assert DaysInMonth(2024, 9) == 30;
    ThisMonthAsWritten(f, now, t);
    assert !InRange(t, DateRangeAsWritten(f, now));
    ThisMonthExact(f, now, t);
  }

  /** Corrected LAST_MONTH: exactly the instants of the calendar month before the current one. */
  lemma LastMonthExact(f: Filters, now: DateTime, t: DateTime)
    requires f.period == LastMonth && IsValid(now.date) && IsValidTime(t)
    ensures var k := MonthOrdinal(Queries.FullYear(now.date.year), now.date.month) - 1;
            InRange(t, DateRange(f, now)) <==> t.date.year == YearOf(k) && t.date.month == MonthOf(k)
  {
    var y, m := now.date.year, now.date.month;
    Queries.MonthBoundsSpan(y, m - 1);
    WholeDays(t, Queries.MonthBounds(y, m - 1).first, Queries.MonthBounds(y, m - 1).last);
    Queries.InMonthBounds(t.date, y, m - 1);
  }

  /** Corrected LAST_YEAR: exactly the instants of the previous calendar year. */
  lemma LastYearExact(f: Filters, now: DateTime, t: DateTime)
    requires f.period == LastYear && IsValidTime(t)
    ensures InRange(t, DateRange(f, now)) <==> t.date.year == Queries.FullYear(now.date.year - 1)
  {
    var y := Queries.FullYear(now.date.year - 1);
    OrdinalInverse(y, 1);
    OrdinalInverse(y, 12);
    assert LocalDate(now.date.year - 1, 0, 1) == Date(y, 1, 1);
    assert LocalDate(now.date.year - 1, 11, 31) == Date(y, 12, 31);
  }

  /** Corrected CUSTOM: every instant of the chosen days, each bound inclusive and optional. */
  lemma CustomExact(f: Filters, now: DateTime, t: DateTime)
    requires f.period == Custom && IsValidTime(t)
    ensures InRange(t, DateRange(f, now))
            <==> && (f.customStart.None? || !Before(t.date, f.customStart.value))
                 && (f.customEnd.None? || !Before(f.customEnd.value, t.date))
  {
  }

  /**
   * LAST_3_MONTHS, LAST_6_MONTHS and THIS_YEAR: from the first day of a month
   * `back` months before the current one up to the present instant.
   */
  lemma RecentExact(f: Filters, now: DateTime, t: DateTime)
    requires f.period in {Last3Months, Last6Months, ThisYear} && IsValid(now.date) && IsValidTime(t)
    ensures var back := match f.period case Last3Months => 3 case Last6Months => 6 case _ => now.date.month - 1;
            InRange(t, DateRange(f, now))
            <==> OrdinalOf(t.date) >= MonthOrdinal(Queries.FullYear(now.date.year), now.date.month) - back && !TimeBefore(now, t)
  {
    var y, mi := now.date.year, now.date.month - 1;
    var back := match f.period case Last3Months => 3 case Last6Months => 6 case _ => mi;
    var k := 12 * Queries.FullYear(y) + mi - back;
    OrdinalRoundTrip(k);
    assert LocalDate(y, mi - back, 1) == Date(YearOf(k), MonthOf(k), 1);
    if OrdinalOf(t.date) < k {
      OrdinalOrder(t.date, Date(YearOf(k), MonthOf(k), 1));
    }
  }
}

=== FILE: app_middleware.dfy ===
/**
 * The decision of the application's `middleware`: signed-out visitors may only
 * open the public pages, signed-in users are sent away from them. Whether a user
 * is signed in is an input.
 */
module AppMiddleware {
  import opened Wrappers
  import SessionGuard

  /** The public routes, each with its `whenAuthenticated: "redirect"` setting. */
  const PublicPaths: seq<string> := ["/login", "/register"]
  const SignInPath := "/login"
  const HomePath := "/"

  /** `publicRoutes.find((route) => route.path === path)` found something. */
  predicate IsPublicPath(path: string) {
    exists i :: 0 <= i < |PublicPaths| && PublicPaths[i] == path
  }

  datatype Decision = Continue | RedirectTo(path: string)

  /** `middleware(request)` once the session is known. */
  function Middleware(path: string, signedIn: bool): (d: Decision)
    ensures !signedIn && IsPublicPath(path) ==> d == Continue
    ensures !signedIn && !IsPublicPath(path) ==> d == RedirectTo(SignInPath)
    ensures signedIn && IsPublicPath(path) ==> d == RedirectTo(HomePath)
    ensures signedIn && !IsPublicPath(path) ==> d == Continue
  {
    if !signedIn then
      if IsPublicPath(path) then Continue else RedirectTo(SignInPath)
    else if IsPublicPath(path) then RedirectTo(HomePath)
    else Continue
  }

  /** A redirect always leads somewhere the same visitor is let in: there are no redirect loops. */
  lemma RedirectTargetContinues(path: string, signedIn: bool)
    requires Middleware(path, signedIn).RedirectTo?
    ensures Middleware(Middleware(path, signedIn).path, signedIn) == Continue
    ensures Middleware(path, signedIn).path != path
  {
    assert IsPublicPath(SignInPath) by {
      assert PublicPaths[0] == SignInPath;
    }
    assert !IsPublicPath(HomePath) by {
      assert PublicPaths[0] != HomePath && PublicPaths[1] != HomePath;
    }
  }

  /**
   * The two layers agree wherever the session layer redirects a non-callback
   * path: a signed-out visitor goes to the login page in both, and a signed-in
   * user on a public page goes home in both when no `from` parameter is given.
   */
  lemma LayersAgree(path: string, signedIn: bool, csp: string, nonce: string)
    requires !SessionGuard.IsAuthCallback(path)
    requires SessionGuard.Decide(path, signedIn, None, csp, nonce).Redirect?
    ensures Middleware(path, signedIn) == RedirectTo(SessionGuard.Decide(path, signedIn, None, csp, nonce).path)
  {
    if !signedIn {
      SessionGuard.UnprotectedPages();
      assert path !in SessionGuard.PublicRoutes by {
        if path in SessionGuard.PublicRoutes {
          SessionGuard.PublicNotProtected(path);
        }
      }
    } else {
      assert path in SessionGuard.PublicRoutes;
      assert PublicPaths == SessionGuard.PublicRoutes;
    }
  }
}

=== FILE: calendar.dfy ===
/**
 * Proleptic Gregorian calendar arithmetic in one fixed time zone (UTC), with the
 * day-overflow behaviour of JavaScript's `Date`: a day number outside the month
 * carries into the following months (or borrows from the preceding ones) instead
 * of being clamped.
 */
module Calendar {

  /** A calendar day; `month` is 1..12 in a valid date. */
  datatype Date = Date(year: int, month: int, day: int)

  /** A point in time: a day plus the milliseconds elapsed since its midnight. */
  datatype DateTime = DateTime(date: Date, ms: int)

  predicate IsLeapYear(y: int) {
    y % 4 == 0 && (y % 100 != 0 || y % 400 == 0)
  }

  function DaysInMonth(y: int, m: int): (n: int)
    requires 1 <= m <= 12
    ensures 28 <= n <= 31
  {
    if m == 2 then (if IsLeapYear(y) then 29 else 28)
    else if m == 4 || m == 6 || m == 9 || m == 11 then 30
    else 31
  }

  predicate IsValid(d: Date) {
    1 <= d.month <= 12 && 1 <= d.day <= DaysInMonth(d.year, d.month)
  }

  predicate IsValidTime(t: DateTime) {
    IsValid(t.date) && 0 <= t.ms < 86_400_000
  }

  /** Months elapsed since January of year 0; January 2024 is 12 * 2024. */
  function MonthOrdinal(y: int, m: int): int {
    12 * y + (m - 1)
  }

  function OrdinalOf(d: Date): int {
    MonthOrdinal(d.year, d.month)
  }

  /** Year and month (1..12) of a month ordinal; Dafny's `/` and `%` floor for divisor 12, as JavaScript's MakeDay does. */
  function YearOf(k: int): int { k / 12 }
  function MonthOf(k: int): (m: int) ensures 1 <= m <= 12 { k % 12 + 1 }

  lemma OrdinalRoundTrip(k: int)
    ensures MonthOrdinal(YearOf(k), MonthOf(k)) == k
  {
  }

  lemma OrdinalInverse(y: int, m: int)
    requires 1 <= m <= 12
    ensures YearOf(MonthOrdinal(y, m)) == y && MonthOf(MonthOrdinal(y, m)) == m
  {
  }

  /**
   * The date JavaScript builds from a year, a month and an arbitrary day number:
   * day 0 is the last day of the previous month, day 32 of January is 1 February.
   */
  function Normalize(y: int, m: int, d: int): (r: Date)
    requires 1 <= m <= 12
    ensures IsValid(r)
    ensures 1 <= d <= DaysInMonth(y, m) ==> r == Date(y, m, d)
    decreases (if d < 1 then 1 else 0), (if d < 1 then -d else d)
  {
    if d < 1 then
      var k := MonthOrdinal(y, m) - 1;
      Normalize(YearOf(k), MonthOf(k), d + DaysInMonth(YearOf(k), MonthOf(k)))
    else if d > DaysInMonth(y, m) then
      var k := MonthOrdinal(y, m) + 1;
      Normalize(YearOf(k), MonthOf(k), d - DaysInMonth(y, m))
    else
      Date(y, m, d)
  }

  /** `new Date(y, monthIndex, day)` without the two-digit-year rule: month index 0 is January, any integers. */
  function MakeDate(y: int, monthIndex: int, day: int): (r: Date)
    ensures IsValid(r)
  {
    var k := 12 * y + monthIndex;
    Normalize(YearOf(k), MonthOf(k), day)
  }

  /** The local-time constructor `new Date(y, monthIndex, day)`, which reads years 0..99 as 1900..1999. */
  function LocalDate(y: int, monthIndex: int, day: int): (r: Date)
    ensures IsValid(r)
  {
    MakeDate(if 0 <= y <= 99 then 1900 + y else y, monthIndex, day)
  }

  /** `date.setMonth(date.getMonth() + n)`: the day is kept and may overflow the target month. */
  function AddMonths(d: Date, n: int): (r: Date)
    requires IsValid(d)
    ensures IsValid(r)
  {
    MakeDate(d.year, d.month - 1 + n, d.day)
  }

  /** `date.setDate(day)`: the day is replaced within the current month and may overflow it. */
  function SetDay(d: Date, day: int): (r: Date)
    requires IsValid(d)
    ensures IsValid(r)
  {
    MakeDate(d.year, d.month - 1, day)
  }

  /** Chronological order of days. */
  predicate Before(a: Date, b: Date) {
    a.year < b.year || (a.year == b.year && (a.month < b.month || (a.month == b.month && a.day < b.day)))
  }

  /** Chronological order of instants. */
  predicate TimeBefore(a: DateTime, b: DateTime) {
    Before(a.date, b.date) || (a.date == b.date && a.ms < b.ms)
  }

  /** Midnight starting a day: what `new Date("YYYY-MM-DD")` yields in UTC. */
  function Midnight(d: Date): DateTime {
    DateTime(d, 0)
  }

  /** An earlier month ordinal means an earlier date, whatever the days. */
  lemma OrdinalOrder(a: Date, b: Date)
    requires IsValid(a) && IsValid(b)
    requires OrdinalOf(a) < OrdinalOf(b)
    ensures Before(a, b)
  {
  }

  /** Days that fit their month are left alone: `Normalize` is the identity on valid dates. */
  lemma NormalizeValid(d: Date)
    requires IsValid(d)
    ensures Normalize(d.year, d.month, d.day) == d
  {
  }

  /** A day past the month's end by at most 28 carries exactly one month. */
  lemma NormalizeCarryOnce(y: int, m: int, d: int)
    requires 1 <= m <= 12
    requires DaysInMonth(y, m) < d <= DaysInMonth(y, m) + 28
    ensures var k := MonthOrdinal(y, m) + 1;
            Normalize(y, m, d) == Date(YearOf(k), MonthOf(k), d - DaysInMonth(y, m))
  {
  }
}

=== FILE: categories.dfy ===
/**
 * The category server actions over the `categories` table: listing with an
 * optional type filter, update and delete scoped to the caller's row, and the
 * seeding of the sixteen default categories for a new user.
 */
module Categories {
  import opened Wrappers
  import opened Seqs
  import opened Records
  import opened Text
  import opened Sorting

  datatype Kind = Expense | Income

  datatype Category = Category(id: int, userId: string, name: string, kind: Kind, icon: string, color: string)

  /** One default category: name, icon and colour. */
  datatype Preset = Preset(name: string, icon: string, color: string)

  const ExpensePresets: seq<Preset> := [
    Preset("Alimentação", "\U{1F354}", "#ef4444"),
    Preset("Transporte", "\U{1F697}", "#f97316"),
    Preset("Lazer", "\U{1F3AE}", "#8b5cf6"),
    Preset("Saúde", "\U{2695}\U{FE0F}", "#10b981"),
    Preset("Educação", "\U{1F4DA}", "#3b82f6"),
    Preset("Compras", "\U{1F6CD}\U{FE0F}", "#ec4899"),
    Preset("Contas", "\U{1F4A1}", "#eab308"),
    Preset("Outros", "\U{1F4E6}", "#6b7280")
  ]

  const IncomePresets: seq<Preset> := [
    Preset("Salário", "\U{1F4BC}", "#10b981"),
    Preset("Freelance", "\U{1F4BB}", "#3b82f6"),
    Preset("Investimentos", "\U{1F4C8}", "#8b5cf6"),
    Preset("Aluguel", "\U{1F3E0}", "#f59e0b"),
    Preset("Vendas", "\U{1F4B0}", "#10b981"),
    Preset("Bônus", "\U{1F381}", "#ec4899"),
    Preset("Presentes", "\U{1F389}", "#f97316"),
    Preset("Outros", "\U{1F4E6}", "#6b7280")
  ]

  function OfKind(kind: Kind): Category -> bool {
    (c: Category) => c.kind == kind
  }

  function CategoryOwnedBy(user: string): Category -> bool {
    (c: Category) => c.userId == user
  }

  function CategoryIdAndOwner(id: int, user: string): Category -> bool {
    (c: Category) => c.id == id && c.userId == user
  }

  /** `.order("name", { ascending: true })`: the smaller name first. */
  function NameBefore(a: Category, b: Category): bool {
    LexLess(a.name, b.name)
  }

  /** Ascending names are a strict weak order, code-unit order being a strict total order. */
  lemma NameOrder()
    ensures StrictWeakOrder(NameBefore)
  {
    forall a, b | NameBefore(a, b) ensures !NameBefore(b, a) {
      LexLessAsymmetric(a.name, b.name);
    }
    forall a, b, c | NameBefore(a, c) ensures NameBefore(a, b) || NameBefore(b, c) {
      LexLessTotal(a.name, b.name);
      if LexLess(b.name, a.name) {
        LexLessTransitive(b.name, a.name, c.name);
      }
    }
  }

  /** The caller's categories of the requested type, in store order. */
  function Selected(user: string, store: seq<Category>, kind: Option<Kind>): seq<Category> {
    var mine := Filter(store, CategoryOwnedBy(user));
    if kind.Some? then Filter(mine, OfKind(kind.value)) else mine
  }

  /**
   * `getCategories(type)`: the caller's categories, of one type when a type is
   * given, ordered by name. Categories of equal name keep their store order.
   */
  function ListCategories(user: Option<string>, store: seq<Category>, kind: Option<Kind>): (r: Outcome<seq<Category>>)
    ensures user.None? <==> r == Err(Unauthenticated)
    ensures r.Ok? ==> forall i :: 0 <= i < |r.value| ==>
              r.value[i] in store && r.value[i].userId == user.value && (kind.Some? ==> r.value[i].kind == kind.value)
    ensures r.Ok? ==> forall i ::
              (0 <= i < |store| && store[i].userId == user.value && (kind.Some? ==> store[i].kind == kind.value))
              ==> store[i] in r.value
    ensures r.Ok? ==> multiset(r.value) == multiset(Selected(user.value, store, kind))
    ensures r.Ok? ==> forall i, j :: 0 <= i < j < |r.value| ==> !LexLess(r.value[j].name, r.value[i].name)
  {
    if user.None? then Err(Unauthenticated)
    else
      SortedListing(user.value, store, kind);
      Ok(SortBy(Selected(user.value, store, kind), NameBefore))
  }

  /** The sorted selection holds exactly the selected categories, in name order. */
  lemma SortedListing(user: string, store: seq<Category>, kind: Option<Kind>)
    ensures var r := SortBy(Selected(user, store, kind), NameBefore);
            && (forall i :: 0 <= i < |r| ==>
                  r[i] in store && r[i].userId == user && (kind.Some? ==> r[i].kind == kind.value))
            && (forall i :: (0 <= i < |store| && store[i].userId == user && (kind.Some? ==> store[i].kind == kind.value))
                  ==> store[i] in r)
            && (forall i, j :: 0 <= i < j < |r| ==> !LexLess(r[j].name, r[i].name))
  {
    var sel := Selected(user, store, kind);
    var r := SortBy(sel, NameBefore);
    SortByMembers(sel, NameBefore);
    NameOrder();
    SortBySorted(sel, NameBefore);
    assert SortedBy(r, NameBefore);
    forall i, j | 0 <= i < j < |r| ensures !LexLess(r[j].name, r[i].name) {
      assert !NameBefore(r[j], r[i]);
    }
    var mine := Filter(store, CategoryOwnedBy(user));
    forall i | 0 <= i < |r| ensures r[i] in store && r[i].userId == user && (kind.Some? ==> r[i].kind == kind.value) {
      assert r[i] in sel;
    }
    forall i | 0 <= i < |store| && store[i].userId == user && (kind.Some? ==> store[i].kind == kind.value)
      ensures store[i] in r
    {
      assert store[i] in mine;
      assert store[i] in sel;
    }
  }

  /** Without a type the listing holds exactly the expense categories and the income categories together. */
  lemma ListingSplitsByKind(user: string, store: seq<Category>)
    ensures var all := ListCategories(Some(user), store, None).value;
            |ListCategories(Some(user), store, Some(Expense)).value|
            + |ListCategories(Some(user), store, Some(Income)).value| == |all|
  {
    var mine := Filter(store, CategoryOwnedBy(user));
    LengthPartition(mine, OfKind(Expense));
    FilterCongruent(mine, Not(OfKind(Expense)), OfKind(Income));
  }

  /** `ICategoryFormData`. */
  datatype CategoryForm = CategoryForm(name: string, kind: Kind, color: string, icon: string)

  /**
   * `createCategory`: the caller's new category, with the id the database
   * assigns, added to the store and returned.
   */
  function CreateCategory(user: Option<string>, form: CategoryForm, id: int, store: seq<Category>)
    : (r: (Outcome<Category>, seq<Category>))
    ensures user.None? <==> r.0 == Err(Unauthenticated)
    ensures user.None? ==> r.1 == store
    ensures r.0.Ok? ==> && r.0.value.userId == user.value && r.0.value.id == id
                        && r.0.value.name == form.name && r.0.value.kind == form.kind
                        && r.1 == store + [r.0.value]
  {
    if user.None? then (Err(Unauthenticated), store)
    else
      var c := Category(id, user.value, form.name, form.kind, form.icon, form.color);
      (Ok(c), store + [c])
  }

  /**
   * After a creation, the creator's listing of the new category's type holds the
   * new category besides what it held before, the other type's listing is
   * unchanged, and so is every other user's listing.
   */
  lemma CreateThenList(user: string, form: CategoryForm, id: int, store: seq<Category>, viewer: string, kind: Option<Kind>)
    ensures var after := CreateCategory(Some(user), form, id, store);
            var before := ListCategories(Some(viewer), store, kind).value;
            multiset(ListCategories(Some(viewer), after.1, kind).value)
            == if viewer == user && (kind.None? || kind.value == form.kind) then multiset(before) + multiset{after.0.value}
               else multiset(before)
  {
    var c := Category(id, user, form.name, form.kind, form.icon, form.color);
    SelectedAfterCreate(user, c, store, viewer, kind);
  }

  /** The selection before sorting gains the new category at its end, or nothing. */
  lemma SelectedAfterCreate(user: string, c: Category, store: seq<Category>, viewer: string, kind: Option<Kind>)
    requires c.userId == user
    ensures Selected(viewer, store + [c], kind)
            == if viewer == user && (kind.None? || kind.value == c.kind) then Selected(viewer, store, kind) + [c]
               else Selected(viewer, store, kind)
  {
    var mine := Filter(store, CategoryOwnedBy(viewer));
    FilterAppend(store, [c], CategoryOwnedBy(viewer));
    var added := Filter([c], CategoryOwnedBy(viewer));
    if kind.Some? {
      FilterAppend(mine, added, OfKind(kind.value));
    }
    if viewer != user {
      assert added == [];
      assert mine + [] == mine;
      if kind.Some? {
        assert Filter(mine, OfKind(kind.value)) + [] == Filter(mine, OfKind(kind.value));
      }
    } else if kind.Some? && kind.value != c.kind {
      assert Filter(added, OfKind(kind.value)) == [];
      assert Filter(mine, OfKind(kind.value)) + [] == Filter(mine, OfKind(kind.value));
    }
  }

  /** `Partial<ICategoryFormData>`: the keys present in the update object. */
  datatype CategoryPatch = CategoryPatch(name: Option<string>, kind: Option<Kind>, color: Option<string>, icon: Option<string>)

  /** `update(formData)`: every key present overwrites its column, even with an empty string. */
  function ApplyCategoryPatch(c: Category, p: CategoryPatch): (d: Category)
    ensures d.id == c.id && d.userId == c.userId
    ensures p.name.Some? ==> d.name == p.name.value
    ensures p.name.None? ==> d.name == c.name
    ensures p.kind.Some? ==> d.kind == p.kind.value
    ensures p.kind.None? ==> d.kind == c.kind
    ensures p.icon.Some? ==> d.icon == p.icon.value
    ensures p.icon.None? ==> d.icon == c.icon
    ensures p.color.Some? ==> d.color == p.color.value
    ensures p.color.None? ==> d.color == c.color
  {
    Category(c.id, c.userId,
             if p.name.Some? then p.name.value else c.name,
             if p.kind.Some? then p.kind.value else c.kind,
             if p.icon.Some? then p.icon.value else c.icon,
             if p.color.Some? then p.color.value else c.color)
  }

  /** `updateCategory`: the caller's category with that id is patched and read back with `.single()`. */
  function UpdateCategory(user: Option<string>, id: int, p: CategoryPatch, store: seq<Category>)
    : (r: (Outcome<Category>, seq<Category>))
    ensures user.None? ==> r == (Err(Unauthenticated), store)
    ensures |r.1| == |store|
    ensures user.Some? ==> forall i :: 0 <= i < |store| ==>
              r.1[i] == if CategoryIdAndOwner(id, user.value)(store[i]) then ApplyCategoryPatch(store[i], p) else store[i]
    ensures r.0.Ok? <==> user.Some? && |Filter(store, CategoryIdAndOwner(id, user.value))| == 1
    ensures r.0.Ok? ==> r.0.value.id == id && r.0.value.userId == user.value && r.0.value in r.1
  {
    if user.None? then (Err(Unauthenticated), store)
    else
      var target := CategoryIdAndOwner(id, user.value);
      var after := seq(|store|, i requires 0 <= i < |store| =>
                       if target(store[i]) then ApplyCategoryPatch(store[i], p) else store[i]);
      FilterCountAligned(store, after, target, target);
      var m := Filter(after, target);
      if |m| == 1 then (Ok(m[0]), after) else (Err(DatabaseError), after)
  }

  /** `deleteCategory`: only the caller's category with that id goes. */
  function DeleteCategory(user: Option<string>, id: int, store: seq<Category>): (r: (Outcome<bool>, seq<Category>))
    ensures user.None? ==> r == (Err(Unauthenticated), store)
    ensures user.Some? ==> r.0 == Ok(true)
    ensures forall i :: 0 <= i < |r.1| ==> r.1[i] in store
    ensures user.Some? ==> forall i :: 0 <= i < |r.1| ==> !CategoryIdAndOwner(id, user.value)(r.1[i])
    ensures user.Some? ==> forall i :: 0 <= i < |store| && !CategoryIdAndOwner(id, user.value)(store[i]) ==> store[i] in r.1
    ensures user.Some? ==> |r.1| + |Filter(store, CategoryIdAndOwner(id, user.value))| == |store|
  {
    if user.None? then (Err(Unauthenticated), store)
    else
      var target := CategoryIdAndOwner(id, user.value);
      LengthPartition(store, target);
      (Ok(true), Filter(store, Not(target)))
  }

  /** The category inserted for a preset; `id` is the one the database assigns. */
  function FromPreset(user: string, kind: Kind, p: Preset, id: int): Category {
    Category(id, user, p.name, kind, p.icon, p.color)
  }

  /** `categoriesToInsert`: the eight expense defaults, then the eight income defaults. */
  function DefaultCategories(user: string, firstId: int): seq<Category> {
    seq(8, i requires 0 <= i < 8 => FromPreset(user, Expense, ExpensePresets[i], firstId + i))
    + seq(8, i requires 0 <= i < 8 => FromPreset(user, Income, IncomePresets[i], firstId + 8 + i))
  }

  predicate OwnsAny(store: seq<Category>, user: string) {
    exists i :: 0 <= i < |store| && store[i].userId == user
  }

  /**
   * `seedDefaultCategories`: nothing happens when the caller already owns a
   * category; otherwise the defaults are inserted, numbered from `firstId`.
   */
  function SeedDefaults(user: Option<string>, store: seq<Category>, firstId: int): (r: (Outcome<bool>, seq<Category>))
    ensures user.None? ==> r == (Err(Unauthenticated), store)
    ensures user.Some? ==> r.0 == Ok(true) && |r.1| >= |store| && r.1[..|store|] == store
    ensures user.Some? && OwnsAny(store, user.value) ==> r.1 == store
    ensures user.Some? && !OwnsAny(store, user.value) ==> |r.1| == |store| + 16
    ensures user.Some? ==> OwnsAny(r.1, user.value)
    ensures user.Some? && !OwnsAny(store, user.value) ==> r.1 == store + DefaultCategories(user.value, firstId)
  {
    if user.None? then (Err(Unauthenticated), store)
    else if OwnsAny(store, user.value) then (Ok(true), store)
    else
      var added := store + DefaultCategories(user.value, firstId);
      assert added[|store|].userId == user.value;
      (Ok(true), added)
  }

  /** Seeding twice is seeding once, whatever ids the second attempt would use. */
  lemma SeedIdempotent(user: string, store: seq<Category>, id1: int, id2: int)
    ensures var once := SeedDefaults(Some(user), store, id1).1;
            SeedDefaults(Some(user), once, id2) == (Ok(true), once)
  {
  }

  /**
   * The defaults: sixteen categories owned by the caller, the eight expense
   * presets in order followed by the eight income presets in order.
   */
  lemma DefaultsContents(user: string, firstId: int)
    ensures var d := DefaultCategories(user, firstId);
            && |d| == 16
            && (forall i :: 0 <= i < 16 ==> d[i].userId == user && d[i].id == firstId + i)
            && (forall i :: 0 <= i < 8 ==> d[i].kind == Expense && d[i].name == ExpensePresets[i].name)
            && (forall i :: 8 <= i < 16 ==> d[i].kind == Income && d[i].name == IncomePresets[i - 8].name)
  {
  }

  predicate DistinctNames(ps: seq<Preset>) {
    forall i, j :: 0 <= i < j < |ps| ==> ps[i].name != ps[j].name
  }

  /** Within each type the default names are distinct. */
  lemma PresetNamesDistinct()
    ensures DistinctNames(ExpensePresets) && DistinctNames(IncomePresets)
  {
  }

  /** Each type has exactly one "Outros", its last default. */
  lemma ExpenseOutros()
    ensures |Filter(ExpensePresets, IsOutros)| == 1
  {
    var ps := ExpensePresets;
    assert !IsOutros(ps[0]) && !IsOutros(ps[1]) && !IsOutros(ps[2]) && !IsOutros(ps[3]);
    assert !IsOutros(ps[4]) && !IsOutros(ps[5]) && !IsOutros(ps[6]);
    OutrosLast(ps);
  }

  /** The income defaults likewise hold a single "Outros". */
  lemma IncomeOutros()
    ensures |Filter(IncomePresets, IsOutros)| == 1
  {
    var ps := IncomePresets;
    assert !IsOutros(ps[0]) && !IsOutros(ps[1]) && !IsOutros(ps[2]) && !IsOutros(ps[3]);
    assert !IsOutros(ps[4]) && !IsOutros(ps[5]) && !IsOutros(ps[6]);
    OutrosLast(ps);
  }

  /** Eight presets of which only the last is named "Outros" have one "Outros". */
  lemma OutrosLast(ps: seq<Preset>)
    requires |ps| == 8 && IsOutros(ps[7])
    requires forall i :: 0 <= i < 7 ==> !IsOutros(ps[i])
    ensures |Filter(ps, IsOutros)| == 1
  {
    assert ps[..7] + [ps[7]] == ps;
    FilterAppend(ps[..7], [ps[7]], IsOutros);
    FilterNone(ps[..7], IsOutros);
  }

  function IsOutros(p: Preset): bool {
    p.name == "Outros"
  }
}

=== FILE: dashboard.dfy ===
/**
 * The dashboard metrics hook: overall balance, the current month's balance, its
 * largest expense and its category with the largest total. The clock read is the
 * `today` parameter.
 */
module Dashboard {
  import opened Wrappers
  import opened Calendar
  import opened Seqs
  import opened Grouping
  import opened Transactions

  datatype TopExpense = TopExpense(description: string, amount: int)

  datatype TopCategory = TopCategory(name: string, total: int)

  /** `DashboardMetrics`; `null` is `None`. */
  datatype Metrics = Metrics(
    currentBalance: int,
    totalInvested: int,
    monthlyBalance: int,
    topExpense: Option<TopExpense>,
    topCategory: Option<TopCategory>)

  /** The entry's date falls in month `month` (1..12) of `year`. */
  function InMonth(year: int, month: int): Txn -> bool {
    (t: Txn) => t.at.date.year == year && t.at.date.month == month
  }

  /** What the expenses named `c` add up to. */
  function CategoryTotal(s: seq<Txn>, c: string): int {
    Sum(Filter(s, KeyIs(CategoryOf, c)), Amount)
  }

  /** `topExpense`: the first expense of the largest amount, as its title and amount. */
  function TopExpenseOf(s: seq<Txn>): (r: Option<TopExpense>)
    ensures r.None? <==> |s| == 0
    ensures r.Some? ==>
              exists k :: && 0 <= k < |s| && r.value == TopExpense(s[k].title, s[k].amount)
                          && (forall j :: 0 <= j < |s| ==> s[j].amount <= s[k].amount)
                          && (forall j :: 0 <= j < k ==> s[j].amount < s[k].amount)
  {
    if |s| == 0 then None
    else
      var k := MaxIndex(s, Amount);
      Some(TopExpense(s[k].title, s[k].amount))
  }

  /**
   * `topCategory`: the totals per category name in order of first appearance, the
   * first of the largest total picked; a blank name counts as no category at all.
   */
  function TopCategoryOf(s: seq<Txn>): (r: Option<TopCategory>)
    ensures |s| == 0 ==> r.None?
    ensures |s| > 0 && !KeyOccurs(s, CategoryOf, "") ==> r.Some?
    ensures r.Some? ==> r.value.name != "" && KeyOccurs(s, CategoryOf, r.value.name)
    ensures r.Some? ==> r.value.total == CategoryTotal(s, r.value.name)
  {
    if |s| == 0 then None
    else
      var ts := Accumulate([], s, CategoryOf, Amount, NoWeight);
      AccumulateKeys([], s, CategoryOf, Amount, NoWeight, s[0].category);
      assert HasKey(ts, s[0].category);
      var k := MaxIndex(ts, FirstOf);
      AccumulateRow(s, CategoryOf, Amount, NoWeight, k);
      if ts[k].key == "" then None else Some(TopCategory(ts[k].key, ts[k].first))
  }

  /**
   * No category of the month adds up to more than the top category; when there
   * is none although expenses exist, the blank-named category is the largest.
   */
  lemma TopCategoryLargest(s: seq<Txn>, c: string)
    requires KeyOccurs(s, CategoryOf, c)
    ensures var r := TopCategoryOf(s);
            && (r.Some? ==> CategoryTotal(s, c) <= r.value.total)
            && (r.None? ==> KeyOccurs(s, CategoryOf, "") && CategoryTotal(s, c) <= CategoryTotal(s, ""))
  {
    var ts := Accumulate([], s, CategoryOf, Amount, NoWeight);
    AccumulateKeys([], s, CategoryOf, Amount, NoWeight, c);
    var j :| 0 <= j < |ts| && ts[j].key == c;
    var k := MaxIndex(ts, FirstOf);
    AccumulateRow(s, CategoryOf, Amount, NoWeight, j);
    AccumulateRow(s, CategoryOf, Amount, NoWeight, k);
  }

  /** `useDashboardData(expenses, incomes)` on day `today`. */
  function Dashboard(expenses: seq<Txn>, incomes: seq<Txn>, today: Date): (m: Metrics)
    ensures m.currentBalance == Sum(incomes, Amount) - Sum(expenses, Amount)
    ensures m.totalInvested == 0
    ensures var inMonth := InMonth(today.year, today.month);
            m.monthlyBalance == Sum(Filter(incomes, inMonth), Amount) - Sum(Filter(expenses, inMonth), Amount)
    ensures var month := Filter(expenses, InMonth(today.year, today.month));
            m.topExpense == TopExpenseOf(month) && m.topCategory == TopCategoryOf(month)
  {
    var inMonth := InMonth(today.year, today.month);
    var monthExpenses := Filter(expenses, inMonth);
    Metrics(
      Sum(incomes, Amount) - Sum(expenses, Amount),
      0,
      Sum(Filter(incomes, inMonth), Amount) - Sum(monthExpenses, Amount),
      TopExpenseOf(monthExpenses),
      TopCategoryOf(monthExpenses))
  }

  /**
   * The overall balance is the current month's balance plus the balance of every
   * other month.
   */
  lemma BalanceSplits(expenses: seq<Txn>, incomes: seq<Txn>, today: Date)
    ensures var m := Dashboard(expenses, incomes, today);
            var other := Not(InMonth(today.year, today.month));
            m.currentBalance == m.monthlyBalance + (Sum(Filter(incomes, other), Amount) - Sum(Filter(expenses, other), Amount))
  {
    SumPartition(incomes, Amount, InMonth(today.year, today.month));
    SumPartition(expenses, Amount, InMonth(today.year, today.month));
  }

  /** Without expenses this month there is neither a top expense nor a top category. */
  lemma QuietMonth(expenses: seq<Txn>, incomes: seq<Txn>, today: Date)
    requires forall i :: 0 <= i < |expenses| ==> !InMonth(today.year, today.month)(expenses[i])
    ensures Dashboard(expenses, incomes, today).topExpense.None?
    ensures Dashboard(expenses, incomes, today).topCategory.None?
  {
    FilterNone(expenses, InMonth(today.year, today.month));
  }
}

=== FILE: display.dfy ===
/**
 * Two display helpers: the initials shown in the profile avatar and the greeting
 * chosen from the hour of the day (the clock read `getHours()` is the parameter).
 */
module Display {
  import opened Text

  const Unknown := "??"

  /** `s.split(sep)` with a one-character separator: the pieces between separators, empty ones included. */
  function Split(s: string, sep: char): (r: seq<string>)
    ensures |r| >= 1
    ensures forall i :: 0 <= i < |r| ==> sep !in r[i]
    ensures |r| == 1 <==> sep !in s
  {
    if |s| == 0 then [""]
    else
      var rest := Split(s[1..], sep);
      if s[0] == sep then [""] + rest
      else [[s[0]] + rest[0]] + rest[1..]
  }

  /** `pieces.join(sep)`. */
  function Join(pieces: seq<string>, sep: char): string {
    if |pieces| == 0 then ""
    else if |pieces| == 1 then pieces[0]
    else pieces[0] + [sep] + Join(pieces[1..], sep)
  }

  /** Joining the pieces of a split with the same separator gives the text back. */
  lemma {:induction false} SplitJoin(s: string, sep: char)
    ensures Join(Split(s, sep), sep) == s
  {
    if |s| > 0 {
      SplitJoin(s[1..], sep);
      var rest := Split(s[1..], sep);
      if s[0] != sep {
        if |rest| > 1 {
          assert ([[s[0]] + rest[0]] + rest[1..])[1..] == rest[1..];
        }
      }
    }
  }

  /** Splitting the join of pieces free of the separator gives the pieces back. */
  lemma {:induction false} JoinSplit(pieces: seq<string>, sep: char)
    requires |pieces| >= 1
    requires forall i :: 0 <= i < |pieces| ==> sep !in pieces[i]
    ensures Split(Join(pieces, sep), sep) == pieces
  {
    if |pieces| == 1 {
      SplitJoin(pieces[0], sep);
    } else {
      JoinSplit(pieces[1..], sep);
      SplitWord(pieces[0], sep, Join(pieces[1..], sep));
      assert [pieces[0]] + pieces[1..] == pieces;
    }
  }

  /** Every character of a piece comes from the text that was split. */
  lemma {:induction false} SplitChars(s: string, sep: char, k: int, c: char)
    requires 0 <= k < |Split(s, sep)| && c in Split(s, sep)[k]
    ensures c in s
  {
    if |s| > 0 {
      var rest := Split(s[1..], sep);
      if s[0] == sep {
        assert Split(s, sep)[k] == rest[k - 1];
        SplitChars(s[1..], sep, k - 1, c);
      } else if k == 0 {
        if c != s[0] {
          assert c in rest[0];
          SplitChars(s[1..], sep, 0, c);
        }
      } else {
        assert Split(s, sep)[k] == rest[k];
        SplitChars(s[1..], sep, k, c);
      }
    }
  }

  /** Every character of a join is the separator or a character of some piece. */
  lemma {:induction false} JoinChars(pieces: seq<string>, sep: char, i: int)
    requires 0 <= i < |Join(pieces, sep)|
    ensures Join(pieces, sep)[i] == sep || exists k :: 0 <= k < |pieces| && Join(pieces, sep)[i] in pieces[k]
  {
    if |pieces| > 1 {
      var j := Join(pieces, sep);
      if i < |pieces[0]| {
        assert j[i] == pieces[0][i];
      } else if i > |pieces[0]| {
        var t := Join(pieces[1..], sep);
        assert j[i] == t[i - |pieces[0]| - 1];
        JoinChars(pieces[1..], sep, i - |pieces[0]| - 1);
        if j[i] != sep {
          var k :| 0 <= k < |pieces[1..]| && j[i] in pieces[1..][k];
          assert pieces[1..][k] == pieces[k + 1];
        }
      }
    } else {
      assert Join(pieces, sep)[i] in pieces[0];
    }
  }

  /** A word without the separator, the separator, then the rest: the word is the first piece. */
  lemma {:induction false} SplitWord(a: string, sep: char, t: string)
    requires sep !in a
    ensures Split(a + [sep] + t, sep) == [a] + Split(t, sep)
  {
    if |a| == 0 {
      assert a + [sep] + t == [sep] + t;
      assert ([sep] + t)[1..] == t;
    } else {
      assert (a + [sep] + t)[1..] == a[1..] + [sep] + t;
      SplitWord(a[1..], sep, t);
      assert [a[0]] + a[1..] == a;
    }
  }

  /** `name.charAt(0)`: the first character, or nothing for an empty piece. */
  function FirstChar(s: string): (r: string)
    ensures |r| <= 1
    ensures |s| > 0 ==> r == [s[0]]
  {
    if |s| == 0 then "" else [s[0]]
  }

  /** `pieces.join("")`. */
  function Concat(pieces: seq<string>): string {
    if |pieces| == 0 then "" else pieces[0] + Concat(pieces[1..])
  }

  /** `toUpperCase` of one character, for the letters a to z. */
  function UpperChar(c: char): char {
    if 'a' <= c <= 'z' then (c as int - 32) as char else c
  }

  function Upper(s: string): (r: string)
    ensures |r| == |s|
    ensures forall i :: 0 <= i < |s| ==> r[i] == UpperChar(s[i])
  {
    if |s| == 0 then "" else [UpperChar(s[0])] + Upper(s[1..])
  }

  /** `getInitials`: "??" for a blank name, else the first letters of the first two pieces of `split(" ")`. */
  function Initials(fullName: string): (r: string)
    ensures IsBlank(fullName) ==> r == Unknown
    ensures !IsBlank(fullName) ==> |r| <= 2
    ensures !IsBlank(fullName) ==>
              var pieces := Split(fullName, ' ');
              r == Upper(FirstChar(pieces[0]) + if |pieces| > 1 then FirstChar(pieces[1]) else "")
  {
    if fullName == "" || Trim(fullName) == "" then Unknown
    else
      var pieces := Split(fullName, ' ');
      var firstTwo := if |pieces| > 1 then pieces[..2] else pieces;
      var letters := seq(|firstTwo|, i requires 0 <= i < |firstTwo| => FirstChar(firstTwo[i]));
      assert Concat(letters) == FirstChar(pieces[0]) + if |pieces| > 1 then FirstChar(pieces[1]) else "" by {
        if |pieces| > 1 {
          assert Concat(letters[1..]) == letters[1] + Concat(letters[2..]);
        }
      }
      Upper(Concat(letters))
  }

  /** A word followed by nothing or by a space is the first piece of the split. */
  lemma FirstPiece(b: string, rest: string)
    requires ' ' !in b
    requires |rest| == 0 || rest[0] == ' '
    ensures Split(b + rest, ' ')[0] == b
  {
    if |rest| == 0 {
      assert b + rest == b;
      SplitJoin(b, ' ');
    } else {
      assert b + rest == b + [' '] + rest[1..];
      SplitWord(b, ' ', rest[1..]);
    }
  }

  /** Two words separated by one space give the upper-cased first letters of both, whatever follows. */
  lemma InitialsOfTwoWords(a: string, b: string, rest: string)
    requires |a| > 0 && |b| > 0 && ' ' !in a && ' ' !in b && !IsJsSpace(a[0])
    requires |rest| == 0 || rest[0] == ' '
    ensures Initials(a + " " + b + rest) == Upper([a[0], b[0]])
  {
    var s := a + " " + b + rest;
    assert !IsBlank(s) by {
      assert s[0] == a[0];
    }
    assert s == a + [' '] + (b + rest);
    SplitWord(a, ' ', b + rest);
    var pieces := Split(s, ' ');
    assert pieces == [a] + Split(b + rest, ' ');
    FirstPiece(b, rest);
    assert pieces[0] == a && pieces[1] == b;
    assert FirstChar(a) + FirstChar(b) == [a[0], b[0]];
  }

  /** A name opening with two spaces has empty first pieces and no initials at all. */
  lemma LeadingSpacesGiveNothing()
    ensures Initials("  Ana") == ""
  {
    assert !IsBlank("  Ana") by {
      assert "  Ana"[2] == 'A';
    }
    SplitWord("", ' ', " Ana");
    SplitWord("", ' ', "Ana");
    assert "" + [' '] + " Ana" == "  Ana";
    assert "" + [' '] + "Ana" == " Ana";
    var pieces := Split("  Ana", ' ');
    assert pieces == [""] + ([""] + Split("Ana", ' '));
    assert pieces[0] == "" && pieces[1] == "";
    assert FirstChar("") + FirstChar("") == "";
  }

  const Morning := "Bom dia"
  const Afternoon := "Boa tarde"
  const Night := "Boa noite"

  /** `getGreeting` for the hour `hour` (0..23 from `getHours()`). */
  function Greeting(hour: int): (g: string)
    ensures g in {Morning, Afternoon, Night}
    ensures g == Morning <==> 6 <= hour <= 12
    ensures g == Afternoon <==> 13 <= hour <= 18
    ensures g == Night <==> hour <= 5 || hour >= 19
  {
    if hour > 5 && hour <= 12 then Morning
    else if hour > 12 && hour <= 18 then Afternoon
    else Night
  }
}

=== FILE: expense_actions.dfy ===
/**
 * The expense server actions: `createExpense` with its routing to the installment
 * planner, the `updateExpense` guard against editing installments, and the
 * `deleteExpense` cascade over an installment group. The store is the `expenses`
 * table as a sequence of rows; the signed-in user is a parameter (`None` when
 * nobody is signed in).
 */
module ExpenseActions {
  import opened Wrappers
  import opened Calendar
  import opened Seqs
  import opened JsNumber
  import opened Records
  import opened Installments
  import opened Updates

  const InstallmentEditRefused := "Não é possível editar parcelas. Delete e recrie a despesa."

  /** `IExpenseFormData` as `createExpense` reads it. */
  datatype ExpenseForm = ExpenseForm(
    title: string,
    amount: string,
    category: string,
    date: Date,
    paymentMethod: Option<string>,
    installments: Option<int>)

  /** `payment_method === "credit_card" && installments && installments > 1`. */
  predicate IsInstallmentPurchase(form: ExpenseForm) {
    form.paymentMethod == Some("credit_card") && form.installments.Some? && form.installments.value > 1
  }

  /** The single record of a plain purchase; the payment method defaults to `"debit"`. */
  function SingleRecord(user: string, form: ExpenseForm): Fields
    requires IsValidAmount(form.amount)
  {
    Fields(user, form.title, AmountCents(form.amount), form.category, form.date,
           Some(if Given(form.paymentMethod) then form.paymentMethod.value else "debit"),
           None, None, None, None)
  }

  /**
   * `createExpense`: the records it inserts. `profileDay` is the caller's stored
   * invoice day and `parentId` the id the database gives the first installment.
   */
  function CreateExpense(user: Option<string>, form: ExpenseForm, profileDay: Option<real>, parentId: int)
    : (r: Outcome<seq<Fields>>)
    requires IsValid(form.date)
    ensures user.None? ==> r == Err(Unauthenticated)
    ensures user.Some? && !IsValidAmount(form.amount) ==> r == Err(InvalidAmount)
    ensures r.Ok? <==> user.Some? && IsValidAmount(form.amount)
    ensures r.Ok? ==> |r.value| >= 1 && (|r.value| > 1 <==> IsInstallmentPurchase(form))
    ensures r.Ok? ==> Sum(r.value, AmountOf) == AmountCents(form.amount)
    ensures r.Ok? ==> forall i :: 0 <= i < |r.value| ==>
              r.value[i].userId == user.value && r.value[i].category == form.category
    ensures r.Ok? && !IsInstallmentPurchase(form) ==>
              && r.value[0].title == form.title && r.value[0].date == form.date
              && r.value[0].installmentsTotal.None? && r.value[0].parentId.None?
              && (Given(form.paymentMethod) ==> r.value[0].paymentMethod == form.paymentMethod)
              && (!Given(form.paymentMethod) ==> r.value[0].paymentMethod == Some("debit"))
    ensures r.Ok? && IsInstallmentPurchase(form) ==>
              |r.value| == form.installments.value
              && forall i :: 0 <= i < |r.value| ==>
                   r.value[i].paymentMethod == Some("credit_card") && r.value[i].purchaseDate == Some(form.date)
    ensures r.Ok? && IsInstallmentPurchase(form) ==>
              r.value == Plan(Purchase(user.value, form.title, form.category, form.date, AmountCents(form.amount)),
                              form.installments.value, InvoiceDay(profileDay), parentId)
  {
    if user.None? then Err(Unauthenticated)
    else if !IsValidAmount(form.amount) then Err(InvalidAmount)
    else if IsInstallmentPurchase(form) then
      var p := Purchase(user.value, form.title, form.category, form.date, AmountCents(form.amount));
      PlanSumIsTotal(p, form.installments.value, InvoiceDay(profileDay), parentId);
      PlanRows(p, form.installments.value, InvoiceDay(profileDay), parentId);
      Ok(Plan(p, form.installments.value, InvoiceDay(profileDay), parentId))
    else
      Ok([SingleRecord(user.value, form)])
  }

  /**
   * Record `i` of an installment purchase is installment `i + 1` of `n`: titled
   * `title (i+1/n)`, due on the invoice day of month `i + 1` after the purchase,
   * the first without a parent and every later one pointing at the first.
   */
  lemma CreateExpenseRecords(user: string, form: ExpenseForm, profileDay: Option<real>, parentId: int, i: int)
    requires IsValid(form.date) && IsValidAmount(form.amount) && IsInstallmentPurchase(form)
    requires 0 <= i < form.installments.value
    ensures var r := CreateExpense(Some(user), form, profileDay, parentId);
            var n := form.installments.value;
            && r.Ok? && |r.value| == n
            && r.value[i].title == InstallmentTitle(form.title, i + 1, n)
            && r.value[i].installmentNumber == Some(i + 1)
            && r.value[i].date == PaymentDate(form.date, InvoiceDay(profileDay), i + 1)
            && r.value[i].parentId == (if i == 0 then None else Some(parentId))
  {
    var p := Purchase(user, form.title, form.category, form.date, AmountCents(form.amount));
    PlanRow(p, form.installments.value, InvoiceDay(profileDay), parentId, i);
  }

  /**
   * With a purchase day and an invoice day both at most 28, the records of an
   * installment purchase fall due strictly one after another, the first after
   * the purchase.
   */
  lemma CreateExpenseDueDates(user: string, form: ExpenseForm, profileDay: Option<real>, parentId: int, i: int, j: int)
    requires IsValid(form.date) && form.date.day <= 28 && IsValidAmount(form.amount) && IsInstallmentPurchase(form)
    requires 1 <= InvoiceDay(profileDay) <= 28
    requires 0 <= i < j < form.installments.value
    ensures var r := CreateExpense(Some(user), form, profileDay, parentId);
            r.Ok? && Before(r.value[i].date, r.value[j].date) && Before(form.date, r.value[0].date)
  {
    var p := Purchase(user, form.title, form.category, form.date, AmountCents(form.amount));
    PlanDatesIncrease(p, form.installments.value, InvoiceDay(profileDay), parentId, i, j);
  }

  /** `expense.parent_expense_id || expense.installments_total`: the record belongs to an installment plan. */
  predicate IsInstallmentRecord(r: Row) {
    Truthy(r.fields.parentId) || Truthy(r.fields.installmentsTotal)
  }

  /**
   * The guard of `updateExpense`: the lookup by id alone finds exactly one record,
   * and that record is part of an installment plan.
   */
  predicate EditRefused(id: int, store: seq<Row>) {
    && |Filter(store, HasId(id))| == 1
    && exists i :: 0 <= i < |store| && store[i].id == id && IsInstallmentRecord(store[i])
  }

  /**
   * `updateExpense`: refused when the guard fires, then the amount check, then the
   * truthy fields applied to the caller's record with that id, read back with
   * `.single()`.
   */
  function UpdateExpense(user: Option<string>, id: int, p: Patch, store: seq<Row>): (r: (Outcome<Row>, seq<Row>))
    ensures user.None? ==> r == (Err(Unauthenticated), store)
    ensures |r.1| == |store|
    ensures user.Some? ==> forall i :: 0 <= i < |store| && !IdAndOwner(id, user.value)(store[i]) ==> r.1[i] == store[i]
    ensures user.Some? && EditRefused(id, store) ==> r == (Err(InstallmentEditRefused), store)
    ensures user.Some? && !EditRefused(id, store) && !AmountAccepted(p) ==> r == (Err(InvalidAmount), store)
    ensures user.Some? && !EditRefused(id, store) && AmountAccepted(p) ==>
              forall i :: 0 <= i < |store| && IdAndOwner(id, user.value)(store[i]) ==>
                r.1[i] == Row(id, ApplyPatch(store[i].fields, p))
    ensures r.0.Ok? <==> && user.Some? && !EditRefused(id, store) && AmountAccepted(p)
                         && |Filter(store, IdAndOwner(id, user.value))| == 1
    ensures r.0.Ok? ==> r.0.value.id == id && r.0.value.fields.userId == user.value
    ensures r.0.Ok? ==> exists i :: 0 <= i < |store| && IdAndOwner(id, user.value)(store[i])
                                   && r.0.value == Row(id, ApplyPatch(store[i].fields, p))
  {
    if user.None? then (Err(Unauthenticated), store)
    else
      match Single(store, HasId(id))
      case Some(e) =>
        if IsInstallmentRecord(e) then (Err(InstallmentEditRefused), store)
        else UpdateOwned(user.value, id, p, store)
      case None => UpdateOwned(user.value, id, p, store)
  }

  /**
   * With ids unique, as the primary key makes them, no update ever changes a
   * record of an installment plan, and an accepted update returns a plain record.
   */
  lemma UpdateNeverEditsInstallments(user: Option<string>, id: int, p: Patch, store: seq<Row>)
    requires UniqueIds(store)
    ensures var r := UpdateExpense(user, id, p, store);
            && (forall i :: 0 <= i < |store| && IsInstallmentRecord(store[i]) ==> r.1[i] == store[i])
            && (r.0.Ok? ==> !IsInstallmentRecord(r.0.value))
  {
    var r := UpdateExpense(user, id, p, store);
    if user.Some? {
      forall i | 0 <= i < |store| && IsInstallmentRecord(store[i]) ensures r.1[i] == store[i] {
        if store[i].id == id {
          UniqueIdMatch(store, i);
        }
      }
      if r.0.Ok? {
        var i :| 0 <= i < |store| && IdAndOwner(id, user.value)(store[i])
                 && r.0.value == Row(id, ApplyPatch(store[i].fields, p));
        UniqueIdMatch(store, i);
      }
    }
  }

  /** A child of the caller's plan rooted at `root`: `.eq("parent_expense_id", root).eq("user_id", user)`. */
  function ChildOf(root: int, user: string): Row -> bool {
    (r: Row) => r.fields.parentId == Some(root) && r.fields.userId == user
  }

  /** The caller's whole installment group rooted at `root`: the parent and its children. */
  function InGroup(root: int, user: string): Row -> bool {
    (r: Row) => r.fields.userId == user && (r.id == root || r.fields.parentId == Some(root))
  }

  /**
   * The plan a record belongs to, identified by its parent's id: a child names
   * its parent, a first installment with a truthy total is the parent; any other
   * record stands alone.
   */
  function GroupRoot(e: Row): Option<int> {
    if Truthy(e.fields.parentId) then Some(e.fields.parentId.value)
    else if e.fields.installmentNumber == Some(1) && Truthy(e.fields.installmentsTotal) then Some(e.id)
    else None
  }

  /** The two deletes of the cascade: the children first, then the parent. */
  function DeleteGroup(store: seq<Row>, root: int, user: string): (r: seq<Row>)
    ensures r == DeleteWhere(store, InGroup(root, user))
  {
    var a, b, g := ChildOf(root, user), IdAndOwner(root, user), InGroup(root, user);
    FilterTwice(store, Not(a), Not(b), Not(g));
    DeleteWhere(DeleteWhere(store, a), b)
  }

  /** `deleteExpense`: the success flag and the store left behind. */
  function DeleteExpense(user: Option<string>, id: int, store: seq<Row>): (r: (Outcome<bool>, seq<Row>))
    ensures user.None? ==> r == (Err(Unauthenticated), store)
    ensures r.0.Ok? <==> user.Some? && |Filter(store, IdAndOwner(id, user.value))| == 1
    ensures r.0.Ok? ==> r.0.value
    ensures r.0.Err? ==> r.1 == store
    ensures forall i :: 0 <= i < |r.1| ==> r.1[i] in store
    ensures user.Some? ==> Filter(r.1, NotOwnedBy(user.value)) == Filter(store, NotOwnedBy(user.value))
    ensures r.0.Ok? ==> forall i :: 0 <= i < |r.1| ==> !IdAndOwner(id, user.value)(r.1[i])
    ensures r.0.Ok? ==>
              var e := Single(store, IdAndOwner(id, user.value)).value;
              && (GroupRoot(e).Some? ==> r.1 == DeleteWhere(store, InGroup(GroupRoot(e).value, user.value)))
              && (GroupRoot(e).None? ==> r.1 == DeleteWhere(store, IdAndOwner(id, user.value)))
  {
    if user.None? then (Err(Unauthenticated), store)
    else
      var u := user.value;
      match Single(store, IdAndOwner(id, u))
      case None => (Err(DatabaseError), store)
      case Some(e) =>
        match GroupRoot(e)
        case Some(root) =>
          DeleteOwnedKeepsOthers(store, InGroup(root, u), u);
          (Ok(true), DeleteGroup(store, root, u))
        case None =>
          DeleteOwnedKeepsOthers(store, IdAndOwner(id, u), u);
          (Ok(true), DeleteWhere(store, IdAndOwner(id, u)))
  }

  /** Deleting only the caller's rows leaves every other user's rows as they were, in order. */
  lemma DeleteOwnedKeepsOthers(store: seq<Row>, d: Row -> bool, user: string)
    requires forall i :: 0 <= i < |store| && d(store[i]) ==> store[i].fields.userId == user
    ensures Filter(DeleteWhere(store, d), NotOwnedBy(user)) == Filter(store, NotOwnedBy(user))
  {
    FilterTwice(store, Not(d), NotOwnedBy(user), NotOwnedBy(user));
  }

  /**
   * Deleting any record of the caller's installment plan, the parent or any child,
   * removes the parent and every child of that plan.
   */
  lemma DeleteRemovesWholePlan(user: string, store: seq<Row>, i: int)
    requires UniqueIds(store) && 0 <= i < |store|
    requires store[i].fields.userId == user && GroupRoot(store[i]).Some?
    ensures var r := DeleteExpense(Some(user), store[i].id, store);
            && r.0 == Ok(true)
            && forall j :: 0 <= j < |r.1| ==> !InGroup(GroupRoot(store[i]).value, user)(r.1[j])
  {
    var id := store[i].id;
    UniqueIdMatch(store, i);
    FilterTwice(store, HasId(id), OwnedBy(user), IdAndOwner(id, user));
    assert Filter([store[i]], OwnedBy(user)) == [store[i]];
    assert Single(store, IdAndOwner(id, user)) == Some(store[i]);
  }

  /**
   * Every record a plan inserts leads back to the same root, the parent's id, so
   * the cascade started from any of them removes the same group.
   */
  lemma PlanRecordsShareRoot(p: Purchase, n: nat, invoiceDay: int, parentId: int, k: int, id: int)
    requires IsValid(p.date) && n >= 1 && 0 <= k < n && parentId != 0
    ensures var rows := Plan(p, n, invoiceDay, parentId);
            GroupRoot(Row(if k == 0 then parentId else id, rows[k])) == Some(parentId)
  {
    PlanRow(p, n, invoiceDay, parentId, k);
  }
}

=== FILE: forms.dfy ===
/**
 * The submit guards and state resets of the two entry forms: the shared
 * transaction form with its payment method and installment count, and the
 * simple add-expense form. The day `new Date()` yields, as `yyyy-MM-dd`, is the
 * parameter `today`.
 */
module Forms {
  import opened Wrappers
  import opened Text
  import opened JsNumber

  datatype PaymentMethod = Cash | CreditCard | Debit | Pix

  datatype TransactionType = ExpenseType | IncomeType

  /** `ITransactionFormData`; `installments` is `None` when `undefined`. */
  datatype TransactionFormData = TransactionFormData(
    title: string,
    amount: string,
    date: string,
    category: string,
    paymentMethod: PaymentMethod,
    installments: Option<int>)

  /** What a submit does: nothing, an alert, or the data handed to `onAddTransaction` and the reset form. */
  datatype Submit<F> = Ignored | Alerted(message: string) | Sent(data: F, next: F)

  const InvalidInstallments := "Número de parcelas inválido"

  /** `categories[0]?.name || ""`. */
  function FirstCategory(names: seq<string>): (c: string)
    ensures |names| == 0 ==> c == ""
    ensures |names| > 0 ==> c == names[0]
  {
    if |names| == 0 then "" else names[0]
  }

  /** The form's first state: payment by cash, no installment count. */
  function InitialTransactionForm(names: seq<string>, today: string): (f: TransactionFormData)
    ensures f.title == "" && f.amount == "" && f.date == today && f.category == FirstCategory(names)
    ensures f.paymentMethod == Cash && f.installments.None?
  {
    TransactionFormData("", "", today, FirstCategory(names), Cash, None)
  }

  /** The state after a successful submit: payment by debit and one installment. */
  function ResetTransactionForm(names: seq<string>, today: string): (f: TransactionFormData)
    ensures f.title == "" && f.amount == "" && f.date == today && f.category == FirstCategory(names)
    ensures f.paymentMethod == Debit && f.installments == Some(1)
  {
    TransactionFormData("", "", today, FirstCategory(names), Debit, Some(1))
  }

  /** `!formData.installments || formData.installments < 1`: absent, zero or below one. */
  predicate LacksInstallments(n: Option<int>) {
    n.None? || n.value < 1
  }

  /** Every text field is filled in; the title also after trimming. */
  predicate Filled(f: TransactionFormData) {
    Trim(f.title) != "" && f.amount != "" && f.date != "" && f.category != ""
  }

  /** `handleSubmit` of the transaction form. */
  function SubmitTransaction(kind: TransactionType, f: TransactionFormData, names: seq<string>, today: string)
    : (r: Submit<TransactionFormData>)
    ensures r.Sent? <==> Filled(f) && IsValidAmount(f.amount)
                         && !(f.paymentMethod == CreditCard && kind == ExpenseType && LacksInstallments(f.installments))
    ensures r.Alerted? <==> Filled(f) && IsValidAmount(f.amount)
                            && f.paymentMethod == CreditCard && kind == ExpenseType && LacksInstallments(f.installments)
    ensures r.Alerted? ==> r.message == InvalidInstallments
    ensures r.Sent? ==> r.data == f && r.next == ResetTransactionForm(names, today)
  {
    if Trim(f.title) == "" || f.amount == "" || f.date == "" || f.category == "" then Ignored
    else if !IsValidAmount(f.amount) then Ignored
    else if f.paymentMethod == CreditCard && kind == ExpenseType && LacksInstallments(f.installments) then
      Alerted(InvalidInstallments)
    else Sent(f, ResetTransactionForm(names, today))
  }

  /** Selecting a payment method: the installment count survives only for the credit card. */
  function ChangePaymentMethod(f: TransactionFormData, m: PaymentMethod): (g: TransactionFormData)
    ensures g.paymentMethod == m
    ensures m == CreditCard ==> g.installments == f.installments
    ensures m != CreditCard ==> g.installments.None?
    ensures g.(paymentMethod := f.paymentMethod, installments := f.installments) == f
  {
    f.(paymentMethod := m, installments := if m == CreditCard then f.installments else None)
  }

  /** Selecting the same method again changes nothing more. */
  lemma ChangePaymentMethodIdempotent(f: TransactionFormData, m: PaymentMethod)
    ensures ChangePaymentMethod(ChangePaymentMethod(f, m), m) == ChangePaymentMethod(f, m)
  {
  }

  /**
   * Only an expense paid by credit card can be held back by its installment count:
   * after choosing any other method, a filled form with a valid amount is sent.
   */
  lemma OtherMethodsIgnoreInstallments(kind: TransactionType, f: TransactionFormData, m: PaymentMethod, names: seq<string>, today: string)
    requires m != CreditCard && Filled(f) && IsValidAmount(f.amount)
    ensures SubmitTransaction(kind, ChangePaymentMethod(f, m), names, today).Sent?
  {
  }

  /** `parseInt(e.target.value) || 1`: NaN and zero become one, anything else, negatives included, is kept. */
  function InstallmentsInput(text: string): (n: int)
    ensures ParseInt(text).None? || ParseInt(text) == Some(0) ==> n == 1
    ensures ParseInt(text).Some? && ParseInt(text).value != 0 ==> n == ParseInt(text).value
  {
    var p := ParseInt(text);
    if p.None? || p.value == 0 then 1 else p.value
  }

  /** A count typed as its decimal digits is read back as itself, and "0" as one. */
  lemma InstallmentsInputRoundTrip(n: nat)
    ensures InstallmentsInput(NatToString(n)) == if n == 0 then 1 else n
  {
    ParseIntRoundTrip(n);
  }

  /** A negative count typed in is kept as it is, where a submit then alerts. */
  lemma NegativeInstallmentsKept()
    ensures InstallmentsInput("-3") == -3 && LacksInstallments(Some(InstallmentsInput("-3")))
  {
    assert TrimStart("-3") == "-3";
    assert SplitSign("-3") == (true, "3");
    DigitPrefixOfDigits("3", "");
    assert "3" + "" == "3";
    assert "3"[..1] == "3";
    assert DigitsValue("3") == 3;
  }

  /** `IExpenseFormData` of the add-expense form. */
  datatype ExpenseFormData = ExpenseFormData(description: string, amount: string, date: string, categoryId: int)

  /** The add-expense form's first state, and its state after a submit. */
  function InitialExpenseForm(today: string): (f: ExpenseFormData)
    ensures f.description == "" && f.amount == "" && f.date == today && f.categoryId == 1
  {
    ExpenseFormData("", "", today, 1)
  }

  /** `handleSubmit` of the add-expense form; it checks no category. */
  function SubmitExpense(f: ExpenseFormData, today: string): (r: Submit<ExpenseFormData>)
    ensures !r.Alerted?
    ensures r.Sent? <==> Trim(f.description) != "" && f.amount != "" && f.date != "" && IsValidAmount(f.amount)
    ensures r.Sent? ==> r.data == f && r.next == InitialExpenseForm(today)
  {
    if Trim(f.description) == "" || f.amount == "" || f.date == "" then Ignored
    else if !IsValidAmount(f.amount) then Ignored
    else Sent(f, InitialExpenseForm(today))
  }

  /** The empty amount is already refused by the parse check: "" does not parse. */
  lemma EmptyAmountInvalid()
    ensures !IsValidAmount("")
  {
  }

  /**
   * The two forms apply the same guard to the fields they share: an expense form
   * is sent exactly when a transaction form with the same text and a non-card
   * payment would be.
   */
  lemma FormsAgree(f: ExpenseFormData, category: string, names: seq<string>, today: string)
    requires category != ""
    ensures var g := TransactionFormData(f.description, f.amount, f.date, category, Debit, None);
            SubmitExpense(f, today).Sent? <==> SubmitTransaction(ExpenseType, g, names, today).Sent?
  {
  }
}

=== FILE: grouping.dfy ===
/**
 * Grouping by key as the components do it with a `Map` or a plain object filled
 * in a `forEach`/`reduce`: one running tally per key, kept in the order the keys
 * first appear. Also the `reduce` that picks the first largest element.
 */
module Grouping {
  import opened Seqs

  /** One key's running figures: two sums and the number of items added. */
  datatype Tally<K> = Tally(key: K, first: int, second: int, count: nat)

  function KeyOf<K>(t: Tally<K>): K { t.key }
  function FirstOf<K>(t: Tally<K>): int { t.first }
  function SecondOf<K>(t: Tally<K>): int { t.second }
  function CountOf<K>(t: Tally<K>): int { t.count }

  /** The tally of a key nothing was added to yet. */
  function Fresh<K>(k: K): Tally<K> {
    Tally(k, 0, 0, 0)
  }

  /** The elements whose key is `k`. */
  function KeyIs<T, K(==)>(key: T -> K, k: K): T -> bool {
    (x: T) => key(x) == k
  }

  predicate HasKey<K(==)>(ts: seq<Tally<K>>, k: K) {
    exists i :: 0 <= i < |ts| && ts[i].key == k
  }

  /** The position of the first tally for `k`, or `|ts|` when there is none. */
  function IndexOf<K(==)>(ts: seq<Tally<K>>, k: K): (i: nat)
    ensures i <= |ts|
    ensures i < |ts| ==> ts[i].key == k
    ensures forall j :: 0 <= j < i ==> ts[j].key != k
    ensures i < |ts| <==> HasKey(ts, k)
  {
    if |ts| == 0 then 0 else if ts[0].key == k then 0 else 1 + IndexOf(ts[1..], k)
  }

  /** `map.get(k)`, with a fresh tally standing for `undefined`. */
  function Get<K(==)>(ts: seq<Tally<K>>, k: K): (t: Tally<K>)
    ensures t.key == k
  {
    var i := IndexOf(ts, k);
    if i < |ts| then ts[i] else Fresh(k)
  }

  /** The tally after one more item weighing `a` and `b`. */
  function Add<K>(t: Tally<K>, a: int, b: int): Tally<K> {
    t.(first := t.first + a, second := t.second + b, count := t.count + 1)
  }

  /** The first position depends only on the keys. */
  lemma {:induction false} IndexOfKeys<K>(ts: seq<Tally<K>>, us: seq<Tally<K>>, k: K)
    requires |ts| == |us| && forall j :: 0 <= j < |ts| ==> ts[j].key == us[j].key
    ensures IndexOf(ts, k) == IndexOf(us, k)
  {
    if |ts| > 0 && ts[0].key != k {
      IndexOfKeys(ts[1..], us[1..], k);
    }
  }

  /** Appending a tally leaves the first position of an already present key alone. */
  lemma {:induction false} IndexOfAppend<K>(ts: seq<Tally<K>>, x: Tally<K>, k: K)
    ensures var i := IndexOf(ts, k);
            IndexOf(ts + [x], k) == if i < |ts| then i else if x.key == k then |ts| else |ts| + 1
  {
    if |ts| == 0 {
      assert ts + [x] == [x];
    } else if ts[0].key != k {
      assert (ts + [x])[1..] == ts[1..] + [x];
      IndexOfAppend(ts[1..], x, k);
    }
  }

  /**
   * One step of the `forEach`: the key's tally grows when it exists, otherwise
   * a new tally is appended. Every other key's tally is left as it was.
   */
  function Bump<K(==, !new)>(ts: seq<Tally<K>>, k: K, a: int, b: int): (r: seq<Tally<K>>)
    ensures Get(r, k) == Add(Get(ts, k), a, b)
    ensures forall k' :: k' != k ==> Get(r, k') == Get(ts, k')
    ensures forall k' :: HasKey(r, k') <==> HasKey(ts, k') || k' == k
    ensures DistinctBy(ts, KeyOf) ==> DistinctBy(r, KeyOf)
    ensures Sum(r, FirstOf) == Sum(ts, FirstOf) + a
    ensures Sum(r, SecondOf) == Sum(ts, SecondOf) + b
    ensures Sum(r, CountOf) == Sum(ts, CountOf) + 1
  {
    if HasKey(ts, k) then BumpPresent(ts, k, a, b) else BumpAbsent(ts, k, a, b)
  }

  /** `Bump` of a key that has a tally: that tally grows in place. */
  function BumpPresent<K(==, !new)>(ts: seq<Tally<K>>, k: K, a: int, b: int): (r: seq<Tally<K>>)
    requires HasKey(ts, k)
    ensures Get(r, k) == Add(Get(ts, k), a, b)
    ensures forall k' :: k' != k ==> Get(r, k') == Get(ts, k')
    ensures forall k' :: HasKey(r, k') <==> HasKey(ts, k')
    ensures DistinctBy(ts, KeyOf) ==> DistinctBy(r, KeyOf)
    ensures Sum(r, FirstOf) == Sum(ts, FirstOf) + a
    ensures Sum(r, SecondOf) == Sum(ts, SecondOf) + b
    ensures Sum(r, CountOf) == Sum(ts, CountOf) + 1
  {
    var i := IndexOf(ts, k);
    var r := ts[i := Add(ts[i], a, b)];
    assert forall k' :: IndexOf(r, k') == IndexOf(ts, k') by {
      forall k' ensures IndexOf(r, k') == IndexOf(ts, k') {
        IndexOfKeys(r, ts, k');
      }
    }
    assert forall j :: 0 <= j < |r| ==> r[j].key == ts[j].key;
    SumUpdate(ts, i, Add(ts[i], a, b), FirstOf);
    SumUpdate(ts, i, Add(ts[i], a, b), SecondOf);
    SumUpdate(ts, i, Add(ts[i], a, b), CountOf);
    r
  }

  /** `Bump` of a key without a tally: a new tally is appended. */
  function BumpAbsent<K(==, !new)>(ts: seq<Tally<K>>, k: K, a: int, b: int): (r: seq<Tally<K>>)
    requires !HasKey(ts, k)
    ensures Get(r, k) == Add(Get(ts, k), a, b)
    ensures forall k' :: k' != k ==> Get(r, k') == Get(ts, k')
    ensures forall k' :: HasKey(r, k') <==> HasKey(ts, k') || k' == k
    ensures DistinctBy(ts, KeyOf) ==> DistinctBy(r, KeyOf)
    ensures Sum(r, FirstOf) == Sum(ts, FirstOf) + a
    ensures Sum(r, SecondOf) == Sum(ts, SecondOf) + b
    ensures Sum(r, CountOf) == Sum(ts, CountOf) + 1
  {
    var x := Add(Fresh(k), a, b);
    var r := ts + [x];
    assert forall k' :: IndexOf(r, k') == (if IndexOf(ts, k') < |ts| then IndexOf(ts, k') else if k == k' then |ts| else |ts| + 1) by {
      forall k' ensures IndexOf(r, k') == (if IndexOf(ts, k') < |ts| then IndexOf(ts, k') else if k == k' then |ts| else |ts| + 1) {
        IndexOfAppend(ts, x, k');
      }
    }
    assert r[|ts|].key == k;
    assert forall k' :: HasKey(r, k') <==> HasKey(ts, k') || k' == k by {
      forall k' ensures HasKey(r, k') <==> HasKey(ts, k') || k' == k {
        if HasKey(ts, k') {
          var j :| 0 <= j < |ts| && ts[j].key == k';
          assert r[j].key == k';
        }
        if HasKey(r, k') && k' != k {
          var j :| 0 <= j < |r| && r[j].key == k';
          assert ts[j].key == k';
        }
      }
    }
    SumSnoc(ts, x, FirstOf);
    SumSnoc(ts, x, SecondOf);
    SumSnoc(ts, x, CountOf);
    r
  }

  /**
   * `s.forEach(...)` filling the map that starts as `base`; `a` and `b` weigh each
   * item. No key ends up twice, and the grand totals grow by the items' totals.
   */
  function Accumulate<T, K(==, !new)>(base: seq<Tally<K>>, s: seq<T>, key: T -> K, a: T -> int, b: T -> int)
    : (r: seq<Tally<K>>)
    ensures DistinctBy(base, KeyOf) ==> DistinctBy(r, KeyOf)
    ensures Sum(r, FirstOf) == Sum(base, FirstOf) + Sum(s, a)
    ensures Sum(r, SecondOf) == Sum(base, SecondOf) + Sum(s, b)
    ensures Sum(r, CountOf) == Sum(base, CountOf) + |s|
    decreases |s|
  {
    if |s| == 0 then base
    else
      var n := |s| - 1;
      assert s == s[..n] + [s[n]];
      SumSnoc(s[..n], s[n], a);
      SumSnoc(s[..n], s[n], b);
      Bump(Accumulate(base, s[..n], key, a, b), key(s[n]), a(s[n]), b(s[n]))
  }

  /**
   * After the `forEach`, the tally of key `k` holds what it held before plus the
   * sums and the number of the items whose key is `k`.
   */
  lemma {:induction false} AccumulateGet<T, K(!new)>(base: seq<Tally<K>>, s: seq<T>, key: T -> K, a: T -> int, b: T -> int, k: K)
    ensures Get(Accumulate(base, s, key, a, b), k).first == Get(base, k).first + Sum(Filter(s, KeyIs(key, k)), a)
    ensures Get(Accumulate(base, s, key, a, b), k).second == Get(base, k).second + Sum(Filter(s, KeyIs(key, k)), b)
    ensures Get(Accumulate(base, s, key, a, b), k).count == Get(base, k).count + |Filter(s, KeyIs(key, k))|
    decreases |s|
  {
    var p := KeyIs(key, k);
    if |s| == 0 {
      assert Accumulate(base, s, key, a, b) == base;
      assert Filter(s, p) == [];
    } else {
      var n := |s| - 1;
      var x := s[n];
      var f0 := Filter(s[..n], p);
      AccumulateGet(base, s[..n], key, a, b, k);
      AccumulateLast(base, s, key, a, b, k);
      FilterSnoc(s, p);
      if key(x) == k {
        assert Filter(s, p) == f0 + [x];
        SumSnoc(f0, x, a);
        SumSnoc(f0, x, b);
      } else {
        assert Filter(s, p) == f0 + [];
        assert f0 + [] == f0;
      }
    }
  }

  /** The last item of the `forEach` touches only its own key's tally. */
  lemma AccumulateLast<T, K(!new)>(base: seq<Tally<K>>, s: seq<T>, key: T -> K, a: T -> int, b: T -> int, k: K)
    requires |s| > 0
    ensures var n := |s| - 1;
            var g := Get(Accumulate(base, s[..n], key, a, b), k);
            Get(Accumulate(base, s, key, a, b), k) == if key(s[n]) == k then Add(g, a(s[n]), b(s[n])) else g
  {
    var n := |s| - 1;
    assert Accumulate(base, s, key, a, b) == Bump(Accumulate(base, s[..n], key, a, b), key(s[n]), a(s[n]), b(s[n]));
  }

  /** Some item has key `k`. */
  predicate KeyOccurs<T, K(==)>(s: seq<T>, key: T -> K, k: K) {
    exists i :: 0 <= i < |s| && key(s[i]) == k
  }

  /** After the `forEach`, the keys are those present before and those of the items. */
  lemma {:induction false} AccumulateKeys<T, K(!new)>(base: seq<Tally<K>>, s: seq<T>, key: T -> K, a: T -> int, b: T -> int, k: K)
    ensures HasKey(Accumulate(base, s, key, a, b), k) <==> HasKey(base, k) || KeyOccurs(s, key, k)
    decreases |s|
  {
    if |s| > 0 {
      var n := |s| - 1;
      AccumulateKeys(base, s[..n], key, a, b, k);
      KeyOccursSnoc(s, key, k);
      var before := Accumulate(base, s[..n], key, a, b);
      assert Accumulate(base, s, key, a, b) == Bump(before, key(s[n]), a(s[n]), b(s[n]));
    }
  }

  lemma KeyOccursSnoc<T, K>(s: seq<T>, key: T -> K, k: K)
    requires |s| > 0
    ensures KeyOccurs(s, key, k) <==> KeyOccurs(s[..|s| - 1], key, k) || key(s[|s| - 1]) == k
  {
    var n := |s| - 1;
    if KeyOccurs(s, key, k) {
      var i :| 0 <= i < |s| && key(s[i]) == k;
      if i < n {
        assert s[..n][i] == s[i];
      }
    }
    if KeyOccurs(s[..n], key, k) {
      var i :| 0 <= i < n && key(s[..n][i]) == k;
      assert s[i] == s[..n][i];
    }
  }

  /** With distinct keys, the tally looked up for a present key is the one stored at its position. */
  lemma GetDistinct<K>(ts: seq<Tally<K>>, i: int)
    requires DistinctBy(ts, KeyOf) && 0 <= i < |ts|
    ensures Get(ts, ts[i].key) == ts[i]
  {
  }

  /**
   * Each tally of a map filled from empty belongs to a key some item has, and
   * holds exactly the sums and the number of the items with that key.
   */
  lemma AccumulateRow<T, K(!new)>(s: seq<T>, key: T -> K, a: T -> int, b: T -> int, j: int)
    requires 0 <= j < |Accumulate([], s, key, a, b)|
    ensures var ts := Accumulate([], s, key, a, b);
            var f := Filter(s, KeyIs(key, ts[j].key));
            && ts[j] == Tally(ts[j].key, Sum(f, a), Sum(f, b), |f|)
            && KeyOccurs(s, key, ts[j].key)
  {
    var ts := Accumulate([], s, key, a, b);
    GetDistinct(ts, j);
    AccumulateGet([], s, key, a, b, ts[j].key);
    AccumulateKeys([], s, key, a, b, ts[j].key);
    assert HasKey(ts, ts[j].key);
  }

  /**
   * `s.reduce((max, x) => value(x) > value(max) ? x : max)` as a position: the
   * largest value, reached first.
   */
  function MaxIndex<T>(s: seq<T>, value: T -> int): (k: nat)
    requires |s| > 0
    ensures k < |s|
    ensures forall j :: 0 <= j < |s| ==> value(s[j]) <= value(s[k])
    ensures forall j :: 0 <= j < k ==> value(s[j]) < value(s[k])
    decreases |s|
  {
    if |s| == 1 then 0
    else
      var k := MaxIndex(s[..|s| - 1], value);
      if value(s[|s| - 1]) > value(s[k]) then |s| - 1 else k
  }

  /** The two properties of `MaxIndex` single out one position. */
  lemma MaxIndexUnique<T>(s: seq<T>, value: T -> int, k: int)
    requires 0 <= k < |s|
    requires forall j :: 0 <= j < |s| ==> value(s[j]) <= value(s[k])
    requires forall j :: 0 <= j < k ==> value(s[j]) < value(s[k])
    ensures MaxIndex(s, value) == k
  {
  }
}

=== FILE: income_actions.dfy ===
/**
 * The income server actions `createIncome`, `updateIncome` and `deleteIncome`
 * over the `incomes` table. Incomes carry no payment method and no installment
 * columns; listing and the current-month total are shared with expenses and live
 * in the `Queries` module.
 */
module IncomeActions {
  import opened Wrappers
  import opened Calendar
  import opened Seqs
  import opened JsNumber
  import opened Records
  import opened Updates

  /** `IIncomeFormData`. */
  datatype IncomeForm = IncomeForm(title: string, amount: string, category: string, date: Date)

  /** `createIncome`: the record it inserts. */
  function CreateIncome(user: Option<string>, form: IncomeForm): (r: Outcome<Fields>)
    ensures user.None? ==> r == Err(Unauthenticated)
    ensures user.Some? && !IsValidAmount(form.amount) ==> r == Err(InvalidAmount)
    ensures r.Ok? <==> user.Some? && IsValidAmount(form.amount)
    ensures r.Ok? ==> r.value.amount == AmountCents(form.amount) && r.value.amount >= 0 && r.value.userId == user.value
    ensures r.Ok? ==> r.value.title == form.title && r.value.category == form.category && r.value.date == form.date
    ensures r.Ok? ==> r.value.paymentMethod.None? && r.value.installmentsTotal.None? && r.value.parentId.None?
  {
    if user.None? then Err(Unauthenticated)
    else if !IsValidAmount(form.amount) then Err(InvalidAmount)
    else Ok(Fields(user.value, form.title, AmountCents(form.amount), form.category, form.date,
                   None, None, None, None, None))
  }

  /**
   * An amount written the way the form writes it is stored as exactly those
   * cents, and a zero amount is refused.
   */
  lemma CreateIncomeStoresCents(user: string, title: string, category: string, date: Date, c: nat)
    ensures var r := CreateIncome(Some(user), IncomeForm(title, FormatCents(c), category, date));
            (c == 0 ==> r == Err(InvalidAmount)) && (c > 0 ==> r.Ok? && r.value.amount == c)
  {
    FormatCentsRoundTrip(c);
  }

  /** `Partial<IIncomeFormData>`: the fields an income update may carry. */
  datatype IncomePatch = IncomePatch(title: Option<string>, amount: Option<string>, category: Option<string>, date: Option<Date>)

  /** The `updateData` of an income: the same fields as an expense's, without a payment method. */
  function AsPatch(p: IncomePatch): Patch {
    Patch(p.title, p.amount, p.category, p.date, None)
  }

  /** `updateIncome`: no guard, the truthy fields applied to the caller's row with that id. */
  function UpdateIncome(user: Option<string>, id: int, p: IncomePatch, store: seq<Row>): (r: (Outcome<Row>, seq<Row>))
    ensures user.None? ==> r == (Err(Unauthenticated), store)
    ensures user.Some? && !AmountAccepted(AsPatch(p)) ==> r == (Err(InvalidAmount), store)
    ensures |r.1| == |store|
    ensures forall i :: 0 <= i < |store| ==> r.1[i].fields.paymentMethod == store[i].fields.paymentMethod
    ensures user.Some? ==> forall i :: 0 <= i < |store| && !IdAndOwner(id, user.value)(store[i]) ==> r.1[i] == store[i]
    ensures r.0.Ok? <==> user.Some? && AmountAccepted(AsPatch(p)) && |Filter(store, IdAndOwner(id, user.value))| == 1
    ensures user.Some? && AmountAccepted(AsPatch(p)) ==>
              forall i :: 0 <= i < |store| && IdAndOwner(id, user.value)(store[i]) ==>
                r.1[i] == Row(id, ApplyPatch(store[i].fields, AsPatch(p)))
    ensures r.0.Ok? ==> r.0.value.id == id && r.0.value.fields.userId == user.value
    ensures r.0.Ok? ==> exists i :: 0 <= i < |store| && IdAndOwner(id, user.value)(store[i])
                                   && r.0.value == Row(id, ApplyPatch(store[i].fields, AsPatch(p)))
  {
    if user.None? then (Err(Unauthenticated), store)
    else UpdateOwned(user.value, id, AsPatch(p), store)
  }

  /** `deleteIncome`: the caller's row with that id goes; succeeding even when there is none. */
  function DeleteIncome(user: Option<string>, id: int, store: seq<Row>): (r: (Outcome<bool>, seq<Row>))
    ensures user.None? <==> r.0 == Err(Unauthenticated)
    ensures user.None? ==> r.1 == store
    ensures user.Some? ==> r.0 == Ok(true)
    ensures forall i :: 0 <= i < |r.1| ==> r.1[i] in store
    ensures user.Some? ==> forall i :: 0 <= i < |r.1| ==> !IdAndOwner(id, user.value)(r.1[i])
    ensures user.Some? ==> forall i :: 0 <= i < |store| && !IdAndOwner(id, user.value)(store[i]) ==> store[i] in r.1
    ensures user.Some? ==> |r.1| + |Filter(store, IdAndOwner(id, user.value))| == |store|
    ensures user.Some? ==> Filter(r.1, NotOwnedBy(user.value)) == Filter(store, NotOwnedBy(user.value))
  {
    if user.None? then (Err(Unauthenticated), store)
    else
      var target := IdAndOwner(id, user.value);
      LengthPartition(store, target);
      FilterTwice(store, Not(target), NotOwnedBy(user.value), NotOwnedBy(user.value));
      (Ok(true), DeleteWhere(store, target))
  }
}

=== FILE: installments.dfy ===
/**
 * The credit-card installment planner of the expense actions: the invoice-day
 * default, the due date of each installment, the split of a total into
 * installments in integer cents, and the parent/child records the plan inserts.
 */
module Installments {
  import opened Wrappers
  import opened Calendar
  import opened Seqs
  import opened Records
  import Text

  const DefaultInvoiceDay := 5

  /**
   * The day `setDate` uses for a number: the integer part, the fraction cut off
   * toward zero.
   */
  function TruncateDay(x: real): (d: int)
    ensures x >= 0.0 ==> d >= 0 && d as real <= x < d as real + 1.0
    ensures x < 0.0 ==> d <= 0 && d as real - 1.0 < x <= d as real
  {
    if x >= 0.0 then x.Floor else -((-x).Floor)
  }

  /**
   * `data?.invoice_payment_day || 5`, then taken by `setDate`: the profile's day,
   * truncated, unless it is absent or 0. The column is a number the profile form
   * fills, so it may carry a fraction.
   */
  function InvoiceDay(profileDay: Option<real>): (d: int)
    ensures profileDay.None? || profileDay.value == 0.0 ==> d == DefaultInvoiceDay
    ensures profileDay.Some? && profileDay.value > 0.0 ==> d as real <= profileDay.value < d as real + 1.0
    ensures profileDay.Some? && profileDay.value < 0.0 ==> d as real - 1.0 < profileDay.value <= d as real
  {
    if profileDay.Some? && profileDay.value != 0.0 then TruncateDay(profileDay.value) else DefaultInvoiceDay
  }

  /** A whole day other than 0 is used as it is. */
  lemma WholeInvoiceDay(k: int)
    requires k != 0
    ensures InvoiceDay(Some(k as real)) == k
  {
  }

  /**
   * A fraction below one is truthy, so the default is skipped, and truncates to
   * day 0: the last day of the month before the target month.
   */
  lemma FractionBelowOneIsDayZero()
    ensures InvoiceDay(Some(0.5)) == 0
  {
  }

  /**
   * `calculatePaymentDate`: move the purchase date `k` months forward with
   * `setMonth`, then set the day with `setDate`. Both steps carry an overflowing
   * day into the next month instead of clamping it.
   */
  function PaymentDate(purchase: Date, invoiceDay: int, k: int): (r: Date)
    requires IsValid(purchase)
    ensures IsValid(r)
  {
    SetDay(AddMonths(purchase, k), invoiceDay)
  }

  /** The month `k` months after the purchase month, before any day carry. */
  function TargetOrdinal(purchase: Date, k: int): int {
    OrdinalOf(purchase) + k
  }

  /** Whether the purchase day does not exist in the target month, so `setMonth` carries into the month after. */
  predicate Carries(purchase: Date, k: int) {
    var t := TargetOrdinal(purchase, k);
    purchase.day > DaysInMonth(YearOf(t), MonthOf(t))
  }

  /**
   * For an invoice day 1..28, installment `k` falls on the invoice day of the
   * month `k` months after the purchase, or of the month after that when the
   * purchase day overflows the shorter target month.
   */
  lemma PaymentDateMonth(purchase: Date, invoiceDay: int, k: int)
    requires IsValid(purchase)
    requires 1 <= invoiceDay <= 28
    ensures PaymentDate(purchase, invoiceDay, k).day == invoiceDay
    ensures OrdinalOf(PaymentDate(purchase, invoiceDay, k))
            == TargetOrdinal(purchase, k) + (if Carries(purchase, k) then 1 else 0)
  {
    var t := TargetOrdinal(purchase, k);
    var ty, tm := YearOf(t), MonthOf(t);
    var moved := AddMonths(purchase, k);
    assert 12 * purchase.year + (purchase.month - 1 + k) == t;
    assert moved == Normalize(ty, tm, purchase.day);
    OrdinalRoundTrip(t);
    if Carries(purchase, k) {
      NormalizeCarryOnce(ty, tm, purchase.day);
      OrdinalRoundTrip(t + 1);
      assert OrdinalOf(moved) == t + 1;
    } else {
      assert moved == Date(ty, tm, purchase.day);
    }
    var r := PaymentDate(purchase, invoiceDay, k);
    assert r == MakeDate(moved.year, moved.month - 1, invoiceDay);
    OrdinalInverse(moved.year, moved.month);
    assert 12 * moved.year + (moved.month - 1) == OrdinalOf(moved);
    assert r == Normalize(moved.year, moved.month, invoiceDay);
  }

  /**
   * With a purchase day 1..28 and an invoice day 1..28 nothing overflows:
   * installment `k` is due on the invoice day exactly `k` months after the
   * purchase month, the year carried.
   */
  lemma PaymentDateRegular(purchase: Date, invoiceDay: int, k: int)
    requires IsValid(purchase) && purchase.day <= 28
    requires 1 <= invoiceDay <= 28
    ensures var t := OrdinalOf(purchase) + k;
            PaymentDate(purchase, invoiceDay, k) == Date(YearOf(t), MonthOf(t), invoiceDay)
  {
    PaymentDateMonth(purchase, invoiceDay, k);
    var r := PaymentDate(purchase, invoiceDay, k);
    var t := OrdinalOf(purchase) + k;
    OrdinalInverse(r.year, r.month);
  }

  /** Without overflow the due dates strictly increase with the installment number. */
  lemma PaymentDatesIncrease(purchase: Date, invoiceDay: int, i: int, j: int)
    requires IsValid(purchase) && purchase.day <= 28
    requires 1 <= invoiceDay <= 28
    requires i < j
    ensures Before(PaymentDate(purchase, invoiceDay, i), PaymentDate(purchase, invoiceDay, j))
  {
    PaymentDateMonth(purchase, invoiceDay, i);
    PaymentDateMonth(purchase, invoiceDay, j);
    OrdinalOrder(PaymentDate(purchase, invoiceDay, i), PaymentDate(purchase, invoiceDay, j));
  }

  /**
   * For any purchase day the due dates never go backwards, although the carry can
   * make two consecutive installments fall due on the same day.
   */
  lemma PaymentDatesNonDecreasing(purchase: Date, invoiceDay: int, i: int, j: int)
    requires IsValid(purchase)
    requires 1 <= invoiceDay <= 28
    requires i < j
    ensures !Before(PaymentDate(purchase, invoiceDay, j), PaymentDate(purchase, invoiceDay, i))
  {
    var a, b := PaymentDate(purchase, invoiceDay, i), PaymentDate(purchase, invoiceDay, j);
    PaymentDateMonth(purchase, invoiceDay, i);
    PaymentDateMonth(purchase, invoiceDay, j);
    if OrdinalOf(a) < OrdinalOf(b) {
      OrdinalOrder(a, b);
    } else {
      OrdinalInverse(a.year, a.month);
      OrdinalInverse(b.year, b.month);
      assert a == b;
    }
  }

  /** No installment `k >= 1` falls in the purchase month or earlier. */
  lemma PaymentDateAfterPurchaseMonth(purchase: Date, invoiceDay: int, k: int)
    requires IsValid(purchase)
    requires 1 <= invoiceDay <= 28
    requires k >= 1
    ensures OrdinalOf(PaymentDate(purchase, invoiceDay, k)) > OrdinalOf(purchase)
    ensures Before(purchase, PaymentDate(purchase, invoiceDay, k))
  {
    PaymentDateMonth(purchase, invoiceDay, k);
    OrdinalOrder(purchase, PaymentDate(purchase, invoiceDay, k));
  }

  /**
   * The carry in action: bought on 31 January 2024 with invoice day 5, the first
   * installment rolls through 31 February (2 March) and lands on 5 March, the
   * same day as the second.
   */
  lemma ShortMonthCarry()
    ensures PaymentDate(Date(2024, 1, 31), 5, 1) == Date(2024, 3, 5)
    ensures PaymentDate(Date(2024, 1, 31), 5, 2) == Date(2024, 3, 5)
  {
    var p := Date(2024, 1, 31);
    var a := PaymentDate(p, 5, 1);
    var b := PaymentDate(p, 5, 2);
    PaymentDateMonth(p, 5, 1);
    PaymentDateMonth(p, 5, 2);
    EarlyMonths2024();
    assert Carries(p, 1);
    assert !Carries(p, 2);
    assert OrdinalOf(a) == 24290 && OrdinalOf(b) == 24290;
    OrdinalInverse(a.year, a.month);
    OrdinalInverse(b.year, b.month);
  }

  lemma EarlyMonths2024()
    ensures OrdinalOf(Date(2024, 1, 31)) == 24288
    ensures YearOf(24289) == 2024 && MonthOf(24289) == 2
    ensures YearOf(24290) == 2024 && MonthOf(24290) == 3
    ensures DaysInMonth(2024, 2) == 29 && DaysInMonth(2024, 3) == 31
  {
    assert 24289 == 12 * 2024 + 1;
    assert 24290 == 12 * 2024 + 2;
  }

  /** `Math.floor((total / n) * 100) / 100` in cents: the largest share that `n` copies do not exceed. */
  function BaseAmount(total: int, n: int): (b: int)
    requires n >= 1
    ensures b * n <= total < b * n + n
  {
    total / n
  }

  /** The first installment: the base share plus the whole rounding remainder. */
  function FirstAmount(total: int, n: int): (f: int)
    requires n >= 1
    ensures f + (n - 1) * BaseAmount(total, n) == total
    ensures 0 <= f - BaseAmount(total, n) < n
  {
    var base := BaseAmount(total, n);
    base + (total - base * n)
  }

  /** What the installment records are planned from. */
  datatype Purchase = Purchase(userId: string, title: string, category: string, date: Date, total: int)

  /** `${title} (${i}/${n})`. */
  function InstallmentTitle(title: string, i: nat, n: nat): string {
    title + " (" + Text.NatToString(i) + "/" + Text.NatToString(n) + ")"
  }

  /** The record inserted for installment `i` of `n`; the parent is installment 1. */
  function Installment(p: Purchase, n: nat, invoiceDay: int, parentId: int, i: nat): (r: Fields)
    requires IsValid(p.date) && 1 <= i <= n
    ensures && r.installmentNumber == Some(i)
            && r.installmentsTotal == Some(n)
            && r.userId == p.userId
            && r.category == p.category
            && r.purchaseDate == Some(p.date)
            && r.paymentMethod == Some("credit_card")
            && r.title == InstallmentTitle(p.title, i, n)
            && r.date == PaymentDate(p.date, invoiceDay, i)
    ensures r.amount == if i == 1 then FirstAmount(p.total, n) else BaseAmount(p.total, n)
    ensures r.parentId == if i == 1 then None else Some(parentId)
  {
    Fields(
      p.userId,
      InstallmentTitle(p.title, i, n),
      if i == 1 then FirstAmount(p.total, n) else BaseAmount(p.total, n),
      p.category,
      PaymentDate(p.date, invoiceDay, i),
      Some("credit_card"),
      Some(p.date),
      Some(n),
      Some(i),
      if i == 1 then None else Some(parentId))
  }

  /**
   * `createInstallmentExpenses`: the parent record followed by the `n - 1` child
   * records, each child pointing at the id the database gave the parent.
   */
  function Plan(p: Purchase, n: nat, invoiceDay: int, parentId: int): (rows: seq<Fields>)
    requires IsValid(p.date) && n >= 1
    ensures |rows| == n
  {
    seq(n, i requires 0 <= i < n => Installment(p, n, invoiceDay, parentId, i + 1))
  }

  /**
   * Record `i` of the plan is installment `i + 1` of `n`: the purchase's owner,
   * category and date, paid by credit card, due in month `i + 1` after the
   * purchase; the first holds the remainder and no parent, every later one the
   * base share and the parent's id.
   */
  lemma PlanRow(p: Purchase, n: nat, invoiceDay: int, parentId: int, i: int)
    requires IsValid(p.date) && n >= 1 && 0 <= i < n
    ensures var r := Plan(p, n, invoiceDay, parentId)[i];
            && r.installmentNumber == Some(i + 1)
            && r.installmentsTotal == Some(n)
            && r.userId == p.userId
            && r.category == p.category
            && r.purchaseDate == Some(p.date)
            && r.paymentMethod == Some("credit_card")
            && r.title == InstallmentTitle(p.title, i + 1, n)
            && r.date == PaymentDate(p.date, invoiceDay, i + 1)
            && r.amount == (if i == 0 then FirstAmount(p.total, n) else BaseAmount(p.total, n))
            && r.parentId == (if i == 0 then None else Some(parentId))
  {
    assert Plan(p, n, invoiceDay, parentId)[i] == Installment(p, n, invoiceDay, parentId, i + 1);
  }

  /** What every record of the plan shares: owner, category, purchase date, method and count. */
  lemma PlanRows(p: Purchase, n: nat, invoiceDay: int, parentId: int)
    requires IsValid(p.date) && n >= 1
    ensures var rows := Plan(p, n, invoiceDay, parentId);
            forall i :: 0 <= i < |rows| ==>
              && rows[i].userId == p.userId
              && rows[i].category == p.category
              && rows[i].purchaseDate == Some(p.date)
              && rows[i].paymentMethod == Some("credit_card")
              && rows[i].installmentsTotal == Some(n)
  {
    forall i | 0 <= i < n {
      PlanRow(p, n, invoiceDay, parentId, i);
    }
  }

  /** The installments add up to the purchase total exactly, in cents. */
  lemma PlanSumIsTotal(p: Purchase, n: nat, invoiceDay: int, parentId: int)
    requires IsValid(p.date) && n >= 1
    ensures Sum(Plan(p, n, invoiceDay, parentId), AmountOf) == p.total
  {
    var rows := Plan(p, n, invoiceDay, parentId);
    var base := BaseAmount(p.total, n);
    var tail := rows[1..];
    assert rows == [rows[0]] + tail;
    PlanRow(p, n, invoiceDay, parentId, 0);
    assert AmountOf(rows[0]) == FirstAmount(p.total, n);
    forall i | 0 <= i < |tail| ensures AmountOf(tail[i]) == base {
      assert tail[i] == rows[i + 1];
      PlanRow(p, n, invoiceDay, parentId, i + 1);
    }
    SumAppend([rows[0]], tail, AmountOf);
    SumConstant(tail, AmountOf, base);
  }

  /** The first installment is the largest, and exceeds each other one by fewer than `n` cents. */
  lemma PlanFirstAbsorbsRemainder(p: Purchase, n: nat, invoiceDay: int, parentId: int, i: int)
    requires IsValid(p.date) && n >= 1 && 1 <= i < n
    ensures var rows := Plan(p, n, invoiceDay, parentId);
            rows[i].amount == BaseAmount(p.total, n) &&
            0 <= rows[0].amount - rows[i].amount < n
  {
    PlanRow(p, n, invoiceDay, parentId, 0);
    PlanRow(p, n, invoiceDay, parentId, i);
  }

  /** With no overflow, the plan's due dates strictly increase along the list. */
  lemma PlanDatesIncrease(p: Purchase, n: nat, invoiceDay: int, parentId: int, i: int, j: int)
    requires IsValid(p.date) && p.date.day <= 28 && 1 <= invoiceDay <= 28
    requires n >= 1 && 0 <= i < j < n
    ensures var rows := Plan(p, n, invoiceDay, parentId);
            Before(rows[i].date, rows[j].date) && Before(p.date, rows[0].date)
  {
    PlanRow(p, n, invoiceDay, parentId, 0);
    PlanRow(p, n, invoiceDay, parentId, i);
    PlanRow(p, n, invoiceDay, parentId, j);
    PaymentDatesIncrease(p.date, invoiceDay, i + 1, j + 1);
    PaymentDateAfterPurchaseMonth(p.date, invoiceDay, 1);
  }
}

=== FILE: js_number.dfy ===
/**
 * JavaScript's `parseFloat` and `parseInt` (radix 10) over the decimal forms the
 * application's inputs produce: leading white space, an optional sign, digits with an
 * optional fractional part. The numeric value is kept exactly, as a digit string,
 * so that the "NaN or <= 0" checks are decided without rounding; money is then
 * read as integer cents.
 */
module JsNumber {
  import opened Wrappers
  import opened Text

  /** An exactly parsed decimal: sign, integer digits, fractional digits. */
  datatype Decimal = Decimal(negative: bool, whole: string, fraction: string)

  predicate AllDigits(s: string) {
    forall i :: 0 <= i < |s| ==> IsDigit(s[i])
  }

  predicate WellFormed(d: Decimal) {
    AllDigits(d.whole) && AllDigits(d.fraction) && |d.whole| + |d.fraction| > 0
  }

  /** Length of the longest all-digit prefix of `s`. */
  function DigitPrefix(s: string): (n: nat)
    ensures n <= |s|
    ensures AllDigits(s[..n])
    ensures n < |s| ==> !IsDigit(s[n])
  {
    if |s| == 0 || !IsDigit(s[0]) then 0
    else
      var n := 1 + DigitPrefix(s[1..]);
      assert s[..n] == [s[0]] + s[1..][..n - 1];
      n
  }

  /** Leading `+` or `-` stripped; the flag says whether it was `-`. */
  function SplitSign(s: string): (bool, string) {
    if |s| > 0 && (s[0] == '-' || s[0] == '+') then (s[0] == '-', s[1..]) else (false, s)
  }

  /**
   * `parseFloat(s)`: `None` stands for NaN. The longest prefix of the form
   * `digits[.digits]` or `.digits` after white space and a sign is read; the rest is ignored.
   */
  function ParseFloat(s: string): (r: Option<Decimal>)
    ensures r.Some? ==> WellFormed(r.value)
  {
    var (neg, u) := SplitSign(TrimStart(s));
    UnsignedFloat(neg, u)
  }

  /** The numeric part of `parseFloat` once white space and sign are gone. */
  function UnsignedFloat(neg: bool, u: string): (r: Option<Decimal>)
    ensures r.Some? ==> WellFormed(r.value)
  {
    var w := DigitPrefix(u);
    var rest := u[w..];
    var f := if |rest| > 0 && rest[0] == '.' then DigitPrefix(rest[1..]) else 0;
    if w + f == 0 then None
    else
      assert f > 0 ==> rest[1..1 + f] == rest[1..][..f];
      Some(Decimal(neg, u[..w], if f > 0 then rest[1..1 + f] else ""))
  }

  /** Text that starts with a digit has nothing for `trim` or the sign check to remove. */
  lemma DigitLed(s: string)
    requires |s| > 0 && IsDigit(s[0])
    ensures TrimStart(s) == s && SplitSign(s) == (false, s)
  {
  }

  predicate HasNonZeroDigit(s: string) {
    exists i :: 0 <= i < |s| && s[i] != '0'
  }

  /** The parsed value is strictly greater than zero (`-0` is not). */
  predicate IsPositive(d: Decimal) {
    !d.negative && (HasNonZeroDigit(d.whole) || HasNonZeroDigit(d.fraction))
  }

  /** The server actions' and forms' amount check: `!(isNaN(amount) || amount <= 0)`. */
  predicate IsValidAmount(s: string) {
    var p := ParseFloat(s);
    p.Some? && IsPositive(p.value)
  }

  /** The first two fractional digits, zero-padded: the cents part. */
  function CentsDigits(fraction: string): (r: string)
    requires AllDigits(fraction)
    ensures |r| == 2 && AllDigits(r)
  {
    (fraction + "00")[..2]
  }

  /** The value in integer cents, truncating digits beyond the second decimal place. */
  function Cents(d: Decimal): int
    requires WellFormed(d)
  {
    var magnitude := 100 * DigitsValue(d.whole) + DigitsValue(CentsDigits(d.fraction));
    if d.negative then -magnitude else magnitude
  }

  /** The cents an accepted amount string is stored as; an accepted amount is never negative. */
  function AmountCents(s: string): (c: int)
    requires IsValidAmount(s)
    ensures c >= 0
  {
    Cents(ParseFloat(s).value)
  }

  /** Writes `c` cents as the form's amount value does: `units.cc`. */
  function FormatCents(c: nat): (s: string)
    ensures |s| >= 4
  {
    NatToString(c / 100) + "." + Pad2(c % 100)
  }

  /** Reading back a formatted amount gives the same cents: the two are inverse. */
  lemma FormatCentsRoundTrip(c: nat)
    ensures ParseFloat(FormatCents(c)).Some?
    ensures Cents(ParseFloat(FormatCents(c)).value) == c
    ensures IsValidAmount(FormatCents(c)) <==> c > 0
  {
    var units, rem := c / 100, c % 100;
    var w := NatToString(units);
    var p := Pad2(rem);
    assert FormatCents(c) == w + "." + p;
    ParseFloatOfPlain(w, p);
    var d := Decimal(false, w, p);
    assert ParseFloat(FormatCents(c)) == Some(d);
    NatToStringRoundTrip(units);
    assert CentsDigits(p) == p by { assert (p + "00")[..2] == p; }
    Pad2Value(rem);
    assert Cents(d) == 100 * units + rem;
    assert c == 100 * units + rem;
    if c == 0 {
      assert units == 0 && rem == 0;
      ZeroDigits();
      assert !IsPositive(d);
    } else if units > 0 {
      NatDigitsNonZero(units);
      assert IsPositive(d);
    } else {
      Pad2NonZero(rem);
      assert IsPositive(d);
    }
  }

  /** Zero prints as `0`, and its cents as `00`: neither has a non-zero digit. */
  lemma ZeroDigits()
    ensures !HasNonZeroDigit(NatToString(0)) && !HasNonZeroDigit(Pad2(0))
  {
    assert NatToString(0) == [DigitChar(0)];
    assert DigitChar(0) == '0';
  }

  /** `parseFloat` of `digits.digits` reads both digit strings unchanged. */
  lemma ParseFloatOfPlain(w: string, p: string)
    requires |w| > 0 && AllDigits(w) && |p| > 0 && AllDigits(p)
    ensures ParseFloat(w + "." + p) == Some(Decimal(false, w, p))
  {
    var s := w + "." + p;
    assert s[0] == w[0];
    DigitLed(s);
    assert ParseFloat(s) == UnsignedFloat(false, s);
    UnsignedOfPlain(w, p);
  }

  /** The numeric part of `digits.digits`: both digit runs read to their end. */
  lemma UnsignedOfPlain(w: string, p: string)
    requires |w| > 0 && AllDigits(w) && |p| > 0 && AllDigits(p)
    ensures UnsignedFloat(false, w + "." + p) == Some(Decimal(false, w, p))
  {
    var u := w + "." + p;
    assert u == w + ("." + p);
    DigitPrefixOfDigits(w, "." + p);
    assert DigitPrefix(u) == |w|;
    var rest := u[|w|..];
    assert rest == "." + p;
    assert rest[1..] == p + "";
    DigitPrefixOfDigits(p, "");
    assert DigitPrefix(rest[1..]) == |p|;
    assert u[..|w|] == w;
    assert rest[1..1 + |p|] == p;
  }

  lemma {:induction false} DigitPrefixOfDigits(a: string, b: string)
    requires AllDigits(a)
    requires |b| == 0 || !IsDigit(b[0])
    ensures DigitPrefix(a + b) == |a|
    decreases |a|
  {
    if |a| > 0 {
      assert (a + b)[1..] == a[1..] + b;
      DigitPrefixOfDigits(a[1..], b);
    } else {
      assert a + b == b;
    }
  }

  lemma Pad2Value(n: nat)
    requires n < 100
    ensures DigitsValue(Pad2(n)) == n
  {
    NatToStringRoundTrip(n);
    var s := NatToString(n);
    if |s| < 2 {
      assert Pad2(n) == "0" + s;
      assert ("0" + s)[..1] == "0";
    }
  }

  lemma NatDigitsNonZero(n: nat)
    requires n > 0
    ensures HasNonZeroDigit(NatToString(n))
  {
    var s := NatToString(n);
    if |s| == 1 {
      assert s[0] != '0';
    } else {
      assert s[0] != '0';
    }
  }

  lemma Pad2NonZero(n: nat)
    requires 0 < n < 100
    ensures HasNonZeroDigit(Pad2(n))
  {
    var p := Pad2(n);
    if n < 10 {
      assert p[1] != '0';
    } else {
      assert p[0] != '0';
    }
  }

  /** `parseInt(s)` in base 10: `None` stands for NaN. */
  function ParseInt(s: string): (r: Option<int>)
  {
    var (neg, u) := SplitSign(TrimStart(s));
    UnsignedInt(neg, u)
  }

  function UnsignedInt(neg: bool, u: string): (r: Option<int>)
  {
    var w := DigitPrefix(u);
    if w == 0 then None
    else
      var v: int := DigitsValue(u[..w]);
      Some(if neg then -v else v)
  }

  /** Printing a number and reading it back with `parseInt` gives the number. */
  lemma ParseIntRoundTrip(n: nat)
    ensures ParseInt(NatToString(n)) == Some(n)
  {
    var s := NatToString(n);
    DigitLed(s);
    assert ParseInt(s) == UnsignedInt(false, s);
    DigitPrefixOfDigits(s, "");
    assert s + "" == s;
    assert s[..|s|] == s;
    NatToStringRoundTrip(n);
  }
}

=== FILE: month_ledger.dfy ===
/**
 * The month-by-month ledger shared by the expense and income pages: the month
 * selector's options, the entries of the selected month and their statistics,
 * and the local adding and deleting of entries.
 */
module MonthLedger {
  import opened Wrappers
  import opened Calendar
  import opened Seqs
  import opened Text
  import opened Grouping
  import opened Sorting
  import opened Transactions
  import JsNumber

  /** The selector value standing for every month. */
  const AllMonths := "all"

  /** The statistics label when no single month is shown. */
  const AllMonthsLabel := "Todos os Meses"

  /** `IMonthOption`; `caption` is the field `label`, a reserved word here. */
  datatype MonthOption = MonthOption(value: string, caption: string)

  /** `IMonthlyStats`. */
  datatype MonthlyStats = MonthlyStats(total: int, count: nat, month: string)

  function ValueOf(o: MonthOption): string { o.value }

  /** No string is listed twice. */
  predicate Distinct(s: seq<string>) {
    forall i, j :: 0 <= i < j < |s| ==> s[i] != s[j]
  }

  function Same(x: string): string { x }

  /** The strings of a `Set` filled from `s`, in order of first insertion. */
  function Dedup(s: seq<string>): (r: seq<string>)
    ensures forall x :: x in r <==> x in s
    ensures Distinct(r)
    decreases |s|
  {
    if |s| == 0 then []
    else
      var n := |s| - 1;
      assert s == s[..n] + [s[n]];
      var d := Dedup(s[..n]);
      if s[n] in d then d else d + [s[n]]
  }

  function Reverse<T>(s: seq<T>): (r: seq<T>)
    ensures |r| == |s|
    ensures forall i :: 0 <= i < |s| ==> r[i] == s[|s| - 1 - i]
  {
    if |s| == 0 then [] else Reverse(s[1..]) + [s[0]]
  }

  /** Ascending code-unit order is a strict weak order. */
  lemma AscendingOrder()
    ensures StrictWeakOrder(LexLess)
  {
    forall a, b | LexLess(a, b) ensures !LexLess(b, a) {
      LexLessAsymmetric(a, b);
    }
    forall a, b, c | LexLess(a, c) ensures LexLess(a, b) || LexLess(b, c) {
      LexLessTotal(a, b);
      if LexLess(b, a) {
        LexLessTransitive(b, a, c);
      }
    }
  }

  /** The month key of every entry, in list order. */
  function MonthKeys(s: seq<Txn>): (r: seq<string>)
    ensures |r| == |s|
    ensures forall i :: 0 <= i < |s| ==> r[i] == MonthKeyOf(s[i])
  {
    seq(|s|, i requires 0 <= i < |s| => MonthKeyOf(s[i]))
  }

  /** `Array.from(monthsSet).sort().reverse()`. */
  function MonthValues(s: seq<Txn>): seq<string> {
    Reverse(SortBy(Dedup(MonthKeys(s)), LexLess))
  }

  /**
   * `availableMonths`; `nameOf` stands for the `pt-BR` long month name of the key,
   * which the model does not compute.
   */
  function AvailableMonths(s: seq<Txn>, nameOf: string -> string): (r: seq<MonthOption>)
    ensures |r| == |MonthValues(s)|
    ensures forall i :: 0 <= i < |r| ==> r[i] == MonthOption(MonthValues(s)[i], nameOf(MonthValues(s)[i]))
  {
    var keys := MonthValues(s);
    seq(|keys|, i requires 0 <= i < |keys| => MonthOption(keys[i], nameOf(keys[i])))
  }

  /** Reversing keeps the elements. */
  lemma ReverseMembers<T>(s: seq<T>)
    ensures forall x :: x in Reverse(s) <==> x in s
  {
    var r := Reverse(s);
    forall x ensures x in r <==> x in s {
      if x in r {
        var i :| 0 <= i < |r| && r[i] == x;
        assert s[|s| - 1 - i] == x;
      }
      if x in s {
        var i :| 0 <= i < |s| && s[i] == x;
        assert r[|s| - 1 - i] == x;
      }
    }
  }

  /** The keys listed are those of the entries. */
  lemma MonthKeysMembers(s: seq<Txn>)
    ensures forall k :: k in MonthKeys(s) <==> KeyOccurs(s, MonthKeyOf, k)
  {
    var keys := MonthKeys(s);
    forall k ensures k in keys <==> KeyOccurs(s, MonthKeyOf, k) {
      if KeyOccurs(s, MonthKeyOf, k) {
        var i :| 0 <= i < |s| && MonthKeyOf(s[i]) == k;
        assert keys[i] == k;
      }
    }
  }

  /** The selector lists each month some entry falls in, and no other. */
  lemma MonthValuesMembers(s: seq<Txn>)
    ensures forall k :: k in MonthValues(s) <==> KeyOccurs(s, MonthKeyOf, k)
  {
    var d := Dedup(MonthKeys(s));
    var sorted := SortBy(d, LexLess);
    MonthKeysMembers(s);
    SortByMembers(d, LexLess);
    ReverseMembers(sorted);
  }

  /** Sorting the distinct keys in ascending order leaves them ascending and distinct. */
  lemma SortedKeys(keys: seq<string>)
    ensures var sorted := SortBy(Dedup(keys), LexLess);
            SortedBy(sorted, LexLess) && Distinct(sorted)
  {
    var d := Dedup(keys);
    var sorted := SortBy(d, LexLess);
    assert DistinctBy(d, Same);
    SortByDistinct(d, LexLess, Same);
    AscendingOrder();
    SortBySorted(d, LexLess);
    forall i, j | 0 <= i < j < |sorted| ensures sorted[i] != sorted[j] {
      assert Same(sorted[i]) != Same(sorted[j]);
    }
  }

  /** Reversing distinct ascending strings gives strictly descending ones. */
  lemma ReverseDescending(sorted: seq<string>)
    requires SortedBy(sorted, LexLess) && Distinct(sorted)
    ensures var r := Reverse(sorted);
            forall i, j :: 0 <= i < j < |r| ==> LexLess(r[j], r[i])
  {
    var r := Reverse(sorted);
    forall i, j | 0 <= i < j < |r| ensures LexLess(r[j], r[i]) {
      var a, b := |r| - 1 - j, |r| - 1 - i;
      assert r[j] == sorted[a] && r[i] == sorted[b];
      assert !LexLess(sorted[b], sorted[a]);
      assert sorted[a] != sorted[b];
      LexLessTotal(sorted[a], sorted[b]);
    }
  }

  /** The selector lists the months latest first, each once. */
  lemma MonthValuesDescending(s: seq<Txn>)
    ensures var r := MonthValues(s);
            forall i, j :: 0 <= i < j < |r| ==> LexLess(r[j], r[i])
  {
    var keys := MonthKeys(s);
    var sorted := SortBy(Dedup(keys), LexLess);
    SortedKeys(keys);
    ReverseDescending(sorted);
    assert MonthValues(s) == Reverse(sorted);
  }

  /** The selector options carry the same months, each labelled from its key. */
  lemma AvailableMonthsShape(s: seq<Txn>, nameOf: string -> string)
    ensures var r := AvailableMonths(s, nameOf);
            && (forall k :: KeyOccurs(r, ValueOf, k) <==> KeyOccurs(s, MonthKeyOf, k))
            && (forall i, j :: 0 <= i < j < |r| ==> LexLess(r[j].value, r[i].value))
            && (forall i :: 0 <= i < |r| ==> r[i].caption == nameOf(r[i].value))
  {
    var r := AvailableMonths(s, nameOf);
    var keys := MonthValues(s);
    MonthValuesMembers(s);
    MonthValuesDescending(s);
    forall k ensures KeyOccurs(r, ValueOf, k) <==> k in keys {
      if k in keys {
        var i :| 0 <= i < |keys| && keys[i] == k;
        assert ValueOf(r[i]) == k;
      }
    }
  }

  /** `filteredExpenses` / `filteredIncomes`: everything for "all", else the entries of the selected month key. */
  function FilterByMonth(s: seq<Txn>, selected: string): (r: seq<Txn>)
    ensures selected == AllMonths ==> r == s
    ensures selected != AllMonths ==> forall i :: 0 <= i < |r| ==> r[i] in s && MonthKeyOf(r[i]) == selected
    ensures selected != AllMonths ==> forall i :: 0 <= i < |s| && MonthKeyOf(s[i]) == selected ==> s[i] in r
  {
    if selected == AllMonths then s else Filter(s, KeyIs(MonthKeyOf, selected))
  }

  /** `availableMonths.find(m => m.value === selected)`. */
  function Find(months: seq<MonthOption>, selected: string): (r: Option<MonthOption>)
    ensures r.Some? ==> r.value in months && r.value.value == selected
    ensures r.None? ==> !KeyOccurs(months, ValueOf, selected)
  {
    if |months| == 0 then None
    else if months[0].value == selected then Some(months[0])
    else Find(months[1..], selected)
  }

  /**
   * `monthlyStats`: the total and the number of the entries shown, and the label
   * of the selected month, or "Todos os Meses" for all months or a month no
   * entry falls in.
   */
  function Stats(s: seq<Txn>, selected: string, nameOf: string -> string): (m: MonthlyStats)
    ensures selected == AllMonths ==> m == MonthlyStats(Sum(s, Amount), |s|, AllMonthsLabel)
    ensures selected != AllMonths && KeyOccurs(s, MonthKeyOf, selected) ==>
              m == MonthlyStats(Sum(Filter(s, KeyIs(MonthKeyOf, selected)), Amount),
                                |Filter(s, KeyIs(MonthKeyOf, selected))|, nameOf(selected))
    ensures selected != AllMonths && !KeyOccurs(s, MonthKeyOf, selected) ==> m == MonthlyStats(0, 0, AllMonthsLabel)
  {
    var shown := FilterByMonth(s, selected);
    var found := Find(AvailableMonths(s, nameOf), selected);
    AvailableMonthsShape(s, nameOf);
    assert found.Some? ==> found.value.caption == nameOf(selected);
    assert selected != AllMonths && !KeyOccurs(s, MonthKeyOf, selected) ==> shown == [] by {
      if selected != AllMonths && !KeyOccurs(s, MonthKeyOf, selected) {
        FilterNone(s, KeyIs(MonthKeyOf, selected));
      }
    }
    MonthlyStats(Sum(shown, Amount), |shown|,
      if selected != AllMonths && found.Some? then found.value.caption else AllMonthsLabel)
  }

  /** What the entries of month `k` weigh under `f`. */
  function KeyTotal(s: seq<Txn>, f: Txn -> int): string -> int {
    (k: string) => Sum(Filter(s, KeyIs(MonthKeyOf, k)), f)
  }

  function InKeys(keys: seq<string>): Txn -> bool {
    (t: Txn) => MonthKeyOf(t) in keys
  }

  /** Over distinct keys, the per-key totals add up to the total of the entries with one of the keys. */
  lemma {:induction false} SumOverKeys(s: seq<Txn>, keys: seq<string>, f: Txn -> int)
    requires Distinct(keys)
    ensures Sum(keys, KeyTotal(s, f)) == Sum(Filter(s, InKeys(keys)), f)
  {
    if |keys| == 0 {
      FilterNone(s, InKeys(keys));
    } else {
      var here := KeyIs(MonthKeyOf, keys[0]);
      assert Distinct(keys[1..]);
      SumOverKeys(s, keys[1..], f);
      SplitFirstKey(s, keys);
      SumPartition(Filter(s, InKeys(keys)), f, here);
    }
  }

  /** The entries of some key are those of the first key and those of the others. */
  lemma SplitFirstKey(s: seq<Txn>, keys: seq<string>)
    requires Distinct(keys) && |keys| > 0
    ensures var sel, here := Filter(s, InKeys(keys)), KeyIs(MonthKeyOf, keys[0]);
            && Filter(sel, here) == Filter(s, here)
            && Filter(sel, Not(here)) == Filter(s, InKeys(keys[1..]))
  {
    var k, rest := keys[0], keys[1..];
    var here := KeyIs(MonthKeyOf, k);
    FilterTwice(s, InKeys(keys), here, here);
    forall i | 0 <= i < |s| ensures InKeys(rest)(s[i]) == (InKeys(keys)(s[i]) && Not(here)(s[i])) {
      assert keys == [k] + rest;
    }
    FilterTwice(s, InKeys(keys), Not(here), InKeys(rest));
  }

  function One(t: Txn): int { 1 }

  /**
   * Summed over the months the selector offers, the month totals give the total
   * of all months and the month counts the number of entries.
   */
  lemma MonthTotalsAddUp(s: seq<Txn>)
    ensures Sum(MonthValues(s), KeyTotal(s, Amount)) == Sum(s, Amount)
    ensures Sum(MonthValues(s), KeyTotal(s, One)) == |s|
  {
    var keys := MonthValues(s);
    MonthValuesMembers(s);
    MonthValuesDescending(s);
    assert Distinct(keys) by {
      forall i, j | 0 <= i < j < |keys| ensures keys[i] != keys[j] {
        assert LexLess(keys[j], keys[i]);
        LexLessAsymmetric(keys[j], keys[i]);
      }
    }
    SumOverKeys(s, keys, Amount);
    SumOverKeys(s, keys, One);
    forall i | 0 <= i < |s| ensures InKeys(keys)(s[i]) {
      assert KeyOccurs(s, MonthKeyOf, MonthKeyOf(s[i]));
    }
    FilterAll(s, InKeys(keys));
    SumConstant(s, One, 1);
  }

  /** The largest id, or 0 for an empty list: `Math.max(0, ...ids)`. */
  function MaxId(s: seq<Txn>): (m: int)
    ensures m >= 0
    ensures forall i :: 0 <= i < |s| ==> s[i].id <= m
    ensures m == 0 || exists i :: 0 <= i < |s| && s[i].id == m
  {
    if |s| == 0 then 0
    else
      var rest := MaxId(s[1..]);
      assert forall i :: 1 <= i < |s| ==> s[i] == s[1..][i - 1];
      if s[0].id > rest then s[0].id else rest
  }

  /** Ids are never shared. */
  predicate UniqueIds(s: seq<Txn>) {
    forall i, j :: 0 <= i < j < |s| ==> s[i].id != s[j].id
  }

  /**
   * `handleAddExpense` / `handleAddIncome`: the new entry, numbered one past the
   * largest id, goes in front. The form hands over a positive amount and a
   * `yyyy-MM-dd` day, which is stored as that day's midnight; the record has no
   * category name.
   */
  function AddEntry(s: seq<Txn>, title: string, categoryId: int, amount: string, day: Date): (r: seq<Txn>)
    requires JsNumber.IsValidAmount(amount)
    ensures |r| == |s| + 1 && r[1..] == s
    ensures r[0].id >= 1 && forall i :: 0 <= i < |s| ==> s[i].id < r[0].id
    ensures r[0] == Txn(r[0].id, categoryId, "", title, JsNumber.AmountCents(amount), Midnight(day))
    ensures UniqueIds(s) ==> UniqueIds(r)
  {
    [Txn(MaxId(s) + 1, categoryId, "", title, JsNumber.AmountCents(amount), Midnight(day))] + s
  }

  function IdIsNot(id: int): Txn -> bool {
    (t: Txn) => t.id != id
  }

  /** `handleDeleteExpense` / `handleDeleteIncome`: every entry with that id goes, the rest keep their order. */
  function DeleteEntry(s: seq<Txn>, id: int): (r: seq<Txn>)
    ensures forall i :: 0 <= i < |r| ==> r[i] in s && r[i].id != id
    ensures forall i :: 0 <= i < |s| && s[i].id != id ==> s[i] in r
    ensures |r| <= |s|
  {
    Filter(s, IdIsNot(id))
  }

  /** Deleting the entry just added gives the list back as it was. */
  lemma DeleteUndoesAdd(s: seq<Txn>, title: string, categoryId: int, amount: string, day: Date)
    requires JsNumber.IsValidAmount(amount)
    ensures var r := AddEntry(s, title, categoryId, amount, day);
            DeleteEntry(r, r[0].id) == s
  {
    var r := AddEntry(s, title, categoryId, amount, day);
    FilterAll(s, IdIsNot(r[0].id));
    assert r == [r[0]] + s;
  }
}

=== FILE: queries.dfy ===
/**
 * The listing queries `getExpenses` and `getIncomes` share, and the current-month
 * totals built on them: the caller's rows, narrowed by an optional category and
 * by either an explicit date range or a calendar month.
 */
module Queries {
  import opened Wrappers
  import opened Calendar
  import opened Seqs
  import opened Records

  /**
   * The optional filters of a listing. A date bound given as an empty string is
   * falsy in the source and is represented here by `None`.
   */
  datatype ListFilters = ListFilters(
    month: Option<int>,
    year: Option<int>,
    category: Option<string>,
    startDate: Option<Date>,
    endDate: Option<Date>)

  /** An inclusive range of days, or no date restriction at all. */
  datatype DateBounds = Unbounded | Between(first: Date, last: Date)

  /**
   * `new Date(year, month - 1, 1)` through `new Date(year, month, 0, 23, 59, 59)`.
   * Compared with day-valued dates these are the first and the last day of the month.
   */
  function MonthBounds(year: int, month: int): DateBounds {
    Between(LocalDate(year, month - 1, 1), LocalDate(year, month, 0))
  }

  /** An explicit range needs both ends; otherwise a month and a truthy year select a month. */
  function BoundsOf(f: ListFilters): DateBounds {
    if f.startDate.Some? && f.endDate.Some? then Between(f.startDate.value, f.endDate.value)
    else if f.month.Some? && Truthy(f.year) then MonthBounds(f.year.value, f.month.value)
    else Unbounded
  }

  /** `.gte("date", first).lte("date", last)`. */
  predicate InBounds(d: Date, b: DateBounds) {
    b.Unbounded? || (!Before(d, b.first) && !Before(b.last, d))
  }

  /** Every condition the listing query puts on a row. */
  function Matches(user: string, f: ListFilters): Row -> bool {
    (r: Row) =>
      && r.fields.userId == user
      && (Given(f.category) ==> r.fields.category == f.category.value)
      && InBounds(r.fields.date, BoundsOf(f))
  }

  /** `getExpenses(filters)` / `getIncomes(filters)`, in store order. */
  function ListRows(user: Option<string>, store: seq<Row>, f: ListFilters): (r: Outcome<seq<Row>>)
    ensures user.None? <==> r == Err(Unauthenticated)
    ensures r.Ok? ==> forall i :: 0 <= i < |r.value| ==> r.value[i] in store && Matches(user.value, f)(r.value[i])
    ensures r.Ok? ==> forall i :: 0 <= i < |store| && Matches(user.value, f)(store[i]) ==> store[i] in r.value
  {
    if user.None? then Err(Unauthenticated) else Ok(Filter(store, Matches(user.value, f)))
  }

  /**
   * `getExpenseById(id)` / `getIncomeById(id)`: the caller's row with that id,
   * read with `.single()`, which fails unless exactly one row matches.
   */
  function RowById(user: Option<string>, store: seq<Row>, id: int): (r: Outcome<Row>)
    ensures user.None? <==> r == Err(Unauthenticated)
    ensures r.Ok? ==> r.value in store && r.value.id == id && r.value.fields.userId == user.value
  {
    if user.None? then Err(Unauthenticated)
    else
      match Single(store, IdAndOwner(id, user.value))
      case Some(row) => Ok(row)
      case None => Err(DatabaseError)
  }

  /**
   * With ids unique, the lookup of a stored row's id returns that row to its
   * owner and an error to anyone else.
   */
  lemma RowByIdFinds(user: string, store: seq<Row>, i: int)
    requires UniqueIds(store) && 0 <= i < |store|
    ensures store[i].fields.userId == user ==> RowById(Some(user), store, store[i].id) == Ok(store[i])
    ensures store[i].fields.userId != user ==> RowById(Some(user), store, store[i].id) == Err(DatabaseError)
  {
    var id := store[i].id;
    UniqueIdMatch(store, i);
    FilterTwice(store, HasId(id), OwnedBy(user), IdAndOwner(id, user));
    if store[i].fields.userId == user {
      assert Filter([store[i]], OwnedBy(user)) == [store[i]];
    } else {
      assert Filter([store[i]], OwnedBy(user)) == [];
    }
  }

  /** The year `new Date(y, ...)` actually uses. */
  function FullYear(y: int): int {
    if 0 <= y <= 99 then 1900 + y else y
  }

  /**
   * The month bounds are the first and the last day of one calendar month: the
   * month `month` of `year` (with the two-digit-year rule), carried into the
   * neighbouring years when `month` lies outside 1..12.
   */
  lemma MonthBoundsSpan(year: int, month: int)
    ensures var k := MonthOrdinal(FullYear(year), month);
            var y, m := YearOf(k), MonthOf(k);
            MonthBounds(year, month) == Between(Date(y, m, 1), Date(y, m, DaysInMonth(y, m)))
  {
    var k := MonthOrdinal(FullYear(year), month);
    var y, m := YearOf(k), MonthOf(k);
    OrdinalRoundTrip(k);
    assert LocalDate(year, month - 1, 1) == Normalize(y, m, 1);
    OrdinalRoundTrip(k + 1);
    var y2, m2 := YearOf(k + 1), MonthOf(k + 1);
    assert LocalDate(year, month, 0) == Normalize(y2, m2, 0);
    assert MonthOrdinal(y2, m2) - 1 == k;
    assert Normalize(y2, m2, 0) == Normalize(y, m, DaysInMonth(y, m));
  }

  /** A valid date lies within a month's bounds exactly when it is in that month. */
  lemma InMonthBounds(d: Date, year: int, month: int)
    requires IsValid(d)
    ensures var k := MonthOrdinal(FullYear(year), month);
            InBounds(d, MonthBounds(year, month)) <==> d.year == YearOf(k) && d.month == MonthOf(k)
  {
    MonthBoundsSpan(year, month);
  }

  /** An explicit range takes precedence over a month and year given alongside it. */
  lemma RangeBeatsMonth(f: ListFilters)
    requires f.startDate.Some? && f.endDate.Some?
    ensures BoundsOf(f) == Between(f.startDate.value, f.endDate.value)
    ensures BoundsOf(f) == BoundsOf(f.(month := None, year := None))
  {
  }

  /** A half-given range is ignored: the month filter, or none, applies instead. */
  lemma HalfRangeIgnored(f: ListFilters)
    requires f.startDate.None? || f.endDate.None?
    ensures BoundsOf(f) == BoundsOf(f.(startDate := None, endDate := None))
  {
  }

  /** The listing for a whole month of a four-digit year holds exactly the caller's rows dated in that month. */
  lemma MonthListing(user: string, store: seq<Row>, f: ListFilters, i: int)
    requires f.startDate.None? && f.category.None?
    requires f.month.Some? && 1 <= f.month.value <= 12
    requires f.year.Some? && f.year.value >= 100
    requires 0 <= i < |store| && IsValid(store[i].fields.date)
    ensures var d := store[i].fields.date;
            Matches(user, f)(store[i])
            <==> store[i].fields.userId == user && d.year == f.year.value && d.month == f.month.value
  {
    InMonthBounds(store[i].fields.date, f.year.value, f.month.value);
    OrdinalInverse(f.year.value, f.month.value);
  }

  /** The caller's rows dated in the month and year of `today`. */
  function InMonthOf(user: string, today: Date): Row -> bool {
    (r: Row) => r.fields.userId == user && r.fields.date.year == today.year && r.fields.date.month == today.month
  }

  /** Every stored date is a real calendar day, as the date column guarantees. */
  predicate WellDated(store: seq<Row>) {
    forall i :: 0 <= i < |store| ==> IsValid(store[i].fields.date)
  }

  /**
   * `getCurrentMonthExpensesTotal` / `getCurrentMonthIncomesTotal` with the clock
   * read `today`: the sum of the month's amounts, and 0 when the listing fails.
   */
  function CurrentMonthTotal(user: Option<string>, store: seq<Row>, today: Date): (t: int)
    requires IsValid(today) && WellDated(store)
    ensures user.None? ==> t == 0
    ensures user.Some? && today.year >= 100 ==> t == Sum(Filter(store, InMonthOf(user.value, today)), RowAmount)
  {
    var f := ListFilters(Some(today.month), Some(today.year), None, None, None);
    match ListRows(user, store, f)
    case Err(_) => 0
    case Ok(rows) =>
      CurrentMonthRows(user.value, store, today, f);
      Sum(rows, RowAmount)
  }

  /** For a four-digit year, the month listing of `today` selects the same rows as `InMonthOf`. */
  lemma CurrentMonthRows(user: string, store: seq<Row>, today: Date, f: ListFilters)
    requires IsValid(today) && WellDated(store)
    requires f == ListFilters(Some(today.month), Some(today.year), None, None, None)
    ensures today.year >= 100 ==> Filter(store, Matches(user, f)) == Filter(store, InMonthOf(user, today))
  {
    if today.year < 100 {
      return;
    }
    forall i | 0 <= i < |store| ensures Matches(user, f)(store[i]) == InMonthOf(user, today)(store[i]) {
      MonthListing(user, store, f, i);
    }
    FilterCongruent(store, Matches(user, f), InMonthOf(user, today));
  }
}

=== FILE: records.dfy ===
/**
 * The rows of the `expenses` and `incomes` tables as the server actions read and
 * write them, and the query primitives the actions use on them.
 */
module Records {
  import opened Wrappers
  import opened Calendar
  import opened Seqs

  /** Every column of a row except the id the database assigns on insert. */
  datatype Fields = Fields(
    userId: string,
    title: string,
    amount: int,                // cents
    category: string,
    date: Date,
    paymentMethod: Option<string>,
    purchaseDate: Option<Date>,
    installmentsTotal: Option<int>,
    installmentNumber: Option<int>,
    parentId: Option<int>)

  datatype Row = Row(id: int, fields: Fields)

  function AmountOf(f: Fields): int { f.amount }
  function RowAmount(r: Row): int { r.fields.amount }

  const Unauthenticated := "Usuário não autenticado"
  const InvalidAmount := "Valor inválido"
  /** Stands for the message of an error the database client reports. */
  const DatabaseError := "database error"

  function OwnedBy(user: string): Row -> bool {
    (r: Row) => r.fields.userId == user
  }

  function NotOwnedBy(user: string): Row -> bool {
    (r: Row) => r.fields.userId != user
  }

  /** `.eq("id", id)` alone. */
  function HasId(id: int): Row -> bool {
    (r: Row) => r.id == id
  }

  /** `.eq("id", id).eq("user_id", user)`. */
  function IdAndOwner(id: int, user: string): Row -> bool {
    (r: Row) => r.id == id && r.fields.userId == user
  }

  /**
   * `.single()`: the one row satisfying `p`; when none or several do, the client
   * reports an error, modelled as `None`.
   */
  function Single(rows: seq<Row>, p: Row -> bool): (r: Option<Row>)
    ensures r.Some? <==> |Filter(rows, p)| == 1
    ensures r.Some? ==> r.value in rows && p(r.value)
    ensures r.Some? ==> forall i :: 0 <= i < |rows| && p(rows[i]) ==> rows[i] == r.value
  {
    var m := Filter(rows, p);
    if |m| == 1 then
      SingleMatch(rows, p);
      Some(m[0])
    else None
  }

  lemma {:induction false} SingleMatch(rows: seq<Row>, p: Row -> bool)
    requires |Filter(rows, p)| == 1
    ensures forall i :: 0 <= i < |rows| && p(rows[i]) ==> rows[i] == Filter(rows, p)[0]
  {
    if |rows| > 0 {
      if p(rows[0]) {
        assert Filter(rows, p) == [rows[0]] + Filter(rows[1..], p);
        assert |Filter(rows[1..], p)| == 0;
        forall i | 1 <= i < |rows| ensures !p(rows[i]) {
          assert rows[i] == rows[1..][i - 1];
        }
      } else {
        SingleMatch(rows[1..], p);
        forall i | 1 <= i < |rows| && p(rows[i]) ensures rows[i] == Filter(rows, p)[0] {
          assert rows[i] == rows[1..][i - 1];
        }
      }
    }
  }

  /** Ids are the table's primary key. */
  predicate UniqueIds(rows: seq<Row>) {
    forall i, j :: 0 <= i < j < |rows| ==> rows[i].id != rows[j].id
  }

  /** With unique ids, the lookup of a stored row's id finds exactly that row. */
  lemma {:induction false} UniqueIdMatch(rows: seq<Row>, i: int)
    requires UniqueIds(rows) && 0 <= i < |rows|
    ensures Filter(rows, HasId(rows[i].id)) == [rows[i]]
    ensures Single(rows, HasId(rows[i].id)) == Some(rows[i])
  {
    var p := HasId(rows[i].id);
    assert UniqueIds(rows[1..]) by {
      forall a, b | 0 <= a < b < |rows[1..]| ensures rows[1..][a].id != rows[1..][b].id {
        assert rows[1..][a] == rows[a + 1] && rows[1..][b] == rows[b + 1];
      }
    }
    if i == 0 {
      forall j | 0 <= j < |rows[1..]| ensures !p(rows[1..][j]) {
        assert rows[1..][j] == rows[j + 1];
      }
      FilterNone(rows[1..], p);
    } else {
      assert rows[i] == rows[1..][i - 1];
      UniqueIdMatch(rows[1..], i - 1);
    }
  }

  /** The rows the query `.delete().<filters>` leaves behind: those not matching. */
  function DeleteWhere(rows: seq<Row>, p: Row -> bool): (r: seq<Row>)
    ensures forall i :: 0 <= i < |r| ==> r[i] in rows && !p(r[i])
    ensures forall i :: 0 <= i < |rows| && !p(rows[i]) ==> rows[i] in r
  {
    Filter(rows, Not(p))
  }
}

=== FILE: schemas.dfy ===
/**
 * The zod schemas of the sign-in, sign-up and profile forms. A parse yields the
 * parsed data or the list of issues in the order the checks run: every field's
 * checks in order, then the object refinement, which runs even when a field
 * check has failed. Lengths are UTF-16 lengths. The e-mail and URL formats are
 * the library's own and enter as predicates.
 */
module Schemas {
  import opened Wrappers
  import opened Text
  import Calendar
  import Installments

  /** One validation issue: the field it is reported on and its message. */
  datatype Issue = Issue(path: string, message: string)

  datatype Parsed<T> = Success(data: T) | Failure(issues: seq<Issue>)

  const EmailRequired := "Email é obrigatório"
  const EmailInvalid := "Email inválido"
  const PasswordTooShort := "A senha deve ter no mínimo 6 caracteres"
  const NameRequired := "Nome é obrigatório"
  const ConfirmRequired := "Confirmação de senha é obrigatória"
  const PasswordsDiffer := "As senhas não coincidem"
  const FullNameRequired := "Nome completo é obrigatório"
  const FullNameTooShort := "Nome completo deve ter no mínimo 3 caracteres"
  const FullNameTooLong := "Nome muito longo"
  const UrlInvalid := "URL invalida"
  const DayOutOfRange := "Dia deve ser entre 1 e 28"

  /** `.min(n, message)` on a string. */
  function MinLength(path: string, s: string, n: nat, message: string): (r: seq<Issue>)
    ensures r == [] <==> JsLength(s) >= n
    ensures r != [] ==> r == [Issue(path, message)]
  {
    if JsLength(s) < n then [Issue(path, message)] else []
  }

  /** `.max(n, message)` on a string. */
  function MaxLength(path: string, s: string, n: nat, message: string): (r: seq<Issue>)
    ensures r == [] <==> JsLength(s) <= n
    ensures r != [] ==> r == [Issue(path, message)]
  {
    if JsLength(s) > n then [Issue(path, message)] else []
  }

  /** A check the library performs with its own pattern. */
  function Check(path: string, ok: bool, message: string): (r: seq<Issue>)
    ensures r == [] <==> ok
    ensures r != [] ==> r == [Issue(path, message)]
  {
    if ok then [] else [Issue(path, message)]
  }

  /** `email: z.string().min(1, ...).email(...)`. */
  function EmailIssues(email: string, isEmail: string -> bool): (r: seq<Issue>)
    ensures r == [] <==> JsLength(email) >= 1 && isEmail(email)
  {
    MinLength("email", email, 1, EmailRequired) + Check("email", isEmail(email), EmailInvalid)
  }

  datatype LoginData = LoginData(email: string, password: string)

  /** `loginSchema.safeParse`. */
  function ParseLogin(d: LoginData, isEmail: string -> bool): (r: Parsed<LoginData>)
    ensures r.Success? <==> JsLength(d.email) >= 1 && isEmail(d.email) && JsLength(d.password) >= 6
    ensures r.Success? ==> r.data == d
    ensures r.Failure? && JsLength(d.password) < 6 ==> Issue("password", PasswordTooShort) in r.issues
  {
    var issues := EmailIssues(d.email, isEmail) + MinLength("password", d.password, 6, PasswordTooShort);
    if issues == [] then Success(d) else Failure(issues)
  }

  datatype RegisterData = RegisterData(name: string, email: string, password: string, confirmPassword: string)

  /** The field checks of `registerSchema`, before the refinement; the name is checked, then trimmed. */
  function RegisterFieldIssues(d: RegisterData, isEmail: string -> bool): (r: seq<Issue>)
    ensures r == [] <==> && JsLength(d.name) >= 1 && JsLength(d.email) >= 1 && isEmail(d.email)
                         && JsLength(d.password) >= 6 && JsLength(d.confirmPassword) >= 1
    ensures forall i :: 0 <= i < |r| ==> r[i].message != PasswordsDiffer
  {
    MinLength("name", d.name, 1, NameRequired)
    + EmailIssues(d.email, isEmail)
    + MinLength("password", d.password, 6, PasswordTooShort)
    + MinLength("confirmPassword", d.confirmPassword, 1, ConfirmRequired)
  }

  /** `registerSchema.safeParse`: the parsed name is the trimmed one. */
  function ParseRegister(d: RegisterData, isEmail: string -> bool): (r: Parsed<RegisterData>)
    ensures r.Success? <==> RegisterFieldIssues(d, isEmail) == [] && d.password == d.confirmPassword
    ensures r.Success? ==> r.data == d.(name := Trim(d.name))
    ensures r.Failure? ==> (Issue("confirmPassword", PasswordsDiffer) in r.issues <==> d.password != d.confirmPassword)
  {
    var issues := RegisterFieldIssues(d, isEmail)
      + (if d.password == d.confirmPassword then [] else [Issue("confirmPassword", PasswordsDiffer)]);
    if issues == [] then Success(d.(name := Trim(d.name))) else Failure(issues)
  }

  /**
   * The name is measured before it is trimmed: a name of spaces passes and is
   * parsed as the empty name.
   */
  lemma BlankNameAccepted(email: string, isEmail: string -> bool)
    requires JsLength(email) >= 1 && isEmail(email)
    ensures ParseRegister(RegisterData(" ", email, "secret", "secret"), isEmail) == Success(RegisterData("", email, "secret", "secret"))
  {
    assert TrimStart(" ") == "";
    assert TrimEnd("") == "";
  }

  /** `profileSchema`'s input; the invoice day is a JavaScript number. */
  datatype ProfileData = ProfileData(fullName: string, avatarUrl: Option<string>, invoiceDay: Option<real>)

  /**
   * `.url().optional().or(z.literal(""))`: absent, empty, or a URL; otherwise the
   * URL check's issue is the one reported.
   */
  function AvatarIssues(url: Option<string>, isUrl: string -> bool): (r: seq<Issue>)
    ensures r == [] <==> url.None? || url.value == "" || isUrl(url.value)
    ensures r != [] ==> r == [Issue("avatar_url", UrlInvalid)]
  {
    if url.None? || isUrl(url.value) || url.value == "" then [] else [Issue("avatar_url", UrlInvalid)]
  }

  /** `z.number().min(1, ...).max(28, ...).optional()`; nothing asks for a whole number. */
  function DayIssues(day: Option<real>): (r: seq<Issue>)
    ensures r == [] <==> day.None? || 1.0 <= day.value <= 28.0
    ensures forall i :: 0 <= i < |r| ==> r[i] == Issue("invoice_payment_day", DayOutOfRange)
  {
    if day.None? then []
    else
      (if day.value < 1.0 then [Issue("invoice_payment_day", DayOutOfRange)] else [])
      + (if day.value > 28.0 then [Issue("invoice_payment_day", DayOutOfRange)] else [])
  }

  /** `profileSchema.safeParse`. */
  function ParseProfile(d: ProfileData, isUrl: string -> bool): (r: Parsed<ProfileData>)
    ensures r.Success? <==> && 3 <= JsLength(d.fullName) <= 100
                            && (d.avatarUrl.None? || d.avatarUrl.value == "" || isUrl(d.avatarUrl.value))
                            && (d.invoiceDay.None? || 1.0 <= d.invoiceDay.value <= 28.0)
    ensures r.Success? ==> r.data == d
  {
    var issues :=
      MinLength("full_name", d.fullName, 1, FullNameRequired)
      + MinLength("full_name", d.fullName, 3, FullNameTooShort)
      + MaxLength("full_name", d.fullName, 100, FullNameTooLong)
      + AvatarIssues(d.avatarUrl, isUrl)
      + DayIssues(d.invoiceDay);
    if issues == [] then Success(d) else Failure(issues)
  }

  /** An empty full name is reported twice: as missing and as too short. */
  lemma EmptyFullNameTwice(d: ProfileData, isUrl: string -> bool)
    requires d.fullName == ""
    ensures var r := ParseProfile(d, isUrl);
            r.Failure? && |r.issues| >= 2
            && r.issues[0] == Issue("full_name", FullNameRequired)
            && r.issues[1] == Issue("full_name", FullNameTooShort)
  {
  }

  /** A fractional day such as 1.5 passes. */
  lemma FractionalDayAccepted(isUrl: string -> bool)
    ensures ParseProfile(ProfileData("Ana Maria", None, Some(1.5)), isUrl).Success?
  {
    assert JsLength("Ana Maria") == 9;
  }

  /**
   * A whole invoice day the schema accepts names a day of every month, so that
   * setting it as the day of any month never carries into the next one.
   */
  lemma AcceptedDayFitsEveryMonth(d: ProfileData, isUrl: string -> bool, day: int, y: int, m: int)
    requires ParseProfile(d, isUrl).Success? && d.invoiceDay == Some(day as real)
    requires 1 <= m <= 12
    ensures Calendar.IsValid(Calendar.Date(y, m, day))
  {
  }

  /**
   * Every day the schema accepts, fraction or not, is used by the installment
   * planner as a whole day from 1 to 28.
   */
  lemma AcceptedDayIsUsable(d: ProfileData, isUrl: string -> bool)
    requires ParseProfile(d, isUrl).Success? && d.invoiceDay.Some?
    ensures 1 <= Installments.InvoiceDay(d.invoiceDay) <= 28
  {
  }
}

=== FILE: seqs.dfy ===
/** Sequence helpers shared by every module: `Array.prototype.filter` and `reduce`-sums. */
module Seqs {

  /** `s.filter(p)`: the elements of `s` satisfying `p`, in their original order. */
  function Filter<T>(s: seq<T>, p: T -> bool): (r: seq<T>)
    ensures |r| <= |s|
    ensures forall i :: 0 <= i < |r| ==> r[i] in s && p(r[i])
    ensures forall i :: 0 <= i < |s| && p(s[i]) ==> s[i] in r
  {
    if |s| == 0 then []
    else if p(s[0]) then [s[0]] + Filter(s[1..], p)
    else Filter(s[1..], p)
  }

  /** The complement of a predicate. */
  function Not<T>(p: T -> bool): T -> bool {
    x => !p(x)
  }

  /** `s.reduce((acc, x) => acc + f(x), 0)` over integers. */
  function Sum<T>(s: seq<T>, f: T -> int): int
  {
    if |s| == 0 then 0 else f(s[0]) + Sum(s[1..], f)
  }

  /** Filtering distributes over concatenation, so it keeps relative order. */
  lemma {:induction false} FilterAppend<T>(a: seq<T>, b: seq<T>, p: T -> bool)
    ensures Filter(a + b, p) == Filter(a, p) + Filter(b, p)
  {
    if |a| == 0 {
      assert a + b == b;
    } else {
      assert (a + b)[1..] == a[1..] + b;
      FilterAppend(a[1..], b, p);
    }
  }

  /** A filter every element passes is the identity. */
  lemma {:induction false} FilterAll<T>(s: seq<T>, p: T -> bool)
    requires forall i :: 0 <= i < |s| ==> p(s[i])
    ensures Filter(s, p) == s
  {
    if |s| > 0 {
      FilterAll(s[1..], p);
    }
  }

  /** A filter no element passes yields nothing. */
  lemma {:induction false} FilterNone<T>(s: seq<T>, p: T -> bool)
    requires forall i :: 0 <= i < |s| ==> !p(s[i])
    ensures Filter(s, p) == []
  {
    if |s| > 0 {
      FilterNone(s[1..], p);
    }
  }

  /** Filtering a list with one more item at the end. */
  lemma FilterSnoc<T>(s: seq<T>, p: T -> bool)
    requires |s| > 0
    ensures Filter(s, p) == Filter(s[..|s| - 1], p) + if p(s[|s| - 1]) then [s[|s| - 1]] else []
  {
    var n := |s| - 1;
    assert s == s[..n] + [s[n]];
    FilterAppend(s[..n], [s[n]], p);
  }

  lemma {:induction false} SumAppend<T>(a: seq<T>, b: seq<T>, f: T -> int)
    ensures Sum(a + b, f) == Sum(a, f) + Sum(b, f)
  {
    if |a| == 0 {
      assert a + b == b;
    } else {
      assert (a + b)[1..] == a[1..] + b;
      SumAppend(a[1..], b, f);
    }
  }

  /** Splitting a list by a predicate splits its sum. */
  lemma {:induction false} SumPartition<T>(s: seq<T>, f: T -> int, p: T -> bool)
    ensures Sum(Filter(s, p), f) + Sum(Filter(s, Not(p)), f) == Sum(s, f)
  {
    if |s| > 0 {
      SumPartition(s[1..], f, p);
    }
  }

  /** Splitting a list by a predicate splits its length. */
  lemma {:induction false} LengthPartition<T>(s: seq<T>, p: T -> bool)
    ensures |Filter(s, p)| + |Filter(s, Not(p))| == |s|
  {
    if |s| > 0 {
      LengthPartition(s[1..], p);
    }
  }

  /** The sum of the last element peeled off the end. */
  lemma {:induction false} SumSnoc<T>(s: seq<T>, x: T, f: T -> int)
    ensures Sum(s + [x], f) == Sum(s, f) + f(x)
  {
    SumAppend(s, [x], f);
  }

  /** Two functions that agree on every element give the same sum. */
  lemma {:induction false} SumCongruent<T>(s: seq<T>, f: T -> int, g: T -> int)
    requires forall i :: 0 <= i < |s| ==> f(s[i]) == g(s[i])
    ensures Sum(s, f) == Sum(s, g)
  {
    if |s| > 0 {
      SumCongruent(s[1..], f, g);
    }
  }

  /** A list whose every element weighs `c` sums to `|s| * c`. */
  lemma {:induction false} SumConstant<T>(s: seq<T>, f: T -> int, c: int)
    requires forall i :: 0 <= i < |s| ==> f(s[i]) == c
    ensures Sum(s, f) == |s| * c
  {
    if |s| > 0 {
      SumConstant(s[1..], f, c);
    }
  }

  /** Predicates that agree on every element filter alike. */
  lemma {:induction false} FilterCongruent<T>(s: seq<T>, p: T -> bool, q: T -> bool)
    requires forall i :: 0 <= i < |s| ==> p(s[i]) == q(s[i])
    ensures Filter(s, p) == Filter(s, q)
  {
    if |s| > 0 {
      FilterCongruent(s[1..], p, q);
    }
  }

  /** Filtering by `p` and then by `q` is filtering once by their conjunction `pq`. */
  lemma {:induction false} FilterTwice<T>(s: seq<T>, p: T -> bool, q: T -> bool, pq: T -> bool)
    requires forall i :: 0 <= i < |s| ==> pq(s[i]) == (p(s[i]) && q(s[i]))
    ensures Filter(Filter(s, p), q) == Filter(s, pq)
  {
    if |s| > 0 {
      FilterTwice(s[1..], p, q, pq);
    }
  }

  /** Two equally long lists whose elements pass `p` at the same positions keep equally many. */
  lemma {:induction false} FilterCountAligned<T, U>(a: seq<T>, b: seq<U>, p: T -> bool, q: U -> bool)
    requires |a| == |b|
    requires forall i :: 0 <= i < |a| ==> p(a[i]) == q(b[i])
    ensures |Filter(a, p)| == |Filter(b, q)|
  {
    if |a| > 0 {
      FilterCountAligned(a[1..], b[1..], p, q);
    }
  }
  /** Replacing one element changes the sum by the difference of the two weights. */
  lemma {:induction false} SumUpdate<T>(s: seq<T>, i: int, y: T, f: T -> int)
    requires 0 <= i < |s|
    ensures Sum(s[i := y], f) == Sum(s, f) - f(s[i]) + f(y)
  {
    if i == 0 {
      assert s[i := y][1..] == s[1..];
    } else {
      assert s[i := y][1..] == s[1..][i - 1 := y];
      SumUpdate(s[1..], i - 1, y, f);
    }
  }

  /** Two equally long lists whose weights agree position by position have the same sum. */
  lemma {:induction false} SumAligned<T, U>(a: seq<T>, b: seq<U>, f: T -> int, g: U -> int)
    requires |a| == |b|
    requires forall i :: 0 <= i < |a| ==> f(a[i]) == g(b[i])
    ensures Sum(a, f) == Sum(b, g)
  {
    if |a| > 0 {
      SumAligned(a[1..], b[1..], f, g);
    }
  }

  /** No two elements share a key. */
  predicate DistinctBy<T, K(==)>(s: seq<T>, key: T -> K) {
    forall i, j :: 0 <= i < j < |s| ==> key(s[i]) != key(s[j])
  }
}

=== FILE: session_guard.dfy ===
/**
 * The route decision of `updateSession`: which paths need a session, which are
 * only for signed-out visitors, which belong to the authentication callbacks, and
 * the response each combination of path and session gets. The session lookup,
 * cookies and the random nonce are inputs.
 */
module SessionGuard {
  import opened Wrappers
  import opened Text
  import Display

  const ProtectedRoutes: seq<string> := ["/", "/expenses", "/incomes", "/analytics", "/settings"]
  const PublicRoutes: seq<string> := ["/login", "/register"]
  const AuthCallbackRoutes: seq<string> := ["/auth/callback", "/auth/confirm"]
  const LoginPath := "/login"
  const HomePath := "/"

  /** The path is the route itself or lies below it. */
  predicate UnderRoute(path: string, route: string) {
    path == route || StartsWith(path, route + "/")
  }

  predicate IsProtected(path: string) {
    exists i :: 0 <= i < |ProtectedRoutes| && UnderRoute(path, ProtectedRoutes[i])
  }

  /** Exact membership, unlike the protected test. */
  predicate IsPublic(path: string) {
    path in PublicRoutes
  }

  /** A bare prefix test, with no `/` boundary. */
  predicate IsAuthCallback(path: string) {
    exists i :: 0 <= i < |AuthCallbackRoutes| && StartsWith(path, AuthCallbackRoutes[i])
  }

  datatype Header = Header(name: string, value: string)

  /**
   * What the middleware answers: continue to the page with the given headers, or
   * redirect to `path` with the `from` query parameter set to `from` (`None` when
   * the parameter is removed).
   */
  datatype Response = Next(headers: seq<Header>) | Redirect(path: string, from: Option<string>)

  /** The headers every page response carries; the policy text itself is an input. */
  function SecurityHeaders(csp: string, nonce: string): seq<Header> {
    [ Header("Content-Security-Policy", csp),
      Header("X-Content-Type-Options", "nosniff"),
      Header("X-Frame-Options", "DENY"),
      Header("X-XSS-Protection", "1; mode=block"),
      Header("Referrer-Policy", "strict-origin-when-cross-origin"),
      Header("x-nonce", nonce) ]
  }

  // The `pathname` setter of an `http(s)` URL, as the WHATWG URL Standard
  // defines it (the path start and path states of the basic URL parser).

  /** The characters the URL parser drops wherever they appear: tab, line feed and carriage return. */
  predicate IsDropped(c: char) {
    c == '\t' || c == '\n' || c == '\r'
  }

  /** A character that stays inside a path segment. */
  predicate IsPlain(c: char) {
    c != '/' && c != '\\' && !IsDropped(c)
  }

  /** The setter's input as the path state reads it: tab and newlines removed, `\` read as `/`. */
  function Prepare(s: string): (r: string)
    ensures forall i :: 0 <= i < |r| ==> r[i] != '\\' && !IsDropped(r[i])
  {
    if |s| == 0 then ""
    else if IsDropped(s[0]) then Prepare(s[1..])
    else [if s[0] == '\\' then '/' else s[0]] + Prepare(s[1..])
  }

  /** A text with no dropped character and no `\` is read as it is. */
  lemma {:induction false} PrepareKeeps(s: string)
    requires forall i :: 0 <= i < |s| ==> s[i] != '\\' && !IsDropped(s[i])
    ensures Prepare(s) == s
  {
    if |s| > 0 {
      PrepareKeeps(s[1..]);
      assert [s[0]] + s[1..] == s;
    }
  }

  const SingleDots: seq<string> := [".", "%2e", "%2E"]
  const DoubleDots: seq<string> := ["..", ".%2e", ".%2E", "%2e.", "%2E.", "%2e%2e", "%2e%2E", "%2E%2e", "%2E%2E"]

  predicate IsSingleDot(b: string) {
    b in SingleDots
  }

  predicate IsDoubleDot(b: string) {
    b in DoubleDots
  }

  /** A segment the setter keeps as it is: no dot segment, only plain characters. */
  predicate IsKeptSegment(b: string) {
    && !IsSingleDot(b) && !IsDoubleDot(b)
    && forall i :: 0 <= i < |b| ==> IsPlain(b[i])
  }

  /**
   * The path state over the input's segments: a `..` segment removes the last
   * segment kept so far, a `.` segment is skipped, and either of them, when it is
   * the last, leaves an empty final segment.
   */
  function Walk(path: seq<string>, segments: seq<string>): (r: seq<string>)
    ensures |segments| >= 1 ==> |r| >= 1
    decreases |segments|
  {
    if |segments| == 0 then path
    else
      var b := segments[0];
      var tail: seq<string> := if |segments| == 1 then [""] else [];
      var next :=
        if IsDoubleDot(b) then (if |path| > 0 then path[..|path| - 1] else path) + tail
        else if IsSingleDot(b) then path + tail
        else path + [b];
      Walk(next, segments[1..])
  }

  /** `url.pathname = s`, read back: a leading `/`, `\` as `/`, and the dot segments resolved. */
  function Pathname(s: string): (p: string)
    ensures |p| >= 1 && p[0] == '/'
  {
    var t := Prepare(s);
    var rest := if |t| > 0 && t[0] == '/' then t[1..] else t;
    "/" + Display.Join(Walk([], Display.Split(rest, '/')), '/')
  }

  /** A path already in the setter's form: a `/` and then kept segments. */
  predicate Clean(s: string) {
    && |s| >= 1 && s[0] == '/'
    && forall b :: b in Display.Split(s[1..], '/') ==> IsKeptSegment(b)
  }

  /** Kept segments pass through the path state unchanged. */
  lemma {:induction false} WalkKeeps(path: seq<string>, segments: seq<string>)
    requires forall i :: 0 <= i < |segments| ==> IsKeptSegment(segments[i])
    ensures Walk(path, segments) == path + segments
    decreases |segments|
  {
    if |segments| > 0 {
      WalkKeeps(path + [segments[0]], segments[1..]);
      assert path + [segments[0]] + segments[1..] == path + segments;
    }
  }

  /** Over segments of plain characters, the path state only ever holds kept segments. */
  lemma {:induction false} WalkClean(path: seq<string>, segments: seq<string>)
    requires forall i :: 0 <= i < |path| ==> IsKeptSegment(path[i])
    requires forall i, j :: 0 <= i < |segments| && 0 <= j < |segments[i]| ==> IsPlain(segments[i][j])
    ensures forall i :: 0 <= i < |Walk(path, segments)| ==> IsKeptSegment(Walk(path, segments)[i])
    decreases |segments|
  {
    if |segments| > 0 {
      var b := segments[0];
      var tail: seq<string> := if |segments| == 1 then [""] else [];
      assert IsKeptSegment("");
      var next :=
        if IsDoubleDot(b) then (if |path| > 0 then path[..|path| - 1] else path) + tail
        else if IsSingleDot(b) then path + tail
        else path + [b];
      assert Walk(path, segments) == Walk(next, segments[1..]);
      WalkClean(next, segments[1..]);
    }
  }

  /** A clean path is its own pathname. */
  lemma PathnameOfClean(s: string)
    requires Clean(s)
    ensures Pathname(s) == s
  {
    var rest := s[1..];
    var segments := Display.Split(rest, '/');
    Display.SplitJoin(rest, '/');
    forall i | 0 <= i < |s| ensures s[i] != '\\' && !IsDropped(s[i]) {
      if i > 0 {
        Display.JoinChars(segments, '/', i - 1);
        if rest[i - 1] != '/' {
          var k :| 0 <= k < |segments| && rest[i - 1] in segments[k];
          assert IsKeptSegment(segments[k]);
        }
      }
    }
    PrepareKeeps(s);
    WalkKeeps([], segments);
    assert [] + segments == segments;
    assert "/" + rest == s;
  }

  /** Whatever the input, the setter produces a clean path. */
  lemma PathnameClean(s: string)
    ensures Clean(Pathname(s))
  {
    var t := Prepare(s);
    var rest := if |t| > 0 && t[0] == '/' then t[1..] else t;
    var segments := Display.Split(rest, '/');
    forall i, j | 0 <= i < |segments| && 0 <= j < |segments[i]| ensures IsPlain(segments[i][j]) {
      Display.SplitChars(rest, '/', i, segments[i][j]);
    }
    var w := Walk([], segments);
    WalkClean([], segments);
    forall i | 0 <= i < |w| ensures '/' !in w[i] {
      assert IsKeptSegment(w[i]);
    }
    Display.JoinSplit(w, '/');
    assert Pathname(s)[1..] == Display.Join(w, '/');
  }

  /** Setting the pathname to what it reads back changes nothing. */
  lemma PathnameIdempotent(s: string)
    ensures Pathname(Pathname(s)) == Pathname(s)
  {
    PathnameClean(s);
    PathnameOfClean(Pathname(s));
  }

  // What becomes of a redirect target outside this code: `NextResponse.redirect`
  // writes the URL without one final `/`, and with the default `trailingSlash: false`
  // the framework answers a request for a path ending in `/` with a redirect to the
  // path without it, before any middleware runs.

  /** A path other than `/` that ends in `/`. */
  predicate EndsInSlash(p: string) {
    |p| > 1 && p[|p| - 1] == '/'
  }

  /** The path in the `Location` of a redirect to `p`: one final `/` removed, `/` itself kept. */
  function Location(p: string): (q: string)
    ensures |q| <= |p| && q == p[..|q|]
  {
    if EndsInSlash(p) then p[..|p| - 1] else p
  }

  /** The path the middleware sees when a redirect to `p` is followed: every final `/` removed, `/` itself kept. */
  function Landing(p: string): (q: string)
    ensures !EndsInSlash(q)
    ensures |q| <= |p| && q == p[..|q|]
    ensures forall i :: |q| <= i < |p| ==> p[i] == '/'
    decreases |p|
  {
    if EndsInSlash(p) then Landing(p[..|p| - 1]) else p
  }

  /** The `Location` a redirect carries lands on the same page as its target. */
  lemma LandingOfLocation(p: string)
    ensures Landing(Location(p)) == Landing(p)
    ensures Landing(Landing(p)) == Landing(p)
  {
  }

  /** A path as the middleware sees it: in the setter's form, and with no final `/` unless it is `/`. */
  predicate Settled(s: string) {
    Clean(s) && !EndsInSlash(s)
  }

  /** No public page ends in `/`, so each is a page the middleware sees as it is. */
  lemma PublicLands(p: string)
    requires IsPublic(p)
    ensures !EndsInSlash(p) && Landing(p) == p
  {
    assert p == "/login" || p == "/register";
  }

  /**
   * `url.pathname = from && from !== "/login" && from !== "/register" ? from : "/"`:
   * the comparison is made on `from` as given, and the setter then normalises it.
   */
  function ReturnPath(from: Option<string>): (p: string)
    ensures |p| >= 1 && p[0] == '/'
    ensures Given(from) && !IsPublic(from.value) ==> p == Pathname(from.value)
    ensures !Given(from) || IsPublic(from.value) ==> p == HomePath
    ensures Given(from) && Clean(from.value) && !IsPublic(from.value) ==> p == from.value
    ensures from.None? || Clean(from.value) ==> !IsPublic(p)
    ensures from.None? || Settled(from.value) ==> !IsPublic(Landing(p))
  {
    if Given(from) && from.value != "/login" && from.value != "/register" then
      if Clean(from.value) then
        PathnameOfClean(from.value);
        Pathname(from.value)
      else Pathname(from.value)
    else HomePath
  }

  /**
   * `updateSession` after the session lookup: `signedIn` says whether a user came
   * back, `from` is the request's `from` query parameter.
   */
  function Decide(path: string, signedIn: bool, from: Option<string>, csp: string, nonce: string): (r: Response)
    ensures IsAuthCallback(path) ==> r == Next([])
    ensures !IsAuthCallback(path) && IsProtected(path) && !signedIn ==> r == Redirect(LoginPath, Some(path))
    ensures !IsAuthCallback(path) && IsPublic(path) && signedIn ==> r == Redirect(ReturnPath(from), None)
    ensures r.Redirect? && !signedIn ==> r.path == LoginPath
    ensures r.Redirect? && signedIn ==> r.from.None? && |r.path| >= 1 && r.path[0] == '/'
    ensures r.Redirect? && signedIn && (from.None? || Clean(from.value)) ==> !IsPublic(r.path)
    ensures r.Redirect? && signedIn && (from.None? || Settled(from.value)) ==> !IsPublic(Landing(r.path))
    ensures r.Next? && !IsAuthCallback(path) ==> r.headers == SecurityHeaders(csp, nonce)
  {
    if IsAuthCallback(path) then Next([])
    else if IsProtected(path) && !signedIn then Redirect(LoginPath, Some(path))
    else if IsPublic(path) && signedIn then Redirect(ReturnPath(from), None)
    else Next(SecurityHeaders(csp, nonce))
  }

  /** `/login`, `/register` and `/profile` are not protected, although `/` is. */
  lemma UnprotectedPages()
    ensures !IsProtected("/login") && !IsProtected("/register") && !IsProtected("/profile")
    ensures IsProtected("/") && IsProtected("/expenses/12") && !IsProtected("/expensesX")
  {
    NotUnder("/login");
    NotUnder("/register");
    NotUnder("/profile");
    assert UnderRoute("/", ProtectedRoutes[0]);
    assert UnderRoute("/expenses/12", ProtectedRoutes[1]) by {
      assert "/expenses/12"[..10] == "/expenses/";
    }
    NotUnder("/expensesX");
  }

  /** A single-segment path that is none of the protected routes is not protected. */
  lemma NotUnder(path: string)
    requires |path| >= 2 && path[0] == '/' && path[1] != '/'
    requires forall c :: 0 <= c < |path| ==> path[c] != '/' || c == 0
    requires path !in ProtectedRoutes
    ensures !IsProtected(path)
  {
    forall i | 0 <= i < |ProtectedRoutes| ensures !UnderRoute(path, ProtectedRoutes[i]) {
      var route := ProtectedRoutes[i];
      var pre := route + "/";
      if |pre| <= |path| {
        assert path[..|pre|][|pre| - 1] != pre[|pre| - 1];
      }
    }
  }

  /** Exact membership keeps the two lists apart: no public path is protected. */
  lemma PublicNotProtected(path: string)
    requires IsPublic(path)
    ensures !IsProtected(path) && !IsAuthCallback(path)
  {
    UnprotectedPages();
    assert "/login" != "/auth/callback"[..6];
    if path == "/register" {
      assert !StartsWith(path, AuthCallbackRoutes[0]) && !StartsWith(path, AuthCallbackRoutes[1]);
    }
  }

  /** The callback test is a bare prefix: `/auth/confirmed` also skips every check. */
  lemma CallbackPrefixLoose(signedIn: bool, from: Option<string>, csp: string, nonce: string)
    ensures IsAuthCallback("/auth/confirmed")
    ensures Decide("/auth/confirmed", signedIn, from, csp, nonce) == Next([])
  {
    assert StartsWith("/auth/confirmed", AuthCallbackRoutes[1]);
  }

  /**
   * Following a redirect never leads to a second one when `from` is absent or
   * settled, as every `from` the guard writes itself is: the target needs no
   * redirect of the framework's, the visitor sent to the login page is let in
   * there, and a signed-in user sent away from a public page lands on a page they
   * may see.
   */
  lemma RedirectSettles(path: string, signedIn: bool, from: Option<string>, csp: string, nonce: string)
    requires Decide(path, signedIn, from, csp, nonce).Redirect?
    requires from.None? || Settled(from.value)
    ensures var r := Decide(path, signedIn, from, csp, nonce);
            Landing(r.path) == r.path && Decide(r.path, signedIn, r.from, csp, nonce).Next?
  {
    UnprotectedPages();
    var r := Decide(path, signedIn, from, csp, nonce);
    if !signedIn {
      assert r.path == LoginPath;
      assert !IsAuthCallback(LoginPath) by {
        assert !StartsWith(LoginPath, AuthCallbackRoutes[0]) && !StartsWith(LoginPath, AuthCallbackRoutes[1]);
      }
    }
  }

  /** A one-segment path with no dot segment and only plain characters is read back with a `/` in front. */
  lemma OneSegment(b: string)
    requires IsKeptSegment(b)
    ensures Pathname(b) == "/" + b && Pathname("/" + b) == "/" + b
  {
    Display.SplitJoin(b, '/');
    assert Display.Split(b, '/') == [b];
    PrepareKeeps(b);
    WalkKeeps([], [b]);
    assert [] + [b] == [b];
    PrepareKeeps("/" + b);
    assert ("/" + b)[1..] == b;
  }

  /** A segment behind a `\` is read back behind a `/`. */
  lemma BackslashSegment(b: string)
    requires IsKeptSegment(b)
    ensures Pathname("\\" + b) == "/" + b
  {
    OneSegment(b);
    PrepareKeeps(b);
    assert ("\\" + b)[1..] == b;
    assert Prepare("\\" + b) == "/" + b;
  }

  /** `login` is a kept segment, and `/login` is a public page. */
  lemma LoginSegment()
    ensures IsKeptSegment("login") && IsPublic("/" + "login")
  {
    assert "/" + "login" == LoginPath;
  }

  /** The path state over a segment, `..` and another segment keeps only the last. */
  lemma WalkDotDot(x: string, b: string)
    requires IsKeptSegment(x) && IsKeptSegment(b)
    ensures Walk([], [x, "..", b]) == [b]
  {
    assert IsDoubleDot("..");
    assert Walk([], [x, "..", b]) == Walk([x], ["..", b]);
    assert ["..", b][1..] == [b];
    assert [x][..0] + [] == [];
    assert Walk([x], ["..", b]) == Walk([], [b]);
  }

  /** `x/../b` splits into its three segments. */
  lemma SplitDotDot(x: string, b: string)
    requires '/' !in x && '/' !in b
    ensures Display.Split(x + "/../" + b, '/') == [x, "..", b]
  {
    assert x + "/../" + b == x + ['/'] + (".." + ['/'] + b);
    Display.SplitWord(x, '/', ".." + ['/'] + b);
    Display.SplitWord("..", '/', b);
    Display.SplitJoin(b, '/');
  }

  /** A `..` segment removes the segment before it: `/x/../b` is read back as `/b`. */
  lemma DotDotCancels(x: string, b: string)
    requires IsKeptSegment(x) && IsKeptSegment(b)
    ensures Pathname("/" + x + "/../" + b) == "/" + b
  {
    var s := "/" + x + "/../" + b;
    forall i | 0 <= i < |s| ensures s[i] != '\\' && !IsDropped(s[i]) {
      if 1 <= i < 1 + |x| {
        assert s[i] == x[i - 1];
      } else if i >= |x| + 5 {
        assert s[i] == b[i - |x| - 5];
      }
    }
    PrepareKeeps(s);
    assert '/' !in x && '/' !in b;
    SplitDotDot(x, b);
    assert s[1..] == x + "/../" + b;
    WalkDotDot(x, b);
  }

  /** `/x/../register` is read back as the register page. */
  lemma DotDotRegister()
    ensures Pathname("/x/../register") == "/register"
  {
    assert IsKeptSegment("x");
    assert IsKeptSegment("register");
    DotDotCancels("x", "register");
    assert "/" + "x" + "/../" + "register" == "/x/../register";
  }

  /** A kept segment, bare or behind a `\`, passes the raw comparison and is read back behind a `/`. */
  lemma ReturnPathOfSegment(b: string)
    requires IsKeptSegment(b) && |b| > 0
    ensures ReturnPath(Some(b)) == "/" + b
    ensures ReturnPath(Some("\\" + b)) == "/" + b
  {
    OneSegment(b);
    BackslashSegment(b);
    assert b[0] != '/' && ("\\" + b)[0] != '/';
    assert !IsPublic(b) && !IsPublic("\\" + b);
  }

  /**
   * As written, a signed-in user on a public page whose `from` names a public page
   * without its leading `/` (such as `/login?from=login`; see `LoginSegment`) is
   * sent to that public page, and from there to `/`: two redirects in a row. So
   * is one whose `from` writes it with a `\`.
   */
  lemma ReturnToLoginRedirectsAgain(b: string, csp: string, nonce: string)
    requires IsKeptSegment(b) && IsPublic("/" + b)
    ensures Decide("/" + b, true, Some(b), csp, nonce) == Redirect("/" + b, None)
    ensures Decide("/" + b, true, Some("\\" + b), csp, nonce) == Redirect("/" + b, None)
    ensures Decide("/" + b, true, None, csp, nonce) == Redirect(HomePath, None)
  {
    assert |b| > 0;
    ReturnPathOfSegment(b);
    PublicNotProtected("/" + b);
  }

  /** A public page's segment followed by `/` is in the setter's form, and the page itself is settled. */
  lemma SlashAfterSegment(b: string)
    requires IsKeptSegment(b) && IsPublic("/" + b)
    ensures Clean("/" + b + "/") && Settled("/" + b)
    ensures EndsInSlash("/" + b + "/") && Landing("/" + b + "/") == "/" + b
  {
    var t := "/" + b + "/";
    assert t[1..] == b + ['/'] + "";
    Display.SplitWord(b, '/', "");
    assert Display.Split("", '/') == [""];
    assert IsKeptSegment("");
    assert ("/" + b)[1..] == b;
    Display.SplitJoin(b, '/');
    assert Display.Split(b, '/') == [b];
    PublicLands("/" + b);
    assert t[..|t| - 1] == "/" + b;
  }

  /**
   * As written, a signed-in user on a public page whose `from` names that page
   * with a final `/` (such as `/login?from=/login/`) is sent to it: the `from` is
   * in the setter's form and differs from `/login`, but the redirect lands on
   * `/login`, and from there the user is sent to `/`.
   */
  lemma TrailingSlashRedirectsAgain(b: string, csp: string, nonce: string)
    requires IsKeptSegment(b) && IsPublic("/" + b)
    ensures Clean("/" + b + "/")
    ensures var r := Decide("/" + b, true, Some("/" + b + "/"), csp, nonce);
            && r == Redirect("/" + b + "/", None)
            && Location(r.path) == "/" + b && Landing(r.path) == "/" + b
            && Decide(Landing(r.path), true, r.from, csp, nonce) == Redirect(HomePath, None)
  {
    SlashAfterSegment(b);
    var f := "/" + b + "/";
    PathnameOfClean(f);
    PublicLands("/" + b);
    assert f != "/login" && f != "/register";
    assert ReturnPath(Some(f)) == f;
    assert f[..|f| - 1] == "/" + b;
    PublicNotProtected("/" + b);
  }

  /**
   * The return target as evidently intended: the public pages are ruled out on
   * the page the redirect lands on, after the setter has normalised `from`.
   */
  function ReturnPathChecked(from: Option<string>): (p: string)
    ensures Clean(p) && !IsPublic(p) && !IsPublic(Landing(p))
    ensures Given(from) && !IsPublic(Landing(Pathname(from.value))) ==> p == Pathname(from.value)
    ensures !Given(from) || IsPublic(Landing(Pathname(from.value))) ==> p == HomePath
  {
    if Given(from) && !IsPublic(Landing(Pathname(from.value))) then
      PathnameClean(from.value);
      assert !IsPublic(Pathname(from.value)) by {
        if IsPublic(Pathname(from.value)) {
          PublicLands(Pathname(from.value));
        }
      }
      Pathname(from.value)
    else
      assert Display.Split(HomePath[1..], '/') == [""];
      HomePath
  }

  /** For an absent or settled `from`, the intended target is the one the guard computes. */
  lemma CheckedAgreesOnSettled(from: Option<string>)
    requires from.None? || Settled(from.value)
    ensures ReturnPathChecked(from) == ReturnPath(from)
  {
    if from.Some? && Settled(from.value) {
      PathnameOfClean(from.value);
    }
  }

  /** `updateSession` with the intended return target. */
  function DecideChecked(path: string, signedIn: bool, from: Option<string>, csp: string, nonce: string): (r: Response)
    ensures IsAuthCallback(path) ==> r == Next([])
    ensures !IsAuthCallback(path) && IsProtected(path) && !signedIn ==> r == Redirect(LoginPath, Some(path))
    ensures !IsAuthCallback(path) && IsPublic(path) && signedIn ==> r == Redirect(ReturnPathChecked(from), None)
    ensures r.Redirect? && !signedIn ==> r.path == LoginPath
    ensures r.Redirect? && signedIn ==> r.from.None? && !IsPublic(r.path) && !IsPublic(Landing(r.path))
    ensures r.Next? && !IsAuthCallback(path) ==> r.headers == SecurityHeaders(csp, nonce)
  {
    if IsAuthCallback(path) then Next([])
    else if IsProtected(path) && !signedIn then Redirect(LoginPath, Some(path))
    else if IsPublic(path) && signedIn then Redirect(ReturnPathChecked(from), None)
    else Next(SecurityHeaders(csp, nonce))
  }

  /**
   * With the intended target, following a redirect never leads to a second one of
   * the middleware's, whatever `from` holds: neither on the target itself nor on
   * the page the framework's own redirects land on.
   */
  lemma RedirectSettlesChecked(path: string, signedIn: bool, from: Option<string>, csp: string, nonce: string)
    requires DecideChecked(path, signedIn, from, csp, nonce).Redirect?
    ensures var r := DecideChecked(path, signedIn, from, csp, nonce);
            && DecideChecked(r.path, signedIn, r.from, csp, nonce).Next?
            && DecideChecked(Landing(r.path), signedIn, r.from, csp, nonce).Next?
  {
    UnprotectedPages();
    var r := DecideChecked(path, signedIn, from, csp, nonce);
    if !signedIn {
      assert r.path == LoginPath;
      PublicLands(LoginPath);
      assert !IsAuthCallback(LoginPath) by {
        assert !StartsWith(LoginPath, AuthCallbackRoutes[0]) && !StartsWith(LoginPath, AuthCallbackRoutes[1]);
      }
    }
  }
}

=== FILE: sorting.dfy ===
/**
 * `Array.prototype.sort` with a comparator, as a stable insertion sort: `above(x, y)`
 * says that `x` must come before `y`; elements neither of which is above the other
 * keep their relative order.
 */
module Sorting {
  import opened Seqs

  /** `above` is asymmetric and its complement transitive, as every comparator the components pass is. */
  ghost predicate StrictWeakOrder<T(!new)>(above: (T, T) -> bool) {
    && (forall x, y :: above(x, y) ==> !above(y, x))
    && (forall x, y, z :: above(x, z) ==> above(x, y) || above(y, z))
  }

  /** No element is above one placed before it. */
  predicate SortedBy<T>(s: seq<T>, above: (T, T) -> bool) {
    forall i, j :: 0 <= i < j < |s| ==> !above(s[j], s[i])
  }

  /** Where `x` goes: after the leading elements above it. */
  function InsertPos<T>(x: T, s: seq<T>, above: (T, T) -> bool): (k: nat)
    ensures k <= |s|
    ensures forall i :: 0 <= i < k ==> above(s[i], x)
    ensures k < |s| ==> !above(s[k], x)
  {
    if |s| == 0 || !above(s[0], x) then 0 else 1 + InsertPos(x, s[1..], above)
  }

  function Insert<T>(x: T, s: seq<T>, above: (T, T) -> bool): (r: seq<T>)
    ensures |r| == |s| + 1
    ensures multiset(r) == multiset(s) + multiset{x}
  {
    var k := InsertPos(x, s, above);
    assert s == s[..k] + s[k..];
    s[..k] + [x] + s[k..]
  }

  /** `s.sort(comparator)`: the sorted tail, with the head inserted in front of its equals. */
  function SortBy<T>(s: seq<T>, above: (T, T) -> bool): (r: seq<T>)
    ensures |r| == |s|
    ensures multiset(r) == multiset(s)
  {
    if |s| == 0 then [] else
      assert s == [s[0]] + s[1..];
      Insert(s[0], SortBy(s[1..], above), above)
  }

  /** Every element of the sorted list comes from the input, and the other way round. */
  lemma SortByMembers<T>(s: seq<T>, above: (T, T) -> bool)
    ensures forall x :: x in SortBy(s, above) <==> x in s
  {
    var r := SortBy(s, above);
    forall x ensures x in r <==> x in s {
      assert x in r <==> x in multiset(r);
      assert x in s <==> x in multiset(s);
    }
  }

  lemma InsertSorted<T(!new)>(x: T, s: seq<T>, above: (T, T) -> bool)
    requires StrictWeakOrder(above) && SortedBy(s, above)
    ensures SortedBy(Insert(x, s, above), above)
  {
    var k := InsertPos(x, s, above);
    var r := Insert(x, s, above);
    assert forall i :: 0 <= i < |r| ==> r[i] == if i < k then s[i] else if i == k then x else s[i - 1];
    forall i, j | 0 <= i < j < |r| ensures !above(r[j], r[i]) {
      if j == k {
        assert above(s[i], x);
      } else if i == k && j - 1 > k {
        assert !above(s[j - 1], s[k]);
      }
    }
  }

  /** With a strict weak order the result is sorted. */
  lemma {:induction false} SortBySorted<T(!new)>(s: seq<T>, above: (T, T) -> bool)
    requires StrictWeakOrder(above)
    ensures SortedBy(SortBy(s, above), above)
  {
    if |s| > 0 {
      SortBySorted(s[1..], above);
      InsertSorted(s[0], SortBy(s[1..], above), above);
    }
  }

  lemma InsertSum<T>(x: T, s: seq<T>, above: (T, T) -> bool, f: T -> int)
    ensures Sum(Insert(x, s, above), f) == f(x) + Sum(s, f)
  {
    var k := InsertPos(x, s, above);
    assert s == s[..k] + s[k..];
    SumAppend(s[..k], s[k..], f);
    SumAppend(s[..k] + [x], s[k..], f);
    SumAppend(s[..k], [x], f);
  }

  /** Sorting moves elements around without changing any sum over them. */
  lemma {:induction false} SortBySum<T>(s: seq<T>, above: (T, T) -> bool, f: T -> int)
    ensures Sum(SortBy(s, above), f) == Sum(s, f)
  {
    if |s| > 0 {
      SortBySum(s[1..], above, f);
      InsertSum(s[0], SortBy(s[1..], above), above, f);
    }
  }

  lemma InsertDistinct<T, K>(x: T, s: seq<T>, above: (T, T) -> bool, key: T -> K)
    requires DistinctBy(s, key)
    requires forall i :: 0 <= i < |s| ==> key(s[i]) != key(x)
    ensures DistinctBy(Insert(x, s, above), key)
  {
    var k := InsertPos(x, s, above);
    var r := Insert(x, s, above);
    assert forall i :: 0 <= i < |r| ==> r[i] == if i < k then s[i] else if i == k then x else s[i - 1];
  }

  /** Sorting keeps keys distinct. */
  lemma {:induction false} SortByDistinct<T, K>(s: seq<T>, above: (T, T) -> bool, key: T -> K)
    requires DistinctBy(s, key)
    ensures DistinctBy(SortBy(s, above), key)
  {
    if |s| > 0 {
      var t := SortBy(s[1..], above);
      SortByDistinct(s[1..], above, key);
      forall i | 0 <= i < |t| ensures key(t[i]) != key(s[0]) {
        assert t[i] in multiset(t);
        assert t[i] in multiset(s[1..]);
        var j :| 0 <= j < |s[1..]| && s[1..][j] == t[i];
        assert s[j + 1] == t[i];
      }
      InsertDistinct(s[0], t, above, key);
    }
  }
  /** An item's key is still present after sorting. */
  lemma SortByKeepsKey<T, K>(s: seq<T>, above: (T, T) -> bool, key: T -> K, i: int)
    requires 0 <= i < |s|
    ensures exists j :: 0 <= j < |SortBy(s, above)| && key(SortBy(s, above)[j]) == key(s[i])
  {
    var r := SortBy(s, above);
    assert s[i] in multiset(s);
    assert s[i] in multiset(r);
    var j :| 0 <= j < |r| && r[j] == s[i];
    assert key(r[j]) == key(s[i]);
  }

  /** A key present after sorting was present before. */
  lemma SortByAddsNoKey<T, K>(s: seq<T>, above: (T, T) -> bool, key: T -> K, i: int)
    requires 0 <= i < |SortBy(s, above)|
    ensures exists j :: 0 <= j < |s| && key(s[j]) == key(SortBy(s, above)[i])
  {
    var r := SortBy(s, above);
    assert r[i] in multiset(r);
    assert r[i] in multiset(s);
    var j :| 0 <= j < |s| && s[j] == r[i];
    assert key(s[j]) == key(r[i]);
  }

  /** Sorting keeps the set of keys present. */
  lemma SortByKeys<T, K>(s: seq<T>, above: (T, T) -> bool, key: T -> K, k: K)
    ensures (exists i :: 0 <= i < |SortBy(s, above)| && key(SortBy(s, above)[i]) == k)
            <==> (exists i :: 0 <= i < |s| && key(s[i]) == k)
  {
    if exists i :: 0 <= i < |SortBy(s, above)| && key(SortBy(s, above)[i]) == k {
      var i :| 0 <= i < |SortBy(s, above)| && key(SortBy(s, above)[i]) == k;
      SortByAddsNoKey(s, above, key, i);
    }
    if exists i :: 0 <= i < |s| && key(s[i]) == k {
      var i :| 0 <= i < |s| && key(s[i]) == k;
      SortByKeepsKey(s, above, key, i);
    }
  }
}

=== FILE: text.dfy ===
/**
 * String helpers with JavaScript semantics: `String.prototype.trim`, `String(n)`,
 * `padStart(2, "0")`, UTF-16 `length`, and the code-unit order used by `Array.prototype.sort`.
 */
module Text {

  /** The characters `trim` removes: ECMAScript WhiteSpace and LineTerminator. */
  predicate IsJsSpace(c: char) {
    || c == ' ' || c == '\t' || c == '\n' || c == '\r'
    || c == '\U{000B}' || c == '\U{000C}' || c == '\U{00A0}' || c == '\U{1680}'
    || ('\U{2000}' <= c <= '\U{200A}')
    || c == '\U{2028}' || c == '\U{2029}' || c == '\U{202F}' || c == '\U{205F}'
    || c == '\U{3000}' || c == '\U{FEFF}'
  }

  /** Every character of `s` is white space (the empty string included). */
  predicate IsBlank(s: string) {
    forall i :: 0 <= i < |s| ==> IsJsSpace(s[i])
  }

  function TrimStart(s: string): (r: string)
    ensures |r| <= |s| && r == s[|s| - |r|..]
    ensures IsBlank(s[..|s| - |r|])
    ensures |r| > 0 ==> !IsJsSpace(r[0])
  {
    if |s| > 0 && IsJsSpace(s[0]) then TrimStart(s[1..]) else s
  }

  function TrimEnd(s: string): (r: string)
    ensures |r| <= |s| && r == s[..|r|]
    ensures IsBlank(s[|r|..])
    ensures |r| > 0 ==> !IsJsSpace(r[|r| - 1])
  {
    if |s| > 0 && IsJsSpace(s[|s| - 1]) then TrimEnd(s[..|s| - 1]) else s
  }

  /** `s.trim()`: `s` without its leading and trailing white space. */
  function Trim(s: string): (r: string)
    ensures r == "" <==> IsBlank(s)
    ensures |r| > 0 ==> !IsJsSpace(r[0]) && !IsJsSpace(r[|r| - 1])
  {
    var t := TrimStart(s);
    var r := TrimEnd(t);
    TrimFacts(s, t, r);
    r
  }

  lemma TrimFacts(s: string, t: string, r: string)
    requires t == TrimStart(s) && r == TrimEnd(t)
    ensures r == "" <==> IsBlank(s)
    ensures |r| > 0 ==> !IsJsSpace(r[0])
  {
    var k := |s| - |t|;
    assert t == s[k..];
    if r == "" {
      assert IsBlank(t) by {
        assert t[|r|..] == t;
      }
      assert t == "";
      assert s[..k] == s;
    } else {
      assert r[0] == t[0] == s[k];
    }
  }

  /** `s.startsWith(prefix)`. */
  predicate StartsWith(s: string, prefix: string) {
    |prefix| <= |s| && s[..|prefix|] == prefix
  }

  /** The UTF-16 length JavaScript reports: characters outside the BMP count twice. */
  function JsLength(s: string): (n: nat)
    ensures |s| <= n <= 2 * |s|
  {
    if |s| == 0 then 0 else (if s[0] as int >= 0x1_0000 then 2 else 1) + JsLength(s[1..])
  }

  predicate IsDigit(c: char) {
    '0' <= c <= '9'
  }

  function DigitChar(d: int): (c: char)
    requires 0 <= d <= 9
    ensures IsDigit(c) && c as int - '0' as int == d
  {
    ('0' as int + d) as char
  }

  /** The value of a string of decimal digits (0 for the empty string). */
  function DigitsValue(s: string): (n: nat)
    requires forall i :: 0 <= i < |s| ==> IsDigit(s[i])
  {
    if |s| == 0 then 0
    else
      assert IsDigit(s[|s| - 1]);
      10 * DigitsValue(s[..|s| - 1]) + (s[|s| - 1] as int - '0' as int)
  }

  /** `String(n)` for a non-negative integer: its decimal digits, no leading zeros. */
  function NatToString(n: nat): (r: string)
    ensures |r| >= 1
    ensures forall i :: 0 <= i < |r| ==> IsDigit(r[i])
    ensures |r| > 1 ==> r[0] != '0'
    ensures n < 10 <==> |r| == 1
  {
    if n < 10 then [DigitChar(n)] else NatToString(n / 10) + [DigitChar(n % 10)]
  }

  /** Reading back the digits `NatToString` writes gives the number. */
  lemma {:induction false} NatToStringRoundTrip(n: nat)
    ensures DigitsValue(NatToString(n)) == n
  {
    var r := NatToString(n);
    if n >= 10 {
      NatToStringRoundTrip(n / 10);
      assert r[..|r| - 1] == NatToString(n / 10);
    }
  }

  /** `NatToString` is injective: different numbers print differently. */
  lemma NatToStringInjective(a: nat, b: nat)
    requires NatToString(a) == NatToString(b)
    ensures a == b
  {
    NatToStringRoundTrip(a);
    NatToStringRoundTrip(b);
  }

  /** `String(n).padStart(2, "0")`. */
  function Pad2(n: nat): (r: string)
    ensures n < 100 ==> |r| == 2
    ensures forall i :: 0 <= i < |r| ==> IsDigit(r[i])
  {
    var s := NatToString(n);
    if |s| < 2 then "0" + s else s
  }

  /** Code-unit lexicographic order, as `Array.prototype.sort` compares strings. */
  predicate LexLess(a: string, b: string)
    decreases |a|
  {
    if |a| == 0 then |b| > 0
    else if |b| == 0 then false
    else if a[0] != b[0] then a[0] < b[0]
    else LexLess(a[1..], b[1..])
  }

  lemma {:induction false} LexLessIrreflexive(a: string)
    ensures !LexLess(a, a)
    decreases |a|
  {
    if |a| > 0 {
      LexLessIrreflexive(a[1..]);
    }
  }

  lemma {:induction false} LexLessTransitive(a: string, b: string, c: string)
    requires LexLess(a, b) && LexLess(b, c)
    ensures LexLess(a, c)
    decreases |a|
  {
    if |a| > 0 && |b| > 0 && |c| > 0 && a[0] == b[0] && b[0] == c[0] {
      LexLessTransitive(a[1..], b[1..], c[1..]);
    }
  }

  lemma {:induction false} LexLessTotal(a: string, b: string)
    ensures a == b || LexLess(a, b) || LexLess(b, a)
    decreases |a|
  {
    if |a| > 0 && |b| > 0 && a[0] == b[0] {
      LexLessTotal(a[1..], b[1..]);
      if a[1..] == b[1..] {
        assert a == [a[0]] + a[1..] && b == [b[0]] + b[1..];
      }
    }
  }

  lemma LexLessAsymmetric(a: string, b: string)
    requires LexLess(a, b)
    ensures !LexLess(b, a)
  {
    if LexLess(b, a) {
      LexLessTransitive(a, b, a);
      LexLessIrreflexive(a);
    }
  }
}

=== FILE: transactions.dfy ===
/**
 * The expense and income records the client components read, and the `YYYY-MM`
 * month key they bucket them by.
 */
module Transactions {
  import opened Calendar
  import opened Text
  import JsNumber

  /**
   * One expense or income as the components see it. `categoryId` is what the
   * analytics group by, `category` the name the dashboard groups by, `title` the
   * description shown; the amount is in cents and `at` the parsed `date` string.
   */
  datatype Txn = Txn(id: int, categoryId: int, category: string, title: string, amount: int, at: DateTime)

  function Amount(t: Txn): int { t.amount }
  function NoWeight(t: Txn): int { 0 }
  function CategoryIdOf(t: Txn): int { t.categoryId }
  function CategoryOf(t: Txn): string { t.category }

  /** `String(year)`. */
  function YearText(y: int): (s: string)
    ensures y >= 0 ==> s == NatToString(y)
    ensures y < 0 ==> s == "-" + NatToString(-y)
  {
    if y >= 0 then NatToString(y) else "-" + NatToString(-y)
  }

  /**
   * `${date.getFullYear()}-${String(date.getMonth() + 1).padStart(2, "0")}`. The
   * month is read through the month ordinal, which for a real calendar day is the
   * month itself, as a JavaScript `Date` always holds a normalised month.
   */
  function MonthKey(d: Date): (k: string)
    ensures IsValid(d) && d.year >= 0 ==> k == NatToString(d.year) + "-" + Pad2(d.month)
    ensures |k| >= 4
  {
    var o := OrdinalOf(d);
    YearText(YearOf(o)) + "-" + Pad2(MonthOf(o))
  }

  function MonthKeyOf(t: Txn): string {
    MonthKey(t.at.date)
  }

  /**
   * Two days of years written without a sign share a month key exactly when they
   * lie in the same month of the same year.
   */
  lemma MonthKeyInjective(a: Date, b: Date)
    requires IsValid(a) && IsValid(b) && a.year >= 0 && b.year >= 0
    ensures MonthKey(a) == MonthKey(b) <==> a.year == b.year && a.month == b.month
  {
    if MonthKey(a) == MonthKey(b) {
      var ya, yb := NatToString(a.year), NatToString(b.year);
      var pa, pb := Pad2(a.month), Pad2(b.month);
      var k := MonthKey(a);
      assert k == ya + "-" + pa == yb + "-" + pb;
      assert |ya| == |yb|;
      assert ya == k[..|ya|] == yb;
      assert pa == k[|ya| + 1..] == pb;
      NatToStringInjective(a.year, b.year);
      JsNumber.Pad2Value(a.month);
      JsNumber.Pad2Value(b.month);
    }
  }
}

=== FILE: updates.dfy ===
/**
 * The partial update `updateExpense` and `updateIncome` share: an `updateData`
 * object built from the truthy fields of the request, applied to the row with the
 * given id that belongs to the caller, then read back with `.single()`.
 */
module Updates {
  import opened Wrappers
  import opened Calendar
  import opened Seqs
  import opened JsNumber
  import opened Records

  /** The optional fields of a partial update; a date given as an empty string is `None`. */
  datatype Patch = Patch(
    title: Option<string>,
    amount: Option<string>,
    category: Option<string>,
    date: Option<Date>,
    paymentMethod: Option<string>)

  const EmptyPatch := Patch(None, None, None, None, None)

  /** A truthy amount must pass the amount check; an absent or empty one is not looked at. */
  predicate AmountAccepted(p: Patch) {
    Given(p.amount) ==> IsValidAmount(p.amount.value)
  }

  /**
   * The row after `update(updateData)`: each truthy field of the patch overwrites
   * its column and nothing else changes.
   */
  function ApplyPatch(f: Fields, p: Patch): (g: Fields)
    requires AmountAccepted(p)
    ensures g.userId == f.userId && g.purchaseDate == f.purchaseDate && g.parentId == f.parentId
    ensures g.installmentsTotal == f.installmentsTotal && g.installmentNumber == f.installmentNumber
    ensures Given(p.title) ==> g.title == p.title.value
    ensures !Given(p.title) ==> g.title == f.title
    ensures Given(p.amount) ==> g.amount == AmountCents(p.amount.value)
    ensures !Given(p.amount) ==> g.amount == f.amount
    ensures Given(p.category) ==> g.category == p.category.value
    ensures !Given(p.category) ==> g.category == f.category
    ensures p.date.Some? ==> g.date == p.date.value
    ensures p.date.None? ==> g.date == f.date
    ensures Given(p.paymentMethod) ==> g.paymentMethod == p.paymentMethod
    ensures !Given(p.paymentMethod) ==> g.paymentMethod == f.paymentMethod
  {
    Fields(
      f.userId,
      if Given(p.title) then p.title.value else f.title,
      if Given(p.amount) then AmountCents(p.amount.value) else f.amount,
      if Given(p.category) then p.category.value else f.category,
      if p.date.Some? then p.date.value else f.date,
      if Given(p.paymentMethod) then p.paymentMethod else f.paymentMethod,
      f.purchaseDate,
      f.installmentsTotal,
      f.installmentNumber,
      f.parentId)
  }

  /** A request with no truthy field leaves the row as it was. */
  lemma EmptyPatchIdentity(f: Fields)
    ensures ApplyPatch(f, EmptyPatch) == f
  {
  }

  /** Applying the same request twice is applying it once. */
  lemma PatchIdempotent(f: Fields, p: Patch)
    requires AmountAccepted(p)
    ensures ApplyPatch(ApplyPatch(f, p), p) == ApplyPatch(f, p)
  {
  }

  /** The store with `p` applied to the rows satisfying `target`. */
  function PatchRows(rows: seq<Row>, target: Row -> bool, p: Patch): (r: seq<Row>)
    requires AmountAccepted(p)
    ensures |r| == |rows|
    ensures forall i :: 0 <= i < |rows| ==> r[i].id == rows[i].id && r[i].fields.userId == rows[i].fields.userId
    ensures forall i :: 0 <= i < |rows| && !target(rows[i]) ==> r[i] == rows[i]
    ensures forall i :: 0 <= i < |rows| && target(rows[i]) ==> r[i].fields == ApplyPatch(rows[i].fields, p)
  {
    seq(|rows|, i requires 0 <= i < |rows| =>
      if target(rows[i]) then Row(rows[i].id, ApplyPatch(rows[i].fields, p)) else rows[i])
  }

  /**
   * The update shared by both actions, once any action-specific guard has passed:
   * the amount check, `update(...).eq("id", id).eq("user_id", user)`, and
   * `.select().single()` on the result.
   */
  function UpdateOwned(user: string, id: int, p: Patch, store: seq<Row>): (r: (Outcome<Row>, seq<Row>))
    ensures !AmountAccepted(p) ==> r == (Err(InvalidAmount), store)
    ensures |r.1| == |store|
    ensures forall i :: 0 <= i < |store| && !IdAndOwner(id, user)(store[i]) ==> r.1[i] == store[i]
    ensures AmountAccepted(p) ==> forall i :: 0 <= i < |store| && IdAndOwner(id, user)(store[i]) ==>
              r.1[i] == Row(id, ApplyPatch(store[i].fields, p))
    ensures r.0.Ok? <==> AmountAccepted(p) && |Filter(store, IdAndOwner(id, user))| == 1
    ensures r.0.Ok? ==> r.0.value in r.1 && r.0.value.id == id && r.0.value.fields.userId == user
    ensures r.0.Ok? ==> exists i :: 0 <= i < |store| && IdAndOwner(id, user)(store[i])
                                   && r.0.value == Row(id, ApplyPatch(store[i].fields, p))
    ensures r.0.Err? && AmountAccepted(p) ==> r.0 == Err(DatabaseError)
  {
    if !AmountAccepted(p) then (Err(InvalidAmount), store)
    else
      var target := IdAndOwner(id, user);
      var after := PatchRows(store, target, p);
      FilterCountAligned(store, after, target, target);
      match Single(after, target)
      case None => (Err(DatabaseError), after)
      case Some(row) =>
        UpdatedRowOrigin(store, after, target, p, row);
        (Ok(row), after)
  }

  /** The row read back after a patch is the patched version of a row that matched. */
  lemma UpdatedRowOrigin(store: seq<Row>, after: seq<Row>, target: Row -> bool, p: Patch, row: Row)
    requires AmountAccepted(p) && after == PatchRows(store, target, p)
    requires row in after && target(row)
    ensures exists i :: 0 <= i < |store| && target(store[i]) && row == Row(store[i].id, ApplyPatch(store[i].fields, p))
  {
    var i :| 0 <= i < |after| && after[i] == row;
    assert target(store[i]);
  }
}

=== FILE: wrappers.dfy ===
/** Optional values: the model's reading of a JavaScript `undefined` / `null`. */
module Wrappers {

  datatype Option<+T> = None | Some(value: T) {

    /** Returns the wrapped value, or `default` when there is none. */
    function GetOr(default: T): T {
      match this
      case Some(v) => v
      case None => default
    }
  }

  /** Result of a server action: either a value or the error message it reports. */
  datatype Outcome<+T> = Ok(value: T) | Err(message: string)

  /** JavaScript truthiness of a nullable number: present and not 0. */
  predicate Truthy(o: Option<int>) {
    o.Some? && o.value != 0
  }

  /** JavaScript truthiness of an optional string: present and not empty. */
  predicate Given(o: Option<string>) {
    o.Some? && o.value != ""
  }
}
